=== FILE: README.md ===
# Bootcamp projects: a verified model of their core logic

The repository is a collection of bootcamp projects. This project models the
parts of them that carry real logic, one Dafny module per source file:

- a pygame Flappy-Bird clone (`Flappy`): bird physics, walls and scoring,
  enemies, coins, fireballs, spawn timers, the start/playing/game-over state
  machine, the high score and the volume controls;
- the AI note taker, a Next.js app:
  - its API routes for notes (`NotesApi`), sections (`SectionsApi`), AI
    generation (`GenerateRoute`) and AI summaries (`SummarizeRoute`);
  - the dashboard page (`Dashboard`), the note card (`NoteCard`) and the
    admin user list (`AdminUsers`);
  - the rich-text editor commands and the save flow of the note dialog
    (`NoteEditor`);
- the week-one calculator (`Calculator`) and image gallery (`Gallery`);
- the newsletter crew's markdown-to-HTML generator (`Newsletter`, `Markdown`);
- the summary browser extension's popup (`SummaryPopup`) and background worker
  (`SummaryWorker`);
- the file organiser script (`OrganizeFiles`).

Shared helper modules:

- `Wrappers`: optional values and JavaScript truthiness of strings.
- `Text`: JavaScript and Python white-space trimming, splitting and joining,
  decimal rendering of naturals, and cutting text with an ellipsis.
- `Seqs`: filter, map and count over sequences, with their laws.
- `Sorting`: a stable insertion sort by an integer key, used for the database's
  `orderBy`.
- `Http`: route replies and language-model completions.

Everything outside the program is an input to the model. That covers the
signed-in user, environment variables, the database contents, the language
model's answer, random draws, rectangle collisions, the DOM's text extraction
and the clock. Those inputs appear as parameters: plain values, or functions
standing for an oracle.

## Model

Source paths are relative to the repository root.

| member | source | states |
|---|---|---|
| Flappy.Flap | ai-maker-bootcamp/week-3/flappy-bird/game.py:35-38 | flapping sets the velocity to the flap strength and enables gravity; nothing else about the bird changes |
| Flappy.BirdStep | ai-maker-bootcamp/week-3/flappy-bird/game.py:40-45 | the bird moves by its new velocity; gravity is added only once it has flapped |
| Flappy.UnflappedBirdDrifts | ai-maker-bootcamp/week-3/flappy-bird/game.py:40-45 | before the first flap the bird keeps its velocity and after n frames has moved n times that velocity |
| Flappy.FlapThenStep | ai-maker-bootcamp/week-3/flappy-bird/game.py:35-45 | one frame after a flap the bird has risen by flap strength plus gravity |
| Flappy.WallGap | ai-maker-bootcamp/week-3/flappy-bird/game.py:61 | the gap is the requested size, raised to at least the minimum plus 20 |
| Flappy.NewWall | ai-maker-bootcamp/week-3/flappy-bird/game.py:57-81 | a wall is made iff the random range for its gap is non-empty; it is unpassed, at the given x, with a gap of at least the minimum plus 20 centred on the draw |
| Flappy.MoveWall | ai-maker-bootcamp/week-3/flappy-bird/game.py:83-85 | a wall moves left by its speed and nothing else changes |
| Flappy.MaxX | ai-maker-bootcamp/week-3/flappy-bird/game.py:857 | the largest x among the walls, attained by one of them |
| Flappy.SpawnWalls | ai-maker-bootcamp/week-3/flappy-bird/game.py:851-868 | no wall is added when none is due; when one is due, the spawn raises iff the gap cannot be drawn, and otherwise one unpassed wall is appended at the right edge |
| Flappy.ShouldSpawnWallIffAllLeft | ai-maker-bootcamp/week-3/flappy-bird/game.py:851-859 | a wall spawns exactly when there is none, or every wall is further left than the screen width minus the spacing |
| Flappy.SweepWalls | ai-maker-bootcamp/week-3/flappy-bird/game.py:870-887 | the sweep crashes iff some moved wall hits the bird; without a crash the walls kept are exactly the moved walls, marked passed once cleared, that are still on screen, in order, and the points gained are exactly the number of moved, not yet passed walls whose right edge is left of the bird; on a crash at the first wall hit, the walls before it are swept as above, the hit wall is moved and the walls after it are left unmoved, and the points are those of the walls before it; points never exceed the walls newly passed |
| Flappy.ClearedWallsScoreNothing | ai-maker-bootcamp/week-3/flappy-bird/game.py:880-883 | walls already passed never score again |
| Flappy.SweepEnemies | ai-maker-bootcamp/week-3/flappy-bird/game.py:903-913 | the sweep crashes iff some moved enemy hits the bird; otherwise the survivors are exactly the moved enemies still on screen, in order |
| Flappy.SweepEnemiesCrash | ai-maker-bootcamp/week-3/flappy-bird/game.py:903-913 | on a crash the sweep stops at the first enemy hit: the enemies before it are moved and those off screen dropped, the hit enemy is moved, and the enemies after it are left unmoved |
| Flappy.SurvivorsOnScreen | ai-maker-bootcamp/week-3/flappy-bird/game.py:903-913 | with no hit, no enemy is added, every survivor is on screen and every moved enemy still on screen survives |
| Flappy.SweepPickups | ai-maker-bootcamp/week-3/flappy-bird/game.py:1630-1651 | the pickups taken are exactly the moved ones the bird touches that were not yet collected, counted once each; the kept ones are exactly the rest still on screen, in order |
| Flappy.PickupsAccounted | ai-maker-bootcamp/week-3/flappy-bird/game.py:1630-1651 | kept plus taken never exceed the pickups swept; every kept one is on screen and untouched |
| Flappy.MoveProjectile | ai-maker-bootcamp/week-3/flappy-bird/game.py:385-389 | a fireball moves right by its speed |
| Flappy.FirstBurnt | ai-maker-bootcamp/week-3/flappy-bird/game.py:1656-1672 | the index of the first enemy the fireball burns, or none when it burns none |
| Flappy.SweepProjectiles | ai-maker-bootcamp/week-3/flappy-bird/game.py:1653-1676 | each kill removes one enemy and one fireball: surviving enemies plus kills equal the enemies before, the survivors are drawn from the enemies, and surviving fireballs are on screen |
| Flappy.OneFireball | ai-maker-bootcamp/week-3/flappy-bird/game.py:1653-1676 | a single fireball removes exactly the first enemy it burns and scores one kill; it raises iff it burns an enemy once off screen; burning nothing it stays iff on screen |
| Flappy.VolleyRaises | ai-maker-bootcamp/week-3/flappy-bird/game.py:1653-1676 | a volley raises only when some fireball that has left the screen burns one of the enemies |
| Flappy.VolleyCompletes | ai-maker-bootcamp/week-3/flappy-bird/game.py:1653-1676 | conversely, when no off-screen fireball burns any enemy the volley completes |
| Flappy.HarmlessVolley | ai-maker-bootcamp/week-3/flappy-bird/game.py:1653-1676 | fireballs that burn nothing never raise, kill nothing and leave the enemies as they were |
| Flappy.ClearancePadding | ai-maker-bootcamp/week-3/flappy-bird/game.py:934-940 | the padding is 25, 20 or 15 exactly on the three gap-height bands |
| Flappy.ClearancePaddingMonotone | ai-maker-bootcamp/week-3/flappy-bird/game.py:934-940 | a taller gap never gets less padding |
| Flappy.GapSlot | ai-maker-bootcamp/week-3/flappy-bird/game.py:929-981 | a gap offers a coin slot exactly when all the size checks pass, and the slot is the centre of the padded area |
| Flappy.GapSlotInsidePadding | ai-maker-bootcamp/week-3/flappy-bird/game.py:943-981 | an accepted item lies inside the padded area, with room for the bird above and below |
| Flappy.ClusterCoins | ai-maker-bootcamp/week-3/flappy-bird/game.py:1246-1256 | a cluster has n coins at the same x, spaced coin size plus 15 apart |
| Flappy.ClusterLayout | ai-maker-bootcamp/week-3/flappy-bird/game.py:1246-1249 | neighbouring coins are one spacing apart, and the column is centred on the slot up to half a pixel |
| Flappy.Tick | ai-maker-bootcamp/week-3/flappy-bird/game.py:890-892 | a timer fires iff its incremented value reaches the period, and is then reset to 0 |
| Flappy.TickKeepsRange | ai-maker-bootcamp/week-3/flappy-bird/game.py:890-892 | a timer stays below its period and fires exactly at period minus one |
| Flappy.TimerFiresOnPeriod | ai-maker-bootcamp/week-3/flappy-bird/game.py:916-918 | from zero, a timer first fires on exactly the period-th frame |
| Flappy.Clamp01 | ai-maker-bootcamp/week-3/flappy-bird/game.py:598 | the volume is clamped into [0, 1] and unchanged inside it |
| Flappy.SetVolume | ai-maker-bootcamp/week-3/flappy-bird/game.py:595-607 | volume 0 mutes; raising it from 0 unmutes; otherwise the mute flag is kept |
| Flappy.ToggleMute | ai-maker-bootcamp/week-3/flappy-bird/game.py:615-618 | the mute flag flips and nothing else changes |
| Flappy.ToggleMuteInvolution | ai-maker-bootcamp/week-3/flappy-bird/game.py:615-618 | toggling twice restores the game; the effective volume switches between 0 and the volume |
| Flappy.SliderSoundLevel | ai-maker-bootcamp/week-3/flappy-bird/game.py:595-607 | sliding to 0 silences; sliding up from 0 plays at the clamped level |
| Flappy.EffectVolume | ai-maker-bootcamp/week-3/flappy-bird/game.py:1687-1695 | effect sounds are silent when muted; otherwise the level is min(1, max(floor, 2 × volume)): exactly twice the volume between the floor and 1, exactly the floor below it, 1 above |
| Flappy.StartGame | ai-maker-bootcamp/week-3/flappy-bird/game.py:664-698 | starting resets score, coins, ammunition and objects, sets all five spawn timers to 0 and the last wall position to the screen width, keeps high score, level and volume, and gives a consistent game |
| Flappy.EndGame | ai-maker-bootcamp/week-3/flappy-bird/game.py:1703-1708 | game over raises the high score to the score when it is higher, and changes nothing else |
| Flappy.Shoot | ai-maker-bootcamp/week-3/flappy-bird/game.py:626-652 | a shot spends one ammunition and adds one fireball exactly when there is ammunition and a bird sprite; otherwise nothing happens |
| Flappy.OnKey | ai-maker-bootcamp/week-3/flappy-bird/game.py:705-724 | space starts a game outside play; in play, space flaps, shift-space and F shoot; scores never change |
| Flappy.WallStage | ai-maker-bootcamp/week-3/flappy-bird/game.py:850-887 | the stage raises iff the spawn check does; it ends the round (game over) iff the bird hits one of the walls after the spawn; otherwise the walls are exactly the advanced walls still on screen, the score grows by exactly the walls cleared and the high score is kept; on game over the walls and the score are exactly those the wall loop leaves at the first wall hit, and the high score is the larger of the old high score and that score; only walls, score, `lastWallX`, phase and high score change (all in `WallsStaged`) |
| Flappy.EnemyStage | ai-maker-bootcamp/week-3/flappy-bird/game.py:889-913 | the stage raises exactly when the timer fires on an empty range; the timer takes its next value; the round ends iff the bird hits one of the enemies after the spawn; otherwise the enemies are exactly the moved ones still on screen, in order; on game over the enemies are exactly those the enemy loop leaves at the first enemy hit, and the high score is the larger of the old high score and the score; nothing else changes |
| Flappy.SpawnStage | ai-maker-bootcamp/week-3/flappy-bird/game.py:915-1629 | each of the three timers ticks; the frame's new coins, its coin cluster and its new collectibles are appended exactly when their timer fires; nothing else changes |
| Flappy.HarvestStage | ai-maker-bootcamp/week-3/flappy-bird/game.py:1630-1701 | the stage raises iff the volley does; ammunition grows by exactly one per collectible taken and the coin count by exactly one per coin taken; the kept coins and collectibles are exactly the untouched ones on screen; the score grows by 5 per coin and 10 per kill; enemies never grow |
| Flappy.UpdateProgress | ai-maker-bootcamp/week-3/flappy-bird/game.py:837-1701 | a frame never lowers score, high score or coin count, keeps the invariant and the level, and ends only in game over with high score at least the score; a bird that leaves the screen ends the round at once; outside play nothing changes |
| Flappy.WallHitEndsRound | ai-maker-bootcamp/week-3/flappy-bird/game.py:870-878 | inside the screen, hitting a wall after the spawn check ends the round |
| Flappy.EnemyHitEndsRound | ai-maker-bootcamp/week-3/flappy-bird/game.py:903-908 | inside the screen, missing every wall and hitting an enemy ends the round, unless the enemy spawn raised |
| Flappy.RoundEndsOnlyOnHit | ai-maker-bootcamp/week-3/flappy-bird/game.py:837-1701 | inside the screen, a frame ends the round only through a wall or an enemy hit |
| Flappy.ApplyKeepsHighScore | ai-maker-bootcamp/week-3/flappy-bird/game.py:700-724 | every input keeps the invariant and never lowers the high score |
| Flappy.HighScoreNeverDecreases | ai-maker-bootcamp/week-3/flappy-bird/game.py:1703-1708 | over any sequence of inputs the high score never decreases |
| NoteEditor.SplitAt | ai-maker-bootcamp/week-2/ai-note-taker/components/dashboard/NoteDialog.tsx:41-42 | splitting a text node at the caret keeps the document's text; the prefix is the text before the caret |
| NoteEditor.Selected | ai-maker-bootcamp/week-2/ai-note-taker/components/dashboard/NoteDialog.tsx:33 | the selection's text is exactly what lies between the text before its start and before its end |
| NoteEditor.InsertAt | ai-maker-bootcamp/week-2/ai-note-taker/components/dashboard/NoteDialog.tsx:41-42 | inserting a node puts it at the caret with the text before and after unchanged |
| NoteEditor.ReplaceRange | ai-maker-bootcamp/week-2/ai-note-taker/components/dashboard/NoteDialog.tsx:98-99 | deleting a range and inserting a node leaves text-before, node, text-after |
| NoteEditor.MarkThenRun | ai-maker-bootcamp/week-2/ai-note-taker/components/dashboard/NoteDialog.tsx:40-58 | the marker path inserts one zero-width space at the range start, runs the command on it and puts the caret after it |
| NoteEditor.FormatText | ai-maker-bootcamp/week-2/ai-note-taker/components/dashboard/NoteDialog.tsx:15-63 | no editor, no range or a range outside the editor does nothing; a non-blank selection runs the browser command; a blank one takes the marker path |
| NoteEditor.FormatTextMarker | ai-maker-bootcamp/week-2/ai-note-taker/components/dashboard/NoteDialog.tsx:38-58 | the marker path adds exactly one zero-width space to the text, at the range start |
| NoteEditor.ApplyFont | ai-maker-bootcamp/week-2/ai-note-taker/components/dashboard/NoteDialog.tsx:66-148 | the same guards; colour goes through the browser command, family and size through a span |
| NoteEditor.FontSpanKeepsText | ai-maker-bootcamp/week-2/ai-note-taker/components/dashboard/NoteDialog.tsx:91-106 | a styled span replaces the selection with the same text, so the document's text is unchanged |
| NoteEditor.FontSpanForNextText | ai-maker-bootcamp/week-2/ai-note-taker/components/dashboard/NoteDialog.tsx:128-145 | with a blank selection, an empty span goes in at the start and the caret goes inside it |
| NoteEditor.ChecklistLabels | ai-maker-bootcamp/week-2/ai-note-taker/components/dashboard/NoteDialog.tsx:163-166 | the labels are the selection's trimmed, non-empty lines, in order |
| NoteEditor.ChecklistOfLines | ai-maker-bootcamp/week-2/ai-note-taker/components/dashboard/NoteDialog.tsx:163-166 | joined lines give exactly the filtered trimmed lines |
| NoteEditor.BlankLinesNoItems | ai-maker-bootcamp/week-2/ai-note-taker/components/dashboard/NoteDialog.tsx:163-166 | an all-blank selection gives an empty list |
| NoteEditor.Unchecked | ai-maker-bootcamp/week-2/ai-note-taker/components/dashboard/NoteDialog.tsx:167 | one unchecked item per label, captioned by it |
| NoteEditor.SetStartAfter | ai-maker-bootcamp/week-2/ai-note-taker/components/dashboard/NoteDialog.tsx:177 | placing the caret after a node succeeds exactly when the node has a parent |
| NoteEditor.InsertChecklistAsWritten | ai-maker-bootcamp/week-2/ai-note-taker/components/dashboard/NoteDialog.tsx:152-231 | the command as written: nothing without an editor or range; with a range, it finishes when nothing is selected and throws after editing exactly when text is selected |
| NoteEditor.ChecklistFromSelectionThrows | ai-maker-bootcamp/week-2/ai-note-taker/components/dashboard/NoteDialog.tsx:171-177 | as written, a non-empty selection always edits the document and then throws |
| NoteEditor.ChecklistThrowsOnWord | ai-maker-bootcamp/week-2/ai-note-taker/components/dashboard/NoteDialog.tsx:171-177 | a one-letter selection already throws |
| NoteEditor.InsertChecklist | ai-maker-bootcamp/week-2/ai-note-taker/components/dashboard/NoteDialog.tsx:152-231 | with the caret placed after the list, the command always completes with the caret in the document |
| NoteEditor.ChecklistFromSelection | ai-maker-bootcamp/week-2/ai-note-taker/components/dashboard/NoteDialog.tsx:160-181 | a selection becomes one list of unchecked items replacing it, one per non-blank line |
| NoteEditor.ChecklistAtCaret | ai-maker-bootcamp/week-2/ai-note-taker/components/dashboard/NoteDialog.tsx:182-208 | an empty selection gets one empty unchecked item, with the caret in its text |
| NoteEditor.ChecklistIgnoresEditorCheck | ai-maker-bootcamp/week-2/ai-note-taker/components/dashboard/NoteDialog.tsx:152-160 | the checklist command never asks whether the range lies in the editor |
| NoteEditor.OnResult | ai-maker-bootcamp/week-2/ai-note-taker/components/dashboard/NoteDialog.tsx:366-378 | the transcript only grows: the old one is a prefix of the new |
| NoteEditor.FinalTextIsFinalResults | ai-maker-bootcamp/week-2/ai-note-taker/components/dashboard/NoteDialog.tsx:369-376 | the growth is the final results, in order, each followed by a space |
| NoteEditor.InterimOnly | ai-maker-bootcamp/week-2/ai-note-taker/components/dashboard/NoteDialog.tsx:369-378 | interim results alone leave the transcript unchanged |
| NoteEditor.SaveRequest | ai-maker-bootcamp/week-2/ai-note-taker/components/dashboard/NoteDialog.tsx:500-523 | a request is sent iff the trimmed title and text are non-empty; it carries the editor's HTML, else the draft |
| NoteEditor.AfterSave | ai-maker-bootcamp/week-2/ai-note-taker/components/dashboard/NoteDialog.tsx:515-543 | a successful save resets the draft to its defaults; a failed or refused one keeps it |
| NoteEditor.ResetDraftNotSavable | ai-maker-bootcamp/week-2/ai-note-taker/components/dashboard/NoteDialog.tsx:505-531 | a draft just reset by a save cannot be saved again |
| Calculator.Append | ai-maker-bootcamp/week-1/calculator/script.js:26-39 | after a result the input restarts from 0; a lone 0 is replaced unless a point is typed; the display shows the input |
| Calculator.Clear | ai-maker-bootcamp/week-1/calculator/script.js:41-45 | clearing shows 0 and cancels a pending reset |
| Calculator.DeleteLast | ai-maker-bootcamp/week-1/calculator/script.js:47-54 | the last character goes, or the input becomes 0 when one is left |
| Calculator.Calculate | ai-maker-bootcamp/week-1/calculator/script.js:56-76 | a result becomes input and display; an error shows "Error" with input 0; both set the pending reset |
| Calculator.InputNeverEmpty | ai-maker-bootcamp/week-1/calculator/script.js:26-76 | no sequence of key presses empties the input |
| Calculator.AppendThenDelete | ai-maker-bootcamp/week-1/calculator/script.js:26-54 | deleting right after typing a character undoes it |
| Calculator.DigitAfterEquals | ai-maker-bootcamp/week-1/calculator/script.js:27-35 | typing after a result starts a new number |
| Calculator.RandomItem | ai-maker-bootcamp/week-1/calculator/script.js:186-188 | an item is drawn iff the list is non-empty, and it is one of its items |
| Calculator.RandomItemReachesAll | ai-maker-bootcamp/week-1/calculator/script.js:186-188 | every item is drawn for some random number |
| Gallery.FilterGallery | ai-maker-bootcamp/week-1/image-gallery/script.js:182-190 | "all" shows every image; otherwise exactly the images of that category, in order, as many as there are of it |
| Gallery.JsRem | ai-maker-bootcamp/week-1/image-gallery/script.js:221-226 | JavaScript's remainder: Euclidean for non-negatives, non-positive for negatives |
| Gallery.Open | ai-maker-bootcamp/week-1/image-gallery/script.js:201-206 | opening shows the clicked image |
| Gallery.Next | ai-maker-bootcamp/week-1/image-gallery/script.js:220-223 | the next image stays in range and the list is kept |
| Gallery.Prev | ai-maker-bootcamp/week-1/image-gallery/script.js:225-228 | the previous image stays in range and the list is kept |
| Gallery.PrevNextInverse | ai-maker-bootcamp/week-1/image-gallery/script.js:220-228 | previous undoes next and next undoes previous |
| Gallery.NextTimesAdvances | ai-maker-bootcamp/week-1/image-gallery/script.js:220-223 | k presses of next advance the index by k modulo the count |
| Gallery.FullCircle | ai-maker-bootcamp/week-1/image-gallery/script.js:220-223 | as many presses as images return to the start |
| Gallery.Swipe | ai-maker-bootcamp/week-1/image-gallery/script.js:359-371 | a left swipe over 50 pixels goes forward, a right one back, a shorter one nowhere |
| Gallery.SwipeDirectionsExclusive | ai-maker-bootcamp/week-1/image-gallery/script.js:362-370 | a swipe is never both left and right |
| Gallery.CounterPosition | ai-maker-bootcamp/week-1/image-gallery/script.js:217 | the caption starts with the 1-based position, " / ", the number of images shown and " â€” Photo by " (the characters U+00E2 U+20AC U+201D the file holds), and ends with the photographer; the numbers read back as index + 1 and the count |
| Markdown.Escape | ai-maker-bootcamp/week-4/agents/newsletter_crew/src/newsletter_crew/main.py:259 | escaped text contains no markup character |
| Markdown.UnescapeEscape | ai-maker-bootcamp/week-4/agents/newsletter_crew/src/newsletter_crew/main.py:259 | escaping loses nothing: unescaping gives the text back |
| Markdown.IndexOf | ai-maker-bootcamp/week-4/agents/newsletter_crew/src/newsletter_crew/main.py:248 | the first occurrence of a character from a position, or none |
| Markdown.LinkAtFindsLink | ai-maker-bootcamp/week-4/agents/newsletter_crew/src/newsletter_crew/main.py:248-256 | a well-formed link at the front is recognised whole |
| Markdown.TokenizeRoundTrip | ai-maker-bootcamp/week-4/agents/newsletter_crew/src/newsletter_crew/main.py:248-256 | cutting text into plain runs and links loses nothing |
| Markdown.TokenizeWithoutBrackets | ai-maker-bootcamp/week-4/agents/newsletter_crew/src/newsletter_crew/main.py:248-256 | text without a bracket is one plain run |
| Markdown.ToHtmlWithoutLinks | ai-maker-bootcamp/week-4/agents/newsletter_crew/src/newsletter_crew/main.py:240-265 | text without links is only escaped, so it decodes back to itself |
| Markdown.TokenizeWellSplit | ai-maker-bootcamp/week-4/agents/newsletter_crew/src/newsletter_crew/main.py:248-256 | every link found is one the pattern accepts, and every plain run is non-empty, followed by a link or the end, with no position where a link would match |
| Markdown.WellSplitIsTokenize | ai-maker-bootcamp/week-4/agents/newsletter_crew/src/newsletter_crew/main.py:248-256 | any well-split segments that spell a text are exactly its scan |
| Markdown.TokenizeCharacterised | ai-maker-bootcamp/week-4/agents/newsletter_crew/src/newsletter_crew/main.py:248-256 | the scan of a text is the one well-split cutting of it into plain runs and links |
| Markdown.ToHtmlBySegment | ai-maker-bootcamp/week-4/agents/newsletter_crew/src/newsletter_crew/main.py:240-265 | around each segment of the scan the text and the HTML split alike: a plain run becomes its escaped text, a link its anchor |
| Newsletter.MainTitleIsNotHeading | ai-maker-bootcamp/week-4/agents/newsletter_crew/src/newsletter_crew/main.py:45-56 | a main-title line is never a section heading |
| Newsletter.SectionTitlesAsWritten | ai-maker-bootcamp/week-4/agents/newsletter_crew/src/newsletter_crew/main.py:36-67 | as written, sections come only from headings whose stripped title is non-empty |
| Newsletter.EmptyTitleDropsSection | ai-maker-bootcamp/week-4/agents/newsletter_crew/src/newsletter_crew/main.py:47-63 | for "## " then "hello", the code yields no section where the intended parser yields one |
| Newsletter.SectionTitles | ai-maker-bootcamp/week-4/agents/newsletter_crew/src/newsletter_crew/main.py:36-67 | each heading line opens exactly one section, titled by the stripped rest of the line, in order |
| Newsletter.PreambleIgnored | ai-maker-bootcamp/week-4/agents/newsletter_crew/src/newsletter_crew/main.py:58 | lines before the first heading never reach a section |
| Newsletter.MainTitlesIgnored | ai-maker-bootcamp/week-4/agents/newsletter_crew/src/newsletter_crew/main.py:54-56 | main-title lines are skipped wherever they stand |
| Newsletter.SectionContentClean | ai-maker-bootcamp/week-4/agents/newsletter_crew/src/newsletter_crew/main.py:47-67 | every section's content is stripped and has no blank line |
| Newsletter.FeedAllSections | ai-maker-bootcamp/week-4/agents/newsletter_crew/src/newsletter_crew/main.py:44-67 | fed line by line, the parser yields the open section, completed by the next lines up to the next heading, then one section per heading |
| Newsletter.ParseByHeading | ai-maker-bootcamp/week-4/agents/newsletter_crew/src/newsletter_crew/main.py:35-70 | the parse is one section per heading line, in order |
| Newsletter.SectionContent | ai-maker-bootcamp/week-4/agents/newsletter_crew/src/newsletter_crew/main.py:35-70 | the k-th section is titled by the stripped rest of the k-th heading, and its content is the lines after it up to the next heading, without blank lines and main titles, joined by newlines and stripped |
| Newsletter.CleanContentIsOneParagraph | ai-maker-bootcamp/week-4/agents/newsletter_crew/src/newsletter_crew/main.py:279-289 | clean content renders as exactly one paragraph |
| Newsletter.ParsedSectionIsOneParagraph | ai-maker-bootcamp/week-4/agents/newsletter_crew/src/newsletter_crew/main.py:279-289 | so every parsed section renders as one paragraph, and the blank-line split is never taken |
| Newsletter.FullWidthArticles | ai-maker-bootcamp/week-4/agents/newsletter_crew/src/newsletter_crew/main.py:275-277 | exactly the first and the last article are full-width |
| SummaryPopup.Opening | ai-maker-bootcamp/week-5/ai-summary/codecademy-chrome-boiler-template/src/pages/Popup/Popup.jsx:5-9 | the popup opens loading, with no summaries and the key panel closed |
| SummaryPopup.LoadApiKey | ai-maker-bootcamp/week-5/ai-summary/codecademy-chrome-boiler-template/src/pages/Popup/Popup.jsx:16-24 | a stored key fills the field and counts as saved; loading ends either way |
| SummaryPopup.LoadSummaries | ai-maker-bootcamp/week-5/ai-summary/codecademy-chrome-boiler-template/src/pages/Popup/Popup.jsx:43-48 | the list becomes the stored list and nothing else changes |
| SummaryPopup.EditKey | ai-maker-bootcamp/week-5/ai-summary/codecademy-chrome-boiler-template/src/pages/Popup/Popup.jsx:112 | typing changes only the key field |
| SummaryPopup.ShowKeyInput | ai-maker-bootcamp/week-5/ai-summary/codecademy-chrome-boiler-template/src/pages/Popup/Popup.jsx:139 | the add-key button opens the input and changes nothing else |
| SummaryPopup.SaveApiKey | ai-maker-bootcamp/week-5/ai-summary/codecademy-chrome-boiler-template/src/pages/Popup/Popup.jsx:26-33 | a blank key is ignored; otherwise the trimmed key is stored and the input closes |
| SummaryPopup.RemoveApiKey | ai-maker-bootcamp/week-5/ai-summary/codecademy-chrome-boiler-template/src/pages/Popup/Popup.jsx:35-41 | the key leaves storage and the field; the summaries are untouched |
| SummaryPopup.PanelOf | ai-maker-bootcamp/week-5/ai-summary/codecademy-chrome-boiler-template/src/pages/Popup/Popup.jsx:103-144 | the input shows iff requested; otherwise the configured panel iff a key is saved |
| SummaryPopup.SavedKeyIsTrimmed | ai-maker-bootcamp/week-5/ai-summary/codecademy-chrome-boiler-template/src/pages/Popup/Popup.jsx:26-33 | a saved key is already trimmed, reloads as the trimmed key and shows as configured |
| SummaryPopup.RemoveAfterSave | ai-maker-bootcamp/week-5/ai-summary/codecademy-chrome-boiler-template/src/pages/Popup/Popup.jsx:26-41 | removing undoes saving: nothing is stored and the add button returns |
| SummaryPopup.DeleteSummary | ai-maker-bootcamp/week-5/ai-summary/codecademy-chrome-boiler-template/src/pages/Popup/Popup.jsx:50-55 | every summary with the id goes, the others stay in order, as many as carry another id, and storage holds the same list |
| SummaryPopup.DeleteIdempotent | ai-maker-bootcamp/week-5/ai-summary/codecademy-chrome-boiler-template/src/pages/Popup/Popup.jsx:50-55 | deleting an id twice is deleting it once |
| SummaryPopup.DeleteMissingId | ai-maker-bootcamp/week-5/ai-summary/codecademy-chrome-boiler-template/src/pages/Popup/Popup.jsx:50-55 | deleting an absent id leaves the list as it was |
| SummaryPopup.TruncateText | ai-maker-bootcamp/week-5/ai-summary/codecademy-chrome-boiler-template/src/pages/Popup/Popup.jsx:57-60 | short text is kept; longer text is cut to the limit plus "..." |
| SummaryPopup.CardTitle | ai-maker-bootcamp/week-5/ai-summary/codecademy-chrome-boiler-template/src/pages/Popup/Popup.jsx:173 | the card title is never empty and is the summary's title when it has one |
| SummaryPopup.CardDescription | ai-maker-bootcamp/week-5/ai-summary/codecademy-chrome-boiler-template/src/pages/Popup/Popup.jsx:175 | the description is the text cut at 120 characters |
| SummaryWorker.Initialize | ai-maker-bootcamp/week-5/ai-summary/codecademy-chrome-boiler-template/src/pages/Background/index.js:9-18 | a client is (re)built iff the key is present and not blank; otherwise the old client stays |
| SummaryWorker.OnStartup | ai-maker-bootcamp/week-5/ai-summary/codecademy-chrome-boiler-template/src/pages/Background/index.js:21-25 | a stored usable key builds the client at start-up |
| SummaryWorker.OnStorageChanged | ai-maker-bootcamp/week-5/ai-summary/codecademy-chrome-boiler-template/src/pages/Background/index.js:28-32 | only local changes to the key re-initialise |
| SummaryWorker.RemovedKeyKeepsClient | ai-maker-bootcamp/week-5/ai-summary/codecademy-chrome-boiler-template/src/pages/Background/index.js:28-32 | removing the key keeps the client already built |
| SummaryWorker.TruncatePage | ai-maker-bootcamp/week-5/ai-summary/codecademy-chrome-boiler-template/src/pages/Background/index.js:62-65 | page text over 8000 characters is cut to 8000 plus "..." |
| SummaryWorker.StripMarker | ai-maker-bootcamp/week-5/ai-summary/codecademy-chrome-boiler-template/src/pages/Background/index.js:96 | one leading marker and the space after it are removed; the result is a suffix of the line |
| SummaryWorker.Bullets | ai-maker-bootcamp/week-5/ai-summary/codecademy-chrome-boiler-template/src/pages/Background/index.js:92-97 | no bullet is empty and there are no more bullets than lines |
| SummaryWorker.PipelineIsOnePass | ai-maker-bootcamp/week-5/ai-summary/codecademy-chrome-boiler-template/src/pages/Background/index.js:92-97 | the first empty-line filter is redundant: the pipeline equals one clean-and-filter pass |
| SummaryWorker.BulletsOfLines | ai-maker-bootcamp/week-5/ai-summary/codecademy-chrome-boiler-template/src/pages/Background/index.js:92-97 | the bullets of joined lines are those lines, cleaned, with empty ones dropped, in order |
| SummaryWorker.BulletsAreTrimmed | ai-maker-bootcamp/week-5/ai-summary/codecademy-chrome-boiler-template/src/pages/Background/index.js:92-97 | a bullet never starts or ends with white space |
| SummaryWorker.GenerateSummary | ai-maker-bootcamp/week-5/ai-summary/codecademy-chrome-boiler-template/src/pages/Background/index.js:59-111 | success iff the model answers; the bullets, or the whole text as one bullet; the error message or the fixed fallback |
| SummaryWorker.OnGenerate | ai-maker-bootcamp/week-5/ai-summary/codecademy-chrome-boiler-template/src/pages/Background/index.js:35-57 | with a client it summarises; without, the stored key is tried, else the fixed "not configured" error |
| SummaryWorker.MissingContent | ai-maker-bootcamp/week-5/ai-summary/codecademy-chrome-boiler-template/src/pages/Background/index.js:89-103 | an answer without content gives the fixed sentence as the only bullet |
| SummaryWorker.PlainLineIsOneBullet | ai-maker-bootcamp/week-5/ai-summary/codecademy-chrome-boiler-template/src/pages/Background/index.js:92-97 | a plain single line is its own only bullet |
| NoteCard.Preview | ai-maker-bootcamp/week-2/ai-note-taker/components/dashboard/NoteCard.tsx:55-61 | text over 150 characters is cut to 150 plus "..."; shorter content is shown as it is, markup included |
| NoteCard.PlainPreview | ai-maker-bootcamp/week-2/ai-note-taker/components/dashboard/NoteCard.tsx:55-61 | plain content is previewed as the popup's truncation would, at most 153 characters |
| NoteCard.PlainPreviewIdempotent | ai-maker-bootcamp/week-2/ai-note-taker/components/dashboard/NoteCard.tsx:44-61 | a plain preview stays plain, and previewing it again changes nothing |
| NoteCard.BodyStyle | ai-maker-bootcamp/week-2/ai-note-taker/components/dashboard/NoteCard.tsx:26-28 | undefined props take their defaults; the size is the smaller of the prop and 16 |
| NoteCard.Render | ai-maker-bootcamp/week-2/ai-note-taker/components/dashboard/NoteCard.tsx:45-138 | HTML iff both angle brackets occur; "Edited" iff the two dates differ |
| AdminUsers.Distinct | ai-maker-bootcamp/week-2/ai-note-taker/app/admin/users/page.tsx:25-28 | the distinct values, each once, exactly those of the input |
| AdminUsers.Stats | ai-maker-bootcamp/week-2/ai-note-taker/app/admin/users/page.tsx:31-44 | each listed user's row counts that user's notes and sections |
| AdminUsers.UsersPage | ai-maker-bootcamp/week-2/ai-note-taker/app/admin/users/page.tsx:5-44 | a redirect to sign-in iff signed out; otherwise each owner listed once with their counts |
| AdminUsers.EmptyListing | ai-maker-bootcamp/week-2/ai-note-taker/app/admin/users/page.tsx:58-63 | "No users found" shows iff there are no notes and no sections |
| AdminUsers.SumOverOwners | ai-maker-bootcamp/week-2/ai-note-taker/app/admin/users/page.tsx:31-44 | summing each distinct owner's count counts every row once |
| AdminUsers.CountsAddUp | ai-maker-bootcamp/week-2/ai-note-taker/app/admin/users/page.tsx:31-100 | the note column sums to the notes, the section column to the sections, and the activity column to both |
| OrganizeFiles.Lower | ai-maker-bootcamp/week-3/organize-folders-auto/organize_files.py:22 | lower-casing keeps the length and maps each character |
| OrganizeFiles.SuffixStart | ai-maker-bootcamp/week-3/organize-folders-auto/organize_files.py:22 | a suffix starts at the last dot when it is neither the first nor the last character |
| OrganizeFiles.StemSuffix | ai-maker-bootcamp/week-3/organize-folders-auto/organize_files.py:101 | stem and suffix together are the name |
| OrganizeFiles.CategoryOf | ai-maker-bootcamp/week-3/organize-folders-auto/organize_files.py:12-40 | each category is chosen iff the lower-cased suffix is in its extension set |
| OrganizeFiles.CategoryIgnoresCase | ai-maker-bootcamp/week-3/organize-folders-auto/organize_files.py:22 | a name's category does not depend on its case |
| OrganizeFiles.NumberedInjective | ai-maker-bootcamp/week-3/organize-folders-auto/organize_files.py:103 | different counters give different names |
| OrganizeFiles.FirstFree | ai-maker-bootcamp/week-3/organize-folders-auto/organize_files.py:100-105 | the counter loop stops at the first counter whose name is free |
| OrganizeFiles.Destination | ai-maker-bootcamp/week-3/organize-folders-auto/organize_files.py:95-105 | the destination is never taken; it is the name itself when free, else a numbered name |
| OrganizeFiles.Candidates | ai-maker-bootcamp/week-3/organize-folders-auto/organize_files.py:71-73 | the names of the entries that are files other than the script, in directory order: the listing filtered then mapped to names, one per such entry |
| OrganizeFiles.CountMoved | ai-maker-bootcamp/week-3/organize-folders-auto/organize_files.py:110 | a move adds one to exactly its own category and to the total, and leaves the skipped count |
| OrganizeFiles.Process | ai-maker-bootcamp/week-3/organize-folders-auto/organize_files.py:82-114 | the files moved are exactly the candidates that are not hidden and whose move does not raise, in order; each category counts exactly its moved files; every file is counted once; moves never overwrite and never collide |
| OrganizeFiles.Organize | ai-maker-bootcamp/week-3/organize-folders-auto/organize_files.py:43-114 | a missing path and a non-directory are reported; "no files" iff no candidate; otherwise every candidate is counted, the moved ones are exactly the movable candidates in order, and each category counts its moves |
| OrganizeFiles.NothingOverwritten | ai-maker-bootcamp/week-3/organize-folders-auto/organize_files.py:95-109 | no move targets an existing file, and no two moves share a target |
| SummarizeRoute.FirstSentence | ai-maker-bootcamp/week-2/ai-note-taker/app/api/ai/summarize/route.ts:80 | the text's prefix up to its first terminator |
| SummarizeRoute.ExtractTitle | ai-maker-bootcamp/week-2/ai-note-taker/app/api/ai/summarize/route.ts:78-83 | a non-empty title of at most 100 characters: the trimmed first sentence, cut, or "Voice Note" when blank |
| SummarizeRoute.TitleOfFirstSentence | ai-maker-bootcamp/week-2/ai-note-taker/app/api/ai/summarize/route.ts:78-83 | a short trimmed first sentence is the title |
| SummarizeRoute.SentenceBeforeTerminator | ai-maker-bootcamp/week-2/ai-note-taker/app/api/ai/summarize/route.ts:80 | the first sentence is what precedes the first terminator |
| SummarizeRoute.Prompt | ai-maker-bootcamp/week-2/ai-note-taker/app/api/ai/summarize/route.ts:38-40 | the title appears in the prompt iff one is given |
| SummarizeRoute.PromptShowsTitle | ai-maker-bootcamp/week-2/ai-note-taker/app/api/ai/summarize/route.ts:38-40 | the two prompt forms differ right after the instructions |
| SummarizeRoute.Post | ai-maker-bootcamp/week-2/ai-note-taker/app/api/ai/summarize/route.ts:9-75 | 401, then 500 without a key, 500 without a JSON body, 400 iff the text is missing or blank; a valid request gets exactly the 200 summary of a non-empty answer with the given or extracted title, and the catch-block 500 when the model call throws; success always carries such an answer |
| SummarizeRoute.EmptyCompletionFails | ai-maker-bootcamp/week-2/ai-note-taker/app/api/ai/summarize/route.ts:52-59 | an empty answer never succeeds; past the checks it is exactly a 500 "Failed to generate summary" |
| GenerateRoute.DropHeadingMarks | ai-maker-bootcamp/week-2/ai-note-taker/app/api/ai/generate/route.ts:79 | what is left is a suffix of the line; a line without a leading hash is kept whole |
| GenerateRoute.HeadingMarksShape | ai-maker-bootcamp/week-2/ai-note-taker/app/api/ai/generate/route.ts:79 | from a line starting with a hash, what goes is the whole run of leading hashes then white space only, and what is left does not start with white space |
| GenerateRoute.EmptyCompletionFails | ai-maker-bootcamp/week-2/ai-note-taker/app/api/ai/generate/route.ts:53-60 | an empty answer never succeeds; past the checks it is exactly a 500 "Failed to generate content" |
| GenerateRoute.DropHashes | ai-maker-bootcamp/week-2/ai-note-taker/app/api/ai/generate/route.ts:79 | every leading hash goes and only hashes go |
| GenerateRoute.ExtractTitle | ai-maker-bootcamp/week-2/ai-note-taker/app/api/ai/generate/route.ts:76-81 | a non-empty, one-line title of at most 100 characters |
| GenerateRoute.TitleOfHeading | ai-maker-bootcamp/week-2/ai-note-taker/app/api/ai/generate/route.ts:76-81 | a markdown heading on the first line gives its text as the title |
| GenerateRoute.Prompt | ai-maker-bootcamp/week-2/ai-note-taker/app/api/ai/generate/route.ts:39-41 | a title prefixes the prompt with the note's subject |
| GenerateRoute.Post | ai-maker-bootcamp/week-2/ai-note-taker/app/api/ai/generate/route.ts:9-73 | 401, then 500 without a key, 500 without a JSON body, 400 iff the prompt is missing or empty; a valid request gets exactly the 200 note of a non-empty answer with the given or extracted title, and the catch-block 500 when the model call throws; success always carries such an answer |
| GenerateRoute.BlankPromptAccepted | ai-maker-bootcamp/week-2/ai-note-taker/app/api/ai/generate/route.ts:27-32 | a prompt of white space passes the check and can fail only with 500 |
| NotesApi.Get | ai-maker-bootcamp/week-2/ai-note-taker/app/api/notes/route.ts:6-27 | 401 iff signed out; exactly the 500 "Failed to fetch notes" when the query throws; a listing iff signed in and the query succeeds, and then the user's notes (same multiset), newest update first |
| NotesApi.GetListsOwnNotes | ai-maker-bootcamp/week-2/ai-note-taker/app/api/notes/route.ts:14-17 | the listing is exactly the user's notes |
| NotesApi.NewNote | ai-maker-bootcamp/week-2/ai-note-taker/app/api/notes/route.ts:48-58 | missing fields take their defaults; an empty section id becomes none |
| NotesApi.Post | ai-maker-bootcamp/week-2/ai-note-taker/app/api/notes/route.ts:30-68 | 401 when signed out, 500 without a JSON body, 400 iff title or content is missing; a valid body gets exactly the 500 "Failed to create note" when the insert throws, and otherwise exactly 201 with the new note, which is appended; failures leave the database unchanged |
| NotesApi.OwnerFromAuth | ai-maker-bootcamp/week-2/ai-note-taker/app/api/notes/route.ts:39-52 | for any valid body, the owner is the signed-in user, whatever the body says |
| NotesApi.CreatedNoteIsListed | ai-maker-bootcamp/week-2/ai-note-taker/app/api/notes/route.ts:6-58 | for any valid body, the created note appears in its owner's listing, and every other user's listing is unchanged |
| SectionsApi.WithCounts | ai-maker-bootcamp/week-2/ai-note-taker/app/api/sections/route.ts:17-21 | each section comes with the number of notes filed under it |
| SectionsApi.Get | ai-maker-bootcamp/week-2/ai-note-taker/app/api/sections/route.ts:6-32 | 401 iff signed out; exactly the 500 "Failed to fetch sections" when the query throws; a listing iff signed in and the query succeeds, and then exactly the user's sections, each as often as in the table (same multiset and count), oldest first, with counts |
| SectionsApi.SortedKeepsOwned | ai-maker-bootcamp/week-2/ai-note-taker/app/api/sections/route.ts:14-16 | sorting keeps exactly the user's sections |
| SectionsApi.NewSection | ai-maker-bootcamp/week-2/ai-note-taker/app/api/sections/route.ts:53-60 | missing colour and icon take their defaults |
| SectionsApi.Post | ai-maker-bootcamp/week-2/ai-note-taker/app/api/sections/route.ts:35-70 | 401 when signed out, 500 without a JSON body, 400 iff the name is missing; a valid body gets exactly the 500 "Failed to create section" when the insert throws, and otherwise exactly 201 with the new section, which is appended; failures leave the sections unchanged |
| SectionsApi.CreatedSectionIsListed | ai-maker-bootcamp/week-2/ai-note-taker/app/api/sections/route.ts:6-60 | for any valid body, the created section is listed for its owner with no notes |
| Dashboard.FilteredNotes | ai-maker-bootcamp/week-2/ai-note-taker/app/dashboard/page.tsx:252-254 | no selection shows all notes; a selection shows exactly that section's notes, in order, as many as are filed there |
| Dashboard.Heading | ai-maker-bootcamp/week-2/ai-note-taker/app/dashboard/page.tsx:383-385 | "All Notes" without a selection; otherwise the name of the first section with the selected id when it is non-empty, and "Notes" when no section has that id or its name is empty |
| Dashboard.FindSection | ai-maker-bootcamp/week-2/ai-note-taker/app/dashboard/page.tsx:384 | the first section with the id, or none iff there is none |
| Dashboard.CountLabel | ai-maker-bootcamp/week-2/ai-note-taker/app/dashboard/page.tsx:388 | the count, then "note" for one and "notes" otherwise |
| Dashboard.CountLabelShowsCount | ai-maker-bootcamp/week-2/ai-note-taker/app/dashboard/page.tsx:388 | the label starts with the number of notes shown |
| Dashboard.DeleteSection | ai-maker-bootcamp/week-2/ai-note-taker/app/dashboard/page.tsx:142-159 | a successful delete closes the confirmation and drops the selection if it was the deleted section |
| Dashboard.DeletingSelectedShowsAll | ai-maker-bootcamp/week-2/ai-note-taker/app/dashboard/page.tsx:148-152 | deleting the selected section shows all notes under "All Notes" |
| Dashboard.DialogOf | ai-maker-bootcamp/week-2/ai-note-taker/app/dashboard/page.tsx:464-477 | edit mode iff a note is being edited; its title and section, else the selected section |
| Dashboard.EditClick | ai-maker-bootcamp/week-2/ai-note-taker/app/dashboard/page.tsx:240-243 | the dialog opens on the note |
| Dashboard.NewNoteClick | ai-maker-bootcamp/week-2/ai-note-taker/app/dashboard/page.tsx:391-394 | the dialog opens with no note |
| Dashboard.CloseDialog | ai-maker-bootcamp/week-2/ai-note-taker/app/dashboard/page.tsx:246-249 | the dialog closes and forgets the note |
| Dashboard.DialogModes | ai-maker-bootcamp/week-2/ai-note-taker/app/dashboard/page.tsx:240-249 | editing opens in edit mode; closing then "New Note" opens a blank create dialog |

## Left out

- Rendering, sound playback, the pygame event loop, files and extension
  storage are not modelled. Storage reads are inputs and its writes are taken
  to have completed.
- Fetches, Prisma queries, Clerk authentication, environment variables and
  the language model are inputs or oracles. A Prisma query or insert that
  throws is the `dbFails` input of the note and section handlers.
- Database ids are parameters: cuid generation and auto-increment are not
  modelled.
- Prisma's `orderBy` tie order is a stable sort by the key. The database
  does not promise any tie order.
- The order of Prisma's `distinct` results is taken to be first appearance.
- `Flappy`: floats become `real` (velocity, gravity, volume) or `int` (wall
  and enemy positions). The sine drift of enemies and coins is left out.
- `Flappy`: the random coin and collectible placement search is left out. Its
  results arrive as the frame's new coins, with only the gap-slot checks
  and the cluster layout modelled.
- `Flappy`: the mouse volume slider, the mute button's rectangle and the level
  dropdown are left out; the slider and mute button arrive as inputs.
- `Flappy`: the left mouse click (game.py:728-821) is not modelled. While
  playing it flaps as Space does. On the start screen the start button
  starts a game. On the game-over screen it only works the level dropdown
  when one is drawn, and otherwise restarts as Space does.
- `Flappy.Shoot`: the boost to the bird's velocity when shooting is not
  stated, because it depends on float rounding the model does not carry.
- `Calculator.Calculate`: `eval` and the rounding to 8 decimals are an
  outcome parameter. The outfit generator is outside the core.
- `Gallery.Next`, `Gallery.Prev`: need at least one image shown. The source
  computes a remainder by zero, which gives NaN, when the filter is empty.
- The gallery's lazy loading, preloading and hover effects are presentation only.
- `Markdown.ToHtml`: the bold and italic rewrites are not modelled. Text that
  already contains a `__LINK_i__` placeholder is not modelled either; the
  model escapes it like other text.
- Strings are sequences of code points; JavaScript's UTF-16 lengths differ
  for characters outside the basic plane.
- `OrganizeFiles.Lower`: lower-cases ASCII only. Python's `str.lower` also
  maps other letters.
- `OrganizeFiles.SuffixStart`: follows `Path.suffix` of Python before
  3.14, where a name ending in a dot has no suffix.
- `OrganizeFiles.Process`: does not model `mkdir` failing on an existing file
  of the folder's name. A failing move is an oracle.
- `NoteEditor`: carets and range ends address top-level text nodes only. A
  selection inside a font span or a checklist item is not represented,
  though the editor accepts any range (NoteDialog.tsx:19-38, 70-99).
- `NoteEditor`: `document.execCommand` effects are left to the browser and
  recorded as a command to run.
- `NoteEditor.Selected`: approximates `selection.toString()` by the text
  content between the range's ends.
- The checklist items' labels are inserted unescaped in the source; the
  model keeps labels as text.
- `recognition.stop()` on save, the voice-transcript processing and the AI
  prompt panel of the dialog are not modelled.
- `NotesApi.Post`, `SectionsApi.Post`, `SummarizeRoute.Post`,
  `GenerateRoute.Post`: JSON fields are strings or absent. A non-string
  title, name or prompt, or a NaN font size, is not modelled. Neither is a
  non-string `text` in the summarize route, which throws in `.trim()` and is
  answered with the catch-block 500.
- `NoteCard.Preview`: `stripHTML` goes through the DOM parser and is a
  parameter. Date formatting is left out.
- `Dashboard.DeleteSection`: the refetch of notes and sections after a
  delete is left to the fetch oracles. The page shows whatever they return.

## Findings

| source | as written | input that shows it | evidently intended | confidence | as-written member | corrected member |
|---|---|---|---|---|---|---|
| ai-maker-bootcamp/week-4/agents/newsletter_crew/src/newsletter_crew/main.py:47 | a section is open only while its title is truthy, so a heading whose title strips to "" opens no section, and its lines are dropped | the report "## \nhello" | every `## ` heading opens a section, and its lines are kept | not executed | Newsletter.ParseSectionsAsWritten (shown by Newsletter.EmptyTitleDropsSection) | Newsletter.ParseSections (proved by Newsletter.SectionTitles) |
| ai-maker-bootcamp/week-2/ai-note-taker/components/dashboard/NoteDialog.tsx:177 | after `range.insertNode(fragment)` the fragment is empty, so `fragment.lastChild \|\| fragment` is the fragment itself, which has no parent, and `setStartAfter` throws after the list is inserted | any non-empty selection, e.g. the single letter "a" | the caret goes after the inserted list | not executed | NoteEditor.InsertChecklistAsWritten (shown by NoteEditor.ChecklistThrowsOnWord and NoteEditor.ChecklistFromSelectionThrows) | NoteEditor.InsertChecklist (proved by NoteEditor.ChecklistFromSelection) |

=== FILE: admin_users.dfy ===
/**
 The admin page listing every user who owns a note or a section, with their
 note and section counts. The database is reduced to the owner of each note
 and of each section, one entry per row.
 */
module AdminUsers {
  import opened Wrappers

  /** No value occurs twice. */
  predicate NoDuplicates(s: seq<string>) {
    forall i, j :: 0 <= i < j < |s| ==> s[i] != s[j]
  }

  /** The values of `s` in order of first appearance, as a JavaScript `Set`
      built from `s` iterates them. */
  function Distinct(s: seq<string>): (r: seq<string>)
    ensures NoDuplicates(r)
    ensures forall x :: x in r <==> x in s
    decreases |s|
  {
    if |s| == 0 then []
    else
      var front := s[..|s| - 1];
      var r := Distinct(front);
      assert s == front + [s[|s| - 1]];
      if s[|s| - 1] in r then r else r + [s[|s| - 1]]
  }

  /** Rows in the database owned by `uid`: `count({ where: { userId: uid } })`. */
  function Owned(owners: seq<string>, uid: string): nat {
    multiset(owners)[uid]
  }

  datatype Row = Row(userId: string, noteCount: nat, sectionCount: nat)

  /** One row per listed user, with that user's counts. */
  function Stats(ids: seq<string>, noteOwners: seq<string>, sectionOwners: seq<string>): (rows: seq<Row>)
    ensures |rows| == |ids|
    ensures forall k :: 0 <= k < |ids| ==>
      rows[k] == Row(ids[k], multiset(noteOwners)[ids[k]], multiset(sectionOwners)[ids[k]])
    decreases |ids|
  {
    if |ids| == 0 then []
    else [Row(ids[0], Owned(noteOwners, ids[0]), Owned(sectionOwners, ids[0]))] + Stats(ids[1..], noteOwners, sectionOwners)
  }

  /** "Total Activity" in a row. */
  function Activity(row: Row): nat {
    row.noteCount + row.sectionCount
  }

  datatype Page = RedirectTo(path: string) | Users(rows: seq<Row>)

  /** `UsersPage`: signed-out visitors are sent to sign in before anything is
      read; otherwise every owner of a note or a section is listed once. */
  function UsersPage(userId: Option<string>, noteOwners: seq<string>, sectionOwners: seq<string>): (p: Page)
    ensures !Truthy(userId) <==> p == RedirectTo("/sign-in")
    ensures p.Users? ==> NoDuplicates(UserIds(p.rows))
    ensures p.Users? ==> forall uid :: uid in UserIds(p.rows) <==> uid in noteOwners || uid in sectionOwners
    ensures p.Users? ==> forall k :: 0 <= k < |p.rows| ==>
      p.rows[k].noteCount == multiset(noteOwners)[p.rows[k].userId]
      && p.rows[k].sectionCount == multiset(sectionOwners)[p.rows[k].userId]
  {
    if !Truthy(userId) then RedirectTo("/sign-in")
    else
      var ids := Distinct(Distinct(noteOwners) + Distinct(sectionOwners));
      var rows := Stats(ids, noteOwners, sectionOwners);
      assert UserIds(rows) == ids;
      Users(rows)
  }

  function UserIds(rows: seq<Row>): (ids: seq<string>)
    ensures |ids| == |rows| && forall k :: 0 <= k < |rows| ==> ids[k] == rows[k].userId
  {
    seq(|rows|, k requires 0 <= k < |rows| => rows[k].userId)
  }

  /** The "No users found" message replaces the table exactly when nobody
      owns anything. */
  lemma EmptyListing(userId: Option<string>, noteOwners: seq<string>, sectionOwners: seq<string>)
    requires Truthy(userId)
    ensures UsersPage(userId, noteOwners, sectionOwners).rows == [] <==> noteOwners == [] && sectionOwners == []
  {
    var rows := UsersPage(userId, noteOwners, sectionOwners).rows;
    if noteOwners != [] {
      assert noteOwners[0] in UserIds(rows);
    } else if sectionOwners != [] {
      assert sectionOwners[0] in UserIds(rows);
    }
  }

  /** Sum of the note counts, and of the section counts, over the rows. */
  function NoteTotal(rows: seq<Row>): nat
    decreases |rows|
  {
    if |rows| == 0 then 0 else rows[0].noteCount + NoteTotal(rows[1..])
  }

  function SectionTotal(rows: seq<Row>): nat
    decreases |rows|
  {
    if |rows| == 0 then 0 else rows[0].sectionCount + SectionTotal(rows[1..])
  }

  function ActivityTotal(rows: seq<Row>): nat
    decreases |rows|
  {
    if |rows| == 0 then 0 else Activity(rows[0]) + ActivityTotal(rows[1..])
  }

  /** Summing a multiplicity over distinct ids. */
  function SumOver(ids: seq<string>, m: multiset<string>): nat
    decreases |ids|
  {
    if |ids| == 0 then 0 else m[ids[0]] + SumOver(ids[1..], m)
  }

  /** Adding one occurrence of `x` adds one to the sum when `x` is among the ids. */
  lemma {:induction false} SumOverAdd(ids: seq<string>, m: multiset<string>, x: string)
    requires NoDuplicates(ids)
    ensures SumOver(ids, m + multiset{x}) == SumOver(ids, m) + (if x in ids then 1 else 0)
    decreases |ids|
  {
    if |ids| > 0 {
      assert NoDuplicates(ids[1..]) by {
        forall i, j | 0 <= i < j < |ids[1..]| ensures ids[1..][i] != ids[1..][j] {
          assert ids[1..][i] == ids[i + 1] && ids[1..][j] == ids[j + 1];
        }
      }
      SumOverAdd(ids[1..], m, x);
      assert x in ids <==> x == ids[0] || x in ids[1..];
      if x == ids[0] {
        assert x !in ids[1..] by {
          forall j | 0 <= j < |ids[1..]| ensures ids[1..][j] != x {
            assert ids[1..][j] == ids[j + 1];
          }
        }
      }
    }
  }

  /** Counting each owner's rows once per distinct owner counts every row exactly once. */
  lemma {:induction false} SumOverOwners(ids: seq<string>, owners: seq<string>)
    requires NoDuplicates(ids)
    requires forall k :: 0 <= k < |owners| ==> owners[k] in ids
    ensures SumOver(ids, multiset(owners)) == |owners|
    decreases |owners|
  {
    if |owners| == 0 {
      SumOverEmpty(ids);
    } else {
      var front := owners[..|owners| - 1];
      var x := owners[|owners| - 1];
      assert owners == front + [x];
      assert multiset(owners) == multiset(front) + multiset{x};
      SumOverOwners(ids, front);
      SumOverAdd(ids, multiset(front), x);
    }
  }

  lemma {:induction false} SumOverEmpty(ids: seq<string>)
    ensures SumOver(ids, multiset{}) == 0
    decreases |ids|
  {
    if |ids| > 0 {
      SumOverEmpty(ids[1..]);
    }
  }

  lemma {:induction false} StatsTotals(ids: seq<string>, noteOwners: seq<string>, sectionOwners: seq<string>)
    ensures NoteTotal(Stats(ids, noteOwners, sectionOwners)) == SumOver(ids, multiset(noteOwners))
    ensures SectionTotal(Stats(ids, noteOwners, sectionOwners)) == SumOver(ids, multiset(sectionOwners))
    ensures ActivityTotal(Stats(ids, noteOwners, sectionOwners))
      == NoteTotal(Stats(ids, noteOwners, sectionOwners)) + SectionTotal(Stats(ids, noteOwners, sectionOwners))
    decreases |ids|
  {
    if |ids| > 0 {
      StatsTotals(ids[1..], noteOwners, sectionOwners);
      assert Stats(ids, noteOwners, sectionOwners)[1..] == Stats(ids[1..], noteOwners, sectionOwners);
    }
  }

  /** The table accounts for every note and every section exactly once: the
      counts add up to the number of rows in each table, and the activity
      column to both together. */
  lemma CountsAddUp(userId: Option<string>, noteOwners: seq<string>, sectionOwners: seq<string>)
    requires Truthy(userId)
    ensures NoteTotal(UsersPage(userId, noteOwners, sectionOwners).rows) == |noteOwners|
    ensures SectionTotal(UsersPage(userId, noteOwners, sectionOwners).rows) == |sectionOwners|
    ensures ActivityTotal(UsersPage(userId, noteOwners, sectionOwners).rows) == |noteOwners| + |sectionOwners|
  {
    var ids := Distinct(Distinct(noteOwners) + Distinct(sectionOwners));
    assert UsersPage(userId, noteOwners, sectionOwners).rows == Stats(ids, noteOwners, sectionOwners);
    assert forall k :: 0 <= k < |noteOwners| ==> noteOwners[k] in ids;
    assert forall k :: 0 <= k < |sectionOwners| ==> sectionOwners[k] in ids;
    SumOverOwners(ids, noteOwners);
    SumOverOwners(ids, sectionOwners);
    StatsTotals(ids, noteOwners, sectionOwners);
  }
}

=== FILE: calculator.dfy ===
/**
 The calculator's input buffer: the string being typed, what the display
 shows, and whether the next key press starts a fresh number.
 */
module Calculator {
  import opened Wrappers

  datatype Calc = Calc(input: string, display: string, resetPending: bool)

  /** The buffer as the page loads it. */
  const Initial: Calc := Calc("0", "0", false)

  /** A key press. A pending reset first restarts from "0"; then a lone "0"
      is replaced by the value, unless the value is the decimal point, and
      anything else is extended by it. */
  function Append(c: Calc, value: string): (r: Calc)
    ensures !r.resetPending && r.display == r.input
    ensures var base := if c.resetPending then "0" else c.input;
      (base == "0" && value != "." ==> r.input == value)
      && (base == "0" && value == "." ==> r.input == "0.")
      && (base != "0" ==> r.input == base + value)
  {
    var base := if c.resetPending then "0" else c.input;
    var next := if base == "0" && value != "." then value else base + value;
    Calc(next, next, false)
  }

  /** The C key. */
  function Clear(c: Calc): (r: Calc)
    ensures r.input == "0" && r.display == "0" && !r.resetPending
  {
    Calc("0", "0", false)
  }

  /** The backspace key: drop the last character, or fall back to "0" when
      only one is left. A pending reset is kept. */
  function DeleteLast(c: Calc): (r: Calc)
    ensures |c.input| > 1 ==> r.input + [c.input[|c.input| - 1]] == c.input
    ensures |c.input| <= 1 ==> r.input == "0"
    ensures r.display == r.input && r.resetPending == c.resetPending
  {
    var next := if |c.input| > 1 then c.input[..|c.input| - 1] else "0";
    Calc(next, next, c.resetPending)
  }

  /** The = key. Evaluating the expression is not modelled: `outcome` is the
      rendered result, or `None` when evaluation throws, in which case the
      display shows "Error" and the buffer restarts from "0". Either way the
      next key press starts a fresh number. */
  function Calculate(c: Calc, outcome: Option<string>): (r: Calc)
    ensures r.resetPending
    ensures outcome.None? ==> r.display == "Error" && r.input == "0"
    ensures outcome.Some? ==> r.input == outcome.value && r.display == outcome.value
  {
    match outcome
    case None => Calc("0", "Error", true)
    case Some(s) => Calc(s, s, true)
  }

  /** The buttons and keys of the page each append one character. */
  datatype Press = Key(ch: char) | ClearKey | Backspace | Equals(outcome: Option<string>)

  function Step(c: Calc, p: Press): Calc {
    match p
    case Key(ch) => Append(c, [ch])
    case ClearKey => Clear(c)
    case Backspace => DeleteLast(c)
    case Equals(outcome) => Calculate(c, outcome)
  }

  /** Numbers render as non-empty strings. */
  predicate SaneOutcome(p: Press) {
    p.Equals? && p.outcome.Some? ==> p.outcome.value != ""
  }

  function Steps(c: Calc, ps: seq<Press>): Calc
    decreases |ps|
  {
    if |ps| == 0 then c else Steps(Step(c, ps[0]), ps[1..])
  }

  /** The buffer is never empty, whatever is pressed. */
  lemma {:induction false} InputNeverEmpty(c: Calc, ps: seq<Press>)
    requires c.input != ""
    requires forall k :: 0 <= k < |ps| ==> SaneOutcome(ps[k])
    ensures Steps(c, ps).input != ""
    decreases |ps|
  {
    if |ps| > 0 {
      var c1 := Step(c, ps[0]);
      assert c1.input != "" by {
        if ps[0].Key? {
          var base := if c.resetPending then "0" else c.input;
          assert base != "";
        }
      }
      assert forall k :: 0 <= k < |ps[1..]| ==> ps[1..][k] == ps[k + 1];
      InputNeverEmpty(c1, ps[1..]);
    }
  }

  /** Typing one character and deleting it restores the buffer, when no
      reset is pending. */
  lemma AppendThenDelete(c: Calc, ch: char)
    requires !c.resetPending && c.input != ""
    ensures DeleteLast(Append(c, [ch])).input == c.input
  {
    if c.input != "0" || ch == '.' {
      assert Append(c, [ch]).input == c.input + [ch];
      assert (c.input + [ch])[..|c.input|] == c.input;
    }
  }

  /** After `=`, the next digit starts a new number. */
  lemma DigitAfterEquals(c: Calc, outcome: Option<string>, ch: char)
    requires ch != '.'
    ensures Append(Calculate(c, outcome), [ch]).input == [ch]
  {
  }

  /** `array[Math.floor(random * array.length)]` for a draw in [0, 1); on an
      empty array JavaScript yields `undefined`. */
  function RandomItem<T>(items: seq<T>, random: real): (r: Option<T>)
    requires 0.0 <= random < 1.0
    ensures r.Some? <==> |items| > 0
    ensures r.Some? ==> r.value in items
  {
    if |items| == 0 then None
    else
      var i := (random * |items| as real).Floor;
      assert 0.0 <= random * |items| as real < |items| as real;
      Some(items[i])
  }

  /** Every element can be drawn. */
  lemma RandomItemReachesAll<T>(items: seq<T>, k: nat)
    requires k < |items|
    ensures RandomItem(items, k as real / |items| as real) == Some(items[k])
  {
    var n := |items| as real;
    assert (k as real / n) * n == k as real;
  }
}

=== FILE: dashboard.dfy ===
/**
 The dashboard page: the notes shown for the selected section, the heading
 and count above them, what deleting a section does to the selection, and
 which mode the note dialog opens in. Fetching is left out; the page state
 holds what the last fetches returned.
 */
module Dashboard {
  import opened Wrappers
  import Seqs
  import Text

  datatype Note = Note(id: string, title: string, content: string, sectionId: Option<string>)

  datatype Section = Section(id: string, name: string)

  datatype Page = Page(
    notes: seq<Note>, sections: seq<Section>, selectedSection: Option<string>,
    dialogOpen: bool, editingNote: Option<Note>, deleteSectionConfirm: Option<string>)

  predicate InSection(selected: string, n: Note) {
    n.sectionId == Some(selected)
  }

  function FiledUnder(selected: string): Note -> bool {
    n => InSection(selected, n)
  }

  /** `filteredNotes`: every note with no section selected; otherwise exactly
      the notes filed under the selection, in their order. */
  function FilteredNotes(p: Page): (shown: seq<Note>)
    ensures !Truthy(p.selectedSection) ==> shown == p.notes
    ensures Truthy(p.selectedSection) ==>
      (forall k :: 0 <= k < |shown| ==> shown[k].sectionId == p.selectedSection && shown[k] in p.notes)
      && (forall k :: 0 <= k < |p.notes| && p.notes[k].sectionId == p.selectedSection ==> p.notes[k] in shown)
      && |shown| == Seqs.Count(p.notes, FiledUnder(p.selectedSection.value))
    ensures Seqs.IsSubsequence(shown, p.notes)
  {
    if Truthy(p.selectedSection) then
      Seqs.CountIsFilterLength(p.notes, FiledUnder(p.selectedSection.value));
      Seqs.Filter(p.notes, FiledUnder(p.selectedSection.value))
    else
      SubsequenceOfItself(p.notes);
      p.notes
  }

  lemma {:induction false} SubsequenceOfItself(s: seq<Note>)
    ensures Seqs.IsSubsequence(s, s)
    decreases |s|
  {
    if |s| > 0 {
      SubsequenceOfItself(s[1..]);
    }
  }

  /** The heading: "All Notes", or the selected section's name, or "Notes"
      when the selection names no section (or one with an empty name). */
  function Heading(p: Page): (h: string)
    ensures !Truthy(p.selectedSection) ==> h == "All Notes"
    ensures Truthy(p.selectedSection) && (forall k :: 0 <= k < |p.sections| ==> p.sections[k].id != p.selectedSection.value)
      ==> h == "Notes"
    ensures Truthy(p.selectedSection) && h != "Notes" ==> exists k :: 0 <= k < |p.sections| && p.sections[k].name == h
    ensures Truthy(p.selectedSection) ==> var found := FindSection(p.sections, p.selectedSection.value);
      found.Some? && found.value.name != "" ==> h == found.value.name
    ensures Truthy(p.selectedSection) ==> var found := FindSection(p.sections, p.selectedSection.value);
      found.Some? && found.value.name == "" ==> h == "Notes"
  {
    if !Truthy(p.selectedSection) then "All Notes"
    else
      match FindSection(p.sections, p.selectedSection.value)
      case Some(s) => if s.name != "" then s.name else "Notes"
      case None => "Notes"
  }

  /** `sections.find(s => s.id === id)`: the first section with that id. */
  function FindSection(sections: seq<Section>, id: string): (r: Option<Section>)
    ensures r.None? <==> forall k :: 0 <= k < |sections| ==> sections[k].id != id
    ensures r.Some? ==> exists k :: (0 <= k < |sections| && sections[k] == r.value && r.value.id == id
                                     && forall j :: 0 <= j < k ==> sections[j].id != id)
    decreases |sections|
  {
    if |sections| == 0 then None
    else if sections[0].id == id then Some(sections[0])
    else
      var r := FindSection(sections[1..], id);
      assert forall k :: 1 <= k < |sections| ==> sections[k] == sections[1..][k - 1];
      if r.Some? then
        var k :| 0 <= k < |sections[1..]| && sections[1..][k] == r.value && r.value.id == id
                 && forall j :: 0 <= j < k ==> sections[1..][j].id != id;
        assert sections[k + 1] == r.value;
        r
      else r
  }

  /** The count under the heading, with "note" only for exactly one. */
  function CountLabel(n: nat): (caption: string)
    ensures var prefix := Text.NatToString(n) + " ";
      Text.StartsWith(caption, prefix) && (caption[|prefix|..] == "note" <==> n == 1)
      && (caption[|prefix|..] == "notes" <==> n != 1)
  {
    Text.NatToString(n) + " " + if n == 1 then "note" else "notes"
  }

  /** The label starts with the number of notes shown, written in decimal. */
  lemma CountLabelShowsCount(p: Page)
    ensures var caption := CountLabel(|FilteredNotes(p)|);
      var digits := Text.NatToString(|FilteredNotes(p)|);
      Text.StartsWith(caption, digits) && caption[|digits|] == ' '
      && Text.ParseDecimal(caption[..|digits|]) == |FilteredNotes(p)|
  {
    var n := |FilteredNotes(p)|;
    var digits := Text.NatToString(n);
    var caption := CountLabel(n);
    assert caption[..|digits|] == digits;
    Text.ParseNatToString(n);
  }

  /** `handleDeleteSection` once the server has answered: a successful
      delete closes the confirmation and clears the selection when it was
      the deleted section; a failed one changes nothing. */
  function DeleteSection(p: Page, id: string, ok: bool): (r: Page)
    ensures !ok ==> r == p
    ensures ok ==> r.deleteSectionConfirm.None?
    ensures ok && p.selectedSection == Some(id) ==> r.selectedSection.None?
    ensures p.selectedSection != Some(id) ==> r.selectedSection == p.selectedSection
    ensures r.notes == p.notes && r.sections == p.sections && r.editingNote == p.editingNote
  {
    if !ok then p
    else p.(deleteSectionConfirm := None,
            selectedSection := if p.selectedSection == Some(id) then None else p.selectedSection)
  }

  /** Deleting the section being viewed falls back to showing every note. */
  lemma DeletingSelectedShowsAll(p: Page, id: string)
    requires p.selectedSection == Some(id)
    ensures FilteredNotes(DeleteSection(p, id, true)) == p.notes
    ensures Heading(DeleteSection(p, id, true)) == "All Notes"
  {
  }

  datatype Mode = Create | Edit(noteId: string)

  /** The dialog's props that depend on the page. */
  datatype Dialog = Dialog(open: bool, mode: Mode, initialTitle: Option<string>, initialSectionId: Option<string>)

  /** The note dialog: editing a note when one is being edited (and saving
      through the update handler), creating otherwise; its section starts as
      the edited note's, falling back to the current selection. */
  function DialogOf(p: Page): (d: Dialog)
    ensures d.open == p.dialogOpen
    ensures d.mode.Edit? <==> p.editingNote.Some?
    ensures p.editingNote.Some? ==> d.mode.noteId == p.editingNote.value.id && d.initialTitle == Some(p.editingNote.value.title)
    ensures p.editingNote.None? ==> d.initialTitle.None? && d.initialSectionId == p.selectedSection
    ensures p.editingNote.Some? && Truthy(p.editingNote.value.sectionId) ==> d.initialSectionId == p.editingNote.value.sectionId
    ensures p.editingNote.Some? && !Truthy(p.editingNote.value.sectionId) ==> d.initialSectionId == p.selectedSection
  {
    match p.editingNote
    case Some(n) =>
      Dialog(p.dialogOpen, Edit(n.id), Some(n.title), if Truthy(n.sectionId) then n.sectionId else p.selectedSection)
    case None => Dialog(p.dialogOpen, Create, None, p.selectedSection)
  }

  /** `handleEditClick`. */
  function EditClick(p: Page, n: Note): (r: Page)
    ensures r.dialogOpen && r.editingNote == Some(n)
  {
    p.(editingNote := Some(n), dialogOpen := true)
  }

  /** The "New Note" button. */
  function NewNoteClick(p: Page): (r: Page)
    ensures r.dialogOpen && r.editingNote.None?
  {
    p.(editingNote := None, dialogOpen := true)
  }

  /** `handleCloseDialog`. */
  function CloseDialog(p: Page): (r: Page)
    ensures !r.dialogOpen && r.editingNote.None?
  {
    p.(dialogOpen := false, editingNote := None)
  }

  /** Clicking a note opens the dialog on that note; closing it and pressing
      "New Note" opens an empty dialog in the viewed section. */
  lemma DialogModes(p: Page, n: Note)
    ensures DialogOf(EditClick(p, n)) == Dialog(true, Edit(n.id), Some(n.title),
      if Truthy(n.sectionId) then n.sectionId else p.selectedSection)
    ensures DialogOf(NewNoteClick(CloseDialog(EditClick(p, n)))) == Dialog(true, Create, None, p.selectedSection)
  {
  }
}

=== FILE: flappy.dfy ===
/**
 The flappy-bird game loop: the bird's motion, wall generation and scoring,
 enemies, coins and fireballs, the start/playing/game-over state machine,
 the high score and the volume controls.

 Rendering, sound playback, files and the mouse-driven dropdown are not
 modelled. Everything the game draws at random, and every rectangle overlap
 test, arrives through a `Frame`: the random draws are constrained to the
 ranges `random.randint` would produce, and the overlap tests are arbitrary
 predicates over the moved objects.
 */
module Flappy {
  import opened Wrappers
  import Seqs

  datatype Phase = Start | Playing | GameOver

  /** One entry of the configuration's `levels` list. */
  datatype Level = Level(gravity: real, flapStrength: real, wallGapSize: int, wallSpeed: int,
                         wallSpacing: int, enemySpawnRate: int, enemySpeed: int)

  datatype Config = Config(screenWidth: int, screenHeight: int, birdSize: int, wallWidth: int,
                           enemySize: int, coinSize: int, fireballSize: int, levels: seq<Level>)

  /** The player. `hasRect` records whether a sprite (and so a collision
      rectangle) was loaded for it. */
  datatype Bird = Bird(x: int, y: real, size: int, velocity: real, gravity: real,
                       flapStrength: real, hasFlapped: bool, hasRect: bool)

  datatype Wall = Wall(x: int, gapSize: int, width: int, speed: int,
                       topHeight: int, bottomY: int, bottomHeight: int, passed: bool)

  datatype Enemy = Enemy(x: int, y: int, size: int, speed: int)

  /** A coin or a fireball collectible: both drift left and are picked up on contact. */
  datatype Pickup = Pickup(x: int, y: int, size: int, speed: int, collected: bool)

  /** A fireball the player has shot; it flies right. */
  datatype Projectile = Projectile(x: int, y: real, size: int, speed: int, screenWidth: int)

  datatype Game = Game(
    phase: Phase, level: nat, score: nat, coinsCollected: nat, highScore: int, ammo: nat,
    bird: Option<Bird>, walls: seq<Wall>, enemies: seq<Enemy>, coins: seq<Pickup>,
    collectibles: seq<Pickup>, projectiles: seq<Projectile>,
    wallTimer: nat, enemyTimer: nat, coinTimer: nat, clusterTimer: nat, collectibleTimer: nat,
    lastWallX: int, volume: real, muted: bool, dropdownOpen: bool)

  /** What one frame of the game loop observes from outside the model. */
  datatype Frame = Frame(
    hitsWall: Wall -> bool,
    hitsEnemy: Enemy -> bool,
    touches: Pickup -> bool,
    burns: (Projectile, Enemy) -> bool,
    gapDraw: int,
    enemyDraw: int,
    newCoins: seq<Pickup>,
    newCluster: seq<Pickup>,
    newCollectibles: seq<Pickup>)

  // ---------------------------------------------------------------- bird

  function NewBird(cfg: Config, lvl: Level, hasSprite: bool): Bird {
    Bird(cfg.screenWidth / 4, (cfg.screenHeight / 2) as real, cfg.birdSize, 0.0,
         lvl.gravity, lvl.flapStrength, false, hasSprite)
  }

  /** The first flap switches gravity on; every flap sets the velocity to the flap strength. */
  function Flap(b: Bird): (r: Bird)
    ensures r.hasFlapped && r.velocity == b.flapStrength
    ensures r.(velocity := b.velocity, hasFlapped := b.hasFlapped) == b
  {
    b.(hasFlapped := true, velocity := b.flapStrength)
  }

  /** One frame of motion: gravity accelerates the bird only once it has flapped. */
  function BirdStep(b: Bird): (r: Bird)
    ensures r.y - b.y == r.velocity
    ensures !b.hasFlapped ==> r.velocity == b.velocity
    ensures b.hasFlapped ==> r.velocity == b.velocity + b.gravity
    ensures r.(y := b.y, velocity := b.velocity) == b
  {
    var v := if b.hasFlapped then b.velocity + b.gravity else b.velocity;
    b.(velocity := v, y := b.y + v)
  }

  function BirdSteps(b: Bird, n: nat): Bird {
    if n == 0 then b else BirdStep(BirdSteps(b, n - 1))
  }

  /** Until its first flap the bird keeps its velocity, so a freshly started
      bird (velocity zero) hovers where it was placed. */
  lemma {:induction false} UnflappedBirdDrifts(b: Bird, n: nat)
    requires !b.hasFlapped
    ensures BirdSteps(b, n).velocity == b.velocity
    ensures BirdSteps(b, n).y == b.y + (n as real) * b.velocity
    ensures !BirdSteps(b, n).hasFlapped
  {
    if n > 0 {
      UnflappedBirdDrifts(b, n - 1);
    }
  }

  /** After a flap the bird moves by the flap strength plus one gravity step. */
  lemma FlapThenStep(b: Bird)
    ensures BirdStep(Flap(b)).y == b.y + b.flapStrength + b.gravity
  {
  }

  // ---------------------------------------------------------------- walls

  /** The gap actually used: never smaller than `minGap + 20`. */
  function WallGap(requested: int, minGap: int): (g: int)
    ensures g >= requested && g >= minGap + 20
    ensures g == requested || g == minGap + 20
  {
    if requested >= minGap + 20 then requested else minGap + 20
  }

  /** A new wall at `x` whose gap is centred on `gapDraw`, or `None` when
      `random.randint(gap, height - gap)` has an empty range and raises. */
  function NewWall(x: int, screenHeight: int, requested: int, width: int, speed: int,
                   minGap: int, gapDraw: int): (r: Option<Wall>)
    requires var g := WallGap(requested, minGap);
      g <= screenHeight - g ==> g <= gapDraw <= screenHeight - g
    ensures var g := WallGap(requested, minGap);
      r.Some? <==> g <= screenHeight - g
    ensures r.Some? ==> WallShape(r.value, screenHeight) && r.value.x == x && !r.value.passed
    ensures r.Some? ==> r.value.gapSize >= minGap + 20 && r.value.gapSize >= requested
    ensures r.Some? ==> r.value.topHeight + r.value.bottomY == 2 * gapDraw
  {
    var g := WallGap(requested, minGap);
    if g > screenHeight - g then None
    else
      var bottomY := gapDraw + g / 2;
      Some(Wall(x, g, width, speed, gapDraw - g / 2, bottomY, screenHeight - bottomY, false))
  }

  /** The pipes of a wall stay on screen and leave an opening of (about) the gap size. */
  predicate WallShape(w: Wall, screenHeight: int) {
    w.bottomY + w.bottomHeight == screenHeight
    && w.bottomY - w.topHeight == 2 * (w.gapSize / 2)
    && (w.gapSize >= 0 ==> w.topHeight >= 0 && w.bottomHeight >= 0)
  }

  function MoveWall(w: Wall): (r: Wall)
    ensures r.x == w.x - w.speed && r.(x := w.x) == w
  {
    w.(x := w.x - w.speed)
  }

  predicate WallOffScreen(w: Wall) {
    w.x + w.width < 0
  }

  /** `(top, bottom)` of the opening a wall leaves. */
  function GapArea(w: Wall): (int, int) {
    (w.topHeight, w.bottomY)
  }

  function MaxX(ws: seq<Wall>): (m: int)
    requires |ws| > 0
    ensures forall k :: 0 <= k < |ws| ==> ws[k].x <= m
    ensures exists k :: 0 <= k < |ws| && ws[k].x == m
  {
    if |ws| == 1 then ws[0].x
    else
      var m := MaxX(ws[1..]);
      assert forall k :: 1 <= k < |ws| ==> ws[k] == ws[1..][k - 1];
      if ws[0].x >= m then ws[0].x else m
  }

  /** A new wall is due when there is none, or the rightmost one has moved
      more than `spacing` in from the right edge. */
  predicate ShouldSpawnWall(ws: seq<Wall>, screenWidth: int, spacing: int) {
    |ws| == 0 || MaxX(ws) < screenWidth - spacing
  }

  /** A wall is due exactly when every wall is left of `screenWidth - spacing`. */
  lemma ShouldSpawnWallIffAllLeft(ws: seq<Wall>, screenWidth: int, spacing: int)
    ensures ShouldSpawnWall(ws, screenWidth, spacing)
      <==> forall k :: 0 <= k < |ws| ==> ws[k].x < screenWidth - spacing
  {
    if |ws| > 0 {
      var m := MaxX(ws);
      var k :| 0 <= k < |ws| && ws[k].x == m;
    }
  }

  /** Outcome of moving every wall once. */
  datatype WallPass = WallPass(walls: seq<Wall>, gained: nat, crashed: bool)

  /** A moved wall that scores: not passed before, and its right edge is left of the bird. */
  function ClearedBy(birdX: int, wallWidth: int): Wall -> bool {
    (w: Wall) => !w.passed && w.x + wallWidth < birdX
  }

  /** A wall as the loop leaves it: moved, and marked passed once it scores. */
  function Advance(birdX: int, wallWidth: int): Wall -> Wall {
    (w: Wall) => var m := MoveWall(w); if ClearedBy(birdX, wallWidth)(m) then m.(passed := true) else m
  }

  predicate WallOnScreen(w: Wall) {
    !WallOffScreen(w)
  }

  /** Index of the first wall that hits the bird once moved, or `|ws|` when none does. */
  function FirstWallHit(ws: seq<Wall>, hits: Wall -> bool): (h: nat)
    ensures h <= |ws|
    ensures h < |ws| ==> hits(MoveWall(ws[h]))
    ensures forall k :: 0 <= k < h ==> !hits(MoveWall(ws[k]))
    decreases |ws|
  {
    if |ws| == 0 || hits(MoveWall(ws[0])) then 0
    else
      assert forall k :: 1 <= k < |ws| ==> ws[k] == ws[1..][k - 1];
      1 + FirstWallHit(ws[1..], hits)
  }

  /** The wall loop: move each wall; a collision ends the loop (later walls are
      not moved); a wall whose right edge the bird has cleared scores once;
      walls that have left the screen are dropped. Without a crash the walls
      kept are the advanced walls still on screen, in order, and the score
      gained is the number of moved walls that clear the bird. A crash at the
      h-th wall leaves the advanced walls before it that are still on screen,
      the moved wall that was hit and the unmoved walls after it, and scores
      the walls cleared before it. */
  function SweepWalls(ws: seq<Wall>, birdX: int, wallWidth: int, hits: Wall -> bool): (r: WallPass)
    ensures r.crashed <==> exists k :: 0 <= k < |ws| && hits(MoveWall(ws[k]))
    ensures !r.crashed ==> r.walls == Seqs.Filter(Seqs.Map(Advance(birdX, wallWidth), ws), WallOnScreen)
    ensures !r.crashed ==> forall k :: 0 <= k < |r.walls| ==> !WallOffScreen(r.walls[k])
    ensures !r.crashed ==> r.gained == Seqs.Count(Seqs.Map(MoveWall, ws), ClearedBy(birdX, wallWidth))
    ensures r.crashed ==> CrashedAt(ws, birdX, wallWidth, FirstWallHit(ws, hits), r)
    ensures r.gained + Unpassed(r.walls) <= Unpassed(ws)
    decreases |ws|
  {
    if |ws| == 0 then WallPass([], 0, false)
    else
      var w := MoveWall(ws[0]);
      if hits(w) then
        HitStep(ws, birdX, wallWidth, hits);
        WallPass([w] + ws[1..], 0, true)
      else
        var rest := SweepWalls(ws[1..], birdX, wallWidth, hits);
        var w' := Advance(birdX, wallWidth)(ws[0]);
        var kept := if WallOffScreen(w') then [] else [w'];
        var r := WallPass(kept + rest.walls, (if ClearedBy(birdX, wallWidth)(w) then 1 else 0) + rest.gained, rest.crashed);
        PassStep(ws, birdX, wallWidth, hits, rest, r);
        PassCrash(ws, birdX, wallWidth, hits, rest, r);
        r
  }

  /** The contract of `SweepWalls` apart from the crash case, as one predicate
      for its step lemmas. */
  predicate Swept(ws: seq<Wall>, birdX: int, wallWidth: int, hits: Wall -> bool, r: WallPass) {
    && (r.crashed <==> exists k :: 0 <= k < |ws| && hits(MoveWall(ws[k])))
    && (!r.crashed ==> r.walls == Seqs.Filter(Seqs.Map(Advance(birdX, wallWidth), ws), WallOnScreen))
    && (!r.crashed ==> forall k :: 0 <= k < |r.walls| ==> !WallOffScreen(r.walls[k]))
    && (!r.crashed ==> r.gained == Seqs.Count(Seqs.Map(MoveWall, ws), ClearedBy(birdX, wallWidth)))
    && r.gained + Unpassed(r.walls) <= Unpassed(ws)
  }

  /** What a sweep leaves when the `h`-th wall is hit: the advanced walls
      before it that are still on screen, the moved wall that was hit and the
      unmoved walls after it, with one point per wall cleared before it. */
  predicate CrashedAt(ws: seq<Wall>, birdX: int, wallWidth: int, h: nat, r: WallPass) {
    h < |ws|
    && r.walls == Seqs.Filter(Seqs.Map(Advance(birdX, wallWidth), ws[..h]), WallOnScreen) + ([MoveWall(ws[h])] + ws[h + 1..])
    && r.gained == Seqs.Count(Seqs.Map(MoveWall, ws[..h]), ClearedBy(birdX, wallWidth))
  }

  /** Hitting the first wall stops the sweep with no points. */
  lemma HitStep(ws: seq<Wall>, birdX: int, wallWidth: int, hits: Wall -> bool)
    requires |ws| > 0 && hits(MoveWall(ws[0]))
    ensures Swept(ws, birdX, wallWidth, hits, WallPass([MoveWall(ws[0])] + ws[1..], 0, true))
    ensures FirstWallHit(ws, hits) == 0
    ensures CrashedAt(ws, birdX, wallWidth, 0, WallPass([MoveWall(ws[0])] + ws[1..], 0, true))
  {
    WallHitCons(ws, hits);
    assert Seqs.Map(Advance(birdX, wallWidth), ws[..0]) == [] && Seqs.Map(MoveWall, ws[..0]) == [];
    assert Unpassed(ws) == Unpassed([ws[0]] + ws[1..]);
    UnpassedAppend([MoveWall(ws[0])], ws[1..]);
  }

  /** Missing the first wall keeps it when it is still on screen and scores it
      when the bird has cleared it, in front of the sweep of the rest. */
  lemma PassStep(ws: seq<Wall>, birdX: int, wallWidth: int, hits: Wall -> bool, rest: WallPass, r: WallPass)
    requires |ws| > 0 && !hits(MoveWall(ws[0]))
    requires Swept(ws[1..], birdX, wallWidth, hits, rest)
    requires r.crashed == rest.crashed
    requires var a := Advance(birdX, wallWidth)(ws[0]);
      r.walls == (if WallOffScreen(a) then [] else [a]) + rest.walls
    requires r.gained == (if ClearedBy(birdX, wallWidth)(MoveWall(ws[0])) then 1 else 0) + rest.gained
    ensures r.crashed <==> exists k :: 0 <= k < |ws| && hits(MoveWall(ws[k]))
    ensures !r.crashed ==> r.walls == Seqs.Filter(Seqs.Map(Advance(birdX, wallWidth), ws), WallOnScreen)
    ensures !r.crashed ==> forall k :: 0 <= k < |r.walls| ==> !WallOffScreen(r.walls[k])
    ensures !r.crashed ==> r.gained == Seqs.Count(Seqs.Map(MoveWall, ws), ClearedBy(birdX, wallWidth))
    ensures r.gained + Unpassed(r.walls) <= Unpassed(ws)
  {
    var a := Advance(birdX, wallWidth)(ws[0]);
    var kept := if WallOffScreen(a) then [] else [a];
    WallHitCons(ws, hits);
    AdvanceCons(ws, birdX, wallWidth);
    UnpassedAppend(kept, rest.walls);
    assert Unpassed(ws) == (if ws[0].passed then 0 else 1) + Unpassed(ws[1..]);
  }

  /** A crash further on keeps the first wall's contribution in front. */
  lemma PassCrash(ws: seq<Wall>, birdX: int, wallWidth: int, hits: Wall -> bool, rest: WallPass, r: WallPass)
    requires |ws| > 0 && !hits(MoveWall(ws[0]))
    requires rest.crashed ==> CrashedAt(ws[1..], birdX, wallWidth, FirstWallHit(ws[1..], hits), rest)
    requires r.crashed == rest.crashed
    requires var a := Advance(birdX, wallWidth)(ws[0]);
      r.walls == (if WallOffScreen(a) then [] else [a]) + rest.walls
    requires r.gained == (if ClearedBy(birdX, wallWidth)(MoveWall(ws[0])) then 1 else 0) + rest.gained
    ensures r.crashed ==> CrashedAt(ws, birdX, wallWidth, FirstWallHit(ws, hits), r)
  {
    if r.crashed {
      var h' := FirstWallHit(ws[1..], hits);
      var h := h' + 1;
      assert FirstWallHit(ws, hits) == h;
      var pre := ws[..h];
      assert pre[0] == ws[0] && pre[1..] == ws[1..][..h'];
      AdvanceCons(pre, birdX, wallWidth);
      var a := Advance(birdX, wallWidth)(ws[0]);
      var kept := if WallOffScreen(a) then [] else [a];
      var front := Seqs.Filter(Seqs.Map(Advance(birdX, wallWidth), ws[1..][..h']), WallOnScreen);
      var tail := [MoveWall(ws[h])] + ws[h + 1..];
      assert ws[h + 1..] == ws[1..][h' + 1..] && ws[h] == ws[1..][h'];
      assert [MoveWall(ws[1..][h'])] + ws[1..][h' + 1..] == tail;
      assert Seqs.Filter(Seqs.Map(Advance(birdX, wallWidth), pre), WallOnScreen) == kept + front;
      Seqs.AppendAssoc(kept, front, tail);
    }
  }

  /** A wall is hit when the first one is, or one of the rest. */
  lemma WallHitCons(ws: seq<Wall>, hits: Wall -> bool)
    requires |ws| > 0
    ensures (exists k :: 0 <= k < |ws| && hits(MoveWall(ws[k])))
      <==> hits(MoveWall(ws[0])) || exists k :: 0 <= k < |ws[1..]| && hits(MoveWall(ws[1..][k]))
  {
    assert forall k :: 1 <= k < |ws| ==> ws[k] == ws[1..][k - 1];
  }

  /** How the first wall contributes to the kept walls and to the score. */
  lemma AdvanceCons(ws: seq<Wall>, birdX: int, wallWidth: int)
    requires |ws| > 0
    ensures var a := Advance(birdX, wallWidth)(ws[0]);
      Seqs.Filter(Seqs.Map(Advance(birdX, wallWidth), ws), WallOnScreen)
      == (if WallOffScreen(a) then [] else [a]) + Seqs.Filter(Seqs.Map(Advance(birdX, wallWidth), ws[1..]), WallOnScreen)
    ensures Seqs.Count(Seqs.Map(MoveWall, ws), ClearedBy(birdX, wallWidth))
      == (if ClearedBy(birdX, wallWidth)(MoveWall(ws[0])) then 1 else 0)
         + Seqs.Count(Seqs.Map(MoveWall, ws[1..]), ClearedBy(birdX, wallWidth))
  {
    Seqs.MapTail(Advance(birdX, wallWidth), ws);
    Seqs.MapTail(MoveWall, ws);
  }

  /** Number of walls the bird has not yet cleared. */
  function Unpassed(ws: seq<Wall>): nat {
    if |ws| == 0 then 0 else (if ws[0].passed then 0 else 1) + Unpassed(ws[1..])
  }

  lemma {:induction false} UnpassedAppend(a: seq<Wall>, b: seq<Wall>)
    ensures Unpassed(a + b) == Unpassed(a) + Unpassed(b)
  {
    if |a| == 0 {
      assert a + b == b;
    } else {
      assert (a + b)[1..] == a[1..] + b;
      UnpassedAppend(a[1..], b);
    }
  }

  /** Walls that have all been cleared score nothing more. */
  lemma ClearedWallsScoreNothing(ws: seq<Wall>, birdX: int, wallWidth: int, hits: Wall -> bool)
    requires forall k :: 0 <= k < |ws| ==> ws[k].passed
    ensures SweepWalls(ws, birdX, wallWidth, hits).gained == 0
  {
    AllPassedUnpassedZero(ws);
  }

  lemma {:induction false} AllPassedUnpassedZero(ws: seq<Wall>)
    requires forall k :: 0 <= k < |ws| ==> ws[k].passed
    ensures Unpassed(ws) == 0
  {
    if |ws| > 0 {
      AllPassedUnpassedZero(ws[1..]);
    }
  }

  // ---------------------------------------------------------------- enemies

  function MoveEnemy(e: Enemy): (r: Enemy)
    ensures r.x == e.x - e.speed && r.(x := e.x) == e
  {
    e.(x := e.x - e.speed)
  }

  predicate EnemyOffScreen(e: Enemy) {
    e.x + e.size < 0
  }

  predicate EnemyOnScreen(e: Enemy) {
    !EnemyOffScreen(e)
  }

  datatype EnemyPass = EnemyPass(enemies: seq<Enemy>, crashed: bool)

  /** Index of the first enemy that hits the bird once moved, or `|es|` when none does. */
  function FirstEnemyHit(es: seq<Enemy>, hits: Enemy -> bool): (h: nat)
    ensures h <= |es|
    ensures h < |es| ==> hits(MoveEnemy(es[h]))
    ensures forall k :: 0 <= k < h ==> !hits(MoveEnemy(es[k]))
    decreases |es|
  {
    if |es| == 0 || hits(MoveEnemy(es[0])) then 0
    else
      assert forall k :: 1 <= k < |es| ==> es[k] == es[1..][k - 1];
      1 + FirstEnemyHit(es[1..], hits)
  }

  /** What the enemy loop leaves when the `h`-th enemy is hit: the moved
      enemies before it that are still on screen, the moved enemy that was
      hit and the unmoved enemies after it. */
  predicate EnemiesCrashedAt(es: seq<Enemy>, h: nat, r: EnemyPass) {
    h < |es|
    && r.enemies == Seqs.Filter(Seqs.Map(MoveEnemy, es[..h]), EnemyOnScreen) + ([MoveEnemy(es[h])] + es[h + 1..])
  }

  /** The enemy loop: move each enemy; touching the bird ends the loop; enemies
      that have left the screen are dropped. Without a crash the survivors are
      exactly the moved enemies still on screen, in order. */
  function SweepEnemies(es: seq<Enemy>, hits: Enemy -> bool): (r: EnemyPass)
    ensures r.crashed <==> exists k :: 0 <= k < |es| && hits(MoveEnemy(es[k]))
    ensures !r.crashed ==> r.enemies == Seqs.Filter(Seqs.Map(MoveEnemy, es), EnemyOnScreen)
    decreases |es|
  {
    if |es| == 0 then EnemyPass([], false)
    else
      var e := MoveEnemy(es[0]);
      assert forall k :: 1 <= k < |es| ==> es[k] == es[1..][k - 1];
      if hits(e) then EnemyPass([e] + es[1..], true)
      else
        var rest := SweepEnemies(es[1..], hits);
        Seqs.MapTail(MoveEnemy, es);
        EnemyPass((if EnemyOffScreen(e) then [] else [e]) + rest.enemies, rest.crashed)
  }

  /** On a crash the enemy loop stops at the first enemy hit: the enemies
      before it are moved and those off screen dropped, the hit enemy is
      moved, and the enemies after it are left where they were. */
  lemma {:induction false} SweepEnemiesCrash(es: seq<Enemy>, hits: Enemy -> bool)
    ensures SweepEnemies(es, hits).crashed ==> EnemiesCrashedAt(es, FirstEnemyHit(es, hits), SweepEnemies(es, hits))
    decreases |es|
  {
    if |es| > 0 {
      var e := MoveEnemy(es[0]);
      if hits(e) {
        assert Seqs.Map(MoveEnemy, es[..0]) == [];
      } else {
        var rest := SweepEnemies(es[1..], hits);
        SweepEnemiesCrash(es[1..], hits);
        EnemyPassCrash(es, hits, rest, SweepEnemies(es, hits));
      }
    }
  }

  /** A crash further on keeps the first enemy in front when it is still on screen. */
  lemma EnemyPassCrash(es: seq<Enemy>, hits: Enemy -> bool, rest: EnemyPass, r: EnemyPass)
    requires |es| > 0 && !hits(MoveEnemy(es[0]))
    requires rest.crashed ==> EnemiesCrashedAt(es[1..], FirstEnemyHit(es[1..], hits), rest)
    requires r.crashed == rest.crashed
    requires r.enemies == (if EnemyOffScreen(MoveEnemy(es[0])) then [] else [MoveEnemy(es[0])]) + rest.enemies
    ensures r.crashed ==> EnemiesCrashedAt(es, FirstEnemyHit(es, hits), r)
  {
    if r.crashed {
      var h' := FirstEnemyHit(es[1..], hits);
      var h := h' + 1;
      assert FirstEnemyHit(es, hits) == h;
      var pre := es[..h];
      assert pre[0] == es[0] && pre[1..] == es[1..][..h'];
      Seqs.MapTail(MoveEnemy, pre);
      var e := MoveEnemy(es[0]);
      var kept := if EnemyOffScreen(e) then [] else [e];
      var front := Seqs.Filter(Seqs.Map(MoveEnemy, es[1..][..h']), EnemyOnScreen);
      var tail := [MoveEnemy(es[h])] + es[h + 1..];
      assert es[h + 1..] == es[1..][h' + 1..] && es[h] == es[1..][h'];
      assert [MoveEnemy(es[1..][h'])] + es[1..][h' + 1..] == tail;
      assert Seqs.Map(MoveEnemy, pre)[0] == e;
      assert Seqs.Filter(Seqs.Map(MoveEnemy, pre), EnemyOnScreen) == kept + front;
      Seqs.AppendAssoc(kept, front, tail);
    }
  }

  /** Without a crash, no enemy is gone that is still on screen, and every
      survivor is on screen. */
  lemma SurvivorsOnScreen(es: seq<Enemy>, hits: Enemy -> bool)
    requires forall k :: 0 <= k < |es| ==> !hits(MoveEnemy(es[k]))
    ensures var r := SweepEnemies(es, hits);
      !r.crashed && |r.enemies| <= |es|
      && (forall k :: 0 <= k < |r.enemies| ==> !EnemyOffScreen(r.enemies[k]))
      && (forall k :: 0 <= k < |es| && !EnemyOffScreen(MoveEnemy(es[k])) ==> MoveEnemy(es[k]) in r.enemies)
  {
    var moved := Seqs.Map(MoveEnemy, es);
    assert forall k :: 0 <= k < |es| ==> moved[k] == MoveEnemy(es[k]);
  }

  // ---------------------------------------------------------------- pickups

  function MovePickup(p: Pickup): (r: Pickup)
    ensures r.x == p.x - p.speed && r.(x := p.x) == p
  {
    p.(x := p.x - p.speed)
  }

  predicate PickupOffScreen(p: Pickup) {
    p.x + p.size < 0
  }

  /** Items left after a pickup sweep and how many were picked up. */
  datatype Haul = Haul(items: seq<Pickup>, taken: nat)

  /** A moved item the bird picks up: touched and not collected before. */
  function GrabbedBy(touches: Pickup -> bool): Pickup -> bool {
    q => touches(q) && !q.collected
  }

  /** A moved item that stays in the list: not picked up and still on screen. */
  function KeptBy(touches: Pickup -> bool): Pickup -> bool {
    q => !(touches(q) && !q.collected) && !PickupOffScreen(q)
  }

  /** The coin loop and the collectible loop: move each item; one the bird
      touches and has not collected is taken and removed; otherwise it is
      removed once off screen. The count taken is the number of moved items
      picked up, and the items kept are the other moved items still on
      screen, in order. */
  function SweepPickups(ps: seq<Pickup>, touches: Pickup -> bool): (r: Haul)
    ensures r.taken == Seqs.Count(Seqs.Map(MovePickup, ps), GrabbedBy(touches))
    ensures r.items == Seqs.Filter(Seqs.Map(MovePickup, ps), KeptBy(touches))
    decreases |ps|
  {
    if |ps| == 0 then Haul([], 0)
    else
      var p := MovePickup(ps[0]);
      var rest := SweepPickups(ps[1..], touches);
      Seqs.MapTail(MovePickup, ps);
      if touches(p) && !p.collected then Haul(rest.items, rest.taken + 1)
      else if PickupOffScreen(p) then rest
      else Haul([p] + rest.items, rest.taken)
  }

  /** Every moved item is either taken, kept, or gone off screen, and each
      kept item is on screen and was not picked up. */
  lemma PickupsAccounted(ps: seq<Pickup>, touches: Pickup -> bool)
    ensures var r := SweepPickups(ps, touches);
      |r.items| + r.taken <= |ps|
      && (forall k :: 0 <= k < |r.items| ==>
            !PickupOffScreen(r.items[k]) && !(touches(r.items[k]) && !r.items[k].collected))
  {
    var moved := Seqs.Map(MovePickup, ps);
    var r := SweepPickups(ps, touches);
    TakenPlusKept(moved, touches);
    forall k | 0 <= k < |r.items|
      ensures !PickupOffScreen(r.items[k]) && !(touches(r.items[k]) && !r.items[k].collected)
    {
      assert KeptBy(touches)(r.items[k]);
    }
  }

  /** An item cannot be both taken and kept. */
  lemma {:induction false} TakenPlusKept(qs: seq<Pickup>, touches: Pickup -> bool)
    ensures Seqs.Count(qs, GrabbedBy(touches)) + |Seqs.Filter(qs, KeptBy(touches))| <= |qs|
    decreases |qs|
  {
    if |qs| > 0 {
      TakenPlusKept(qs[1..], touches);
    }
  }

  // ---------------------------------------------------------------- fireballs

  function MoveProjectile(p: Projectile): (r: Projectile)
    ensures r.x == p.x + p.speed && r.(x := p.x) == p
  {
    p.(x := p.x + p.speed)
  }

  predicate ProjectileOffScreen(p: Projectile) {
    p.x - p.size > p.screenWidth
  }

  /** Index of the first enemy the fireball burns. */
  function FirstBurnt(p: Projectile, es: seq<Enemy>, burns: (Projectile, Enemy) -> bool): (r: Option<nat>)
    ensures r.Some? ==> r.value < |es| && burns(p, es[r.value])
                        && forall j :: 0 <= j < r.value ==> !burns(p, es[j])
    ensures r.None? ==> forall j :: 0 <= j < |es| ==> !burns(p, es[j])
    decreases |es|
  {
    if |es| == 0 then None
    else if burns(p, es[0]) then Some(0)
    else
      match FirstBurnt(p, es[1..], burns)
      case None => None
      case Some(i) => Some(i + 1)
  }

  datatype Volley = Volley(projectiles: seq<Projectile>, enemies: seq<Enemy>, kills: nat)

  /** The projectile loop: move each fireball; the first enemy it burns is
      removed together with the fireball. A fireball is then removed again if
      it is off screen, which raises (`None`) when it was already removed. */
  function SweepProjectiles(ps: seq<Projectile>, es: seq<Enemy>,
                            burns: (Projectile, Enemy) -> bool): (r: Option<Volley>)
    ensures r.Some? ==> |r.value.enemies| + r.value.kills == |es|
    ensures r.Some? ==> multiset(r.value.enemies) <= multiset(es)
    ensures r.Some? ==> |r.value.projectiles| + r.value.kills <= |ps|
    ensures r.Some? ==> forall k :: 0 <= k < |r.value.projectiles| ==>
      !ProjectileOffScreen(r.value.projectiles[k])
    decreases |ps|
  {
    if |ps| == 0 then Some(Volley([], es, 0))
    else
      var p := MoveProjectile(ps[0]);
      match FirstBurnt(p, es, burns)
      case Some(i) =>
        if ProjectileOffScreen(p) then None
        else
          RemoveOne(es, i);
          (match SweepProjectiles(ps[1..], es[..i] + es[i + 1..], burns)
           case None => None
           case Some(v) => Some(Volley(v.projectiles, v.enemies, v.kills + 1)))
      case None =>
        match SweepProjectiles(ps[1..], es, burns)
        case None => None
        case Some(v) =>
          Some(Volley((if ProjectileOffScreen(p) then [] else [p]) + v.projectiles, v.enemies, v.kills))
  }

  /** Removing the enemy at `i` removes one occurrence of it and nothing else. */
  lemma RemoveOne<T>(s: seq<T>, i: nat)
    requires i < |s|
    ensures multiset(s[..i] + s[i + 1..]) + multiset{s[i]} == multiset(s)
  {
    assert s == s[..i] + [s[i]] + s[i + 1..];
  }

  /** A single fireball: it takes the first enemy it burns with it, and raises
      exactly when it burns one while off screen. */
  lemma OneFireball(p0: Projectile, es: seq<Enemy>, burns: (Projectile, Enemy) -> bool)
    ensures var p := MoveProjectile(p0);
      var r := SweepProjectiles([p0], es, burns);
      match FirstBurnt(p, es, burns)
      case Some(i) =>
        (ProjectileOffScreen(p) <==> r.None?)
        && (!ProjectileOffScreen(p) ==> r == Some(Volley([], es[..i] + es[i + 1..], 1)))
      case None =>
        r == Some(Volley(if ProjectileOffScreen(p) then [] else [p], es, 0))
  {
    var p := MoveProjectile(p0);
    assert [p0][1..] == [];
    assert SweepProjectiles([], es, burns) == Some(Volley([], es, 0));
    assert [p] + [] == [p];
  }

  /** Where a raise comes from: the first fireball, or the rest of the loop
      over the enemies the first fireball leaves. */
  lemma RaiseStep(ps: seq<Projectile>, es: seq<Enemy>, burns: (Projectile, Enemy) -> bool)
    requires |ps| > 0 && SweepProjectiles(ps, es, burns).None?
    ensures var p := MoveProjectile(ps[0]);
      match FirstBurnt(p, es, burns)
      case Some(i) =>
        ProjectileOffScreen(p) || SweepProjectiles(ps[1..], es[..i] + es[i + 1..], burns).None?
      case None => SweepProjectiles(ps[1..], es, burns).None?
  {
  }

  /** The loop raises only on a fireball that is off screen once moved and
      burns one of the enemies present before the loop. */
  lemma {:induction false} VolleyRaises(ps: seq<Projectile>, es: seq<Enemy>,
                                        burns: (Projectile, Enemy) -> bool)
    ensures SweepProjectiles(ps, es, burns).None? ==>
      exists k, e :: 0 <= k < |ps| && e in es && ProjectileOffScreen(MoveProjectile(ps[k]))
                     && burns(MoveProjectile(ps[k]), e)
    decreases |ps|
  {
    if |ps| > 0 && SweepProjectiles(ps, es, burns).None? {
      var p := MoveProjectile(ps[0]);
      RaiseStep(ps, es, burns);
      match FirstBurnt(p, es, burns)
      case Some(i) =>
        if ProjectileOffScreen(p) {
          assert 0 <= 0 < |ps| && es[i] in es && ProjectileOffScreen(MoveProjectile(ps[0]))
                 && burns(MoveProjectile(ps[0]), es[i]);
        } else {
          var rest := es[..i] + es[i + 1..];
          VolleyRaises(ps[1..], rest, burns);
          var k, e :| 0 <= k < |ps[1..]| && e in rest && ProjectileOffScreen(MoveProjectile(ps[1..][k]))
                      && burns(MoveProjectile(ps[1..][k]), e);
          RemoveOne(es, i);
          assert e in multiset(es);
          assert ps[1..][k] == ps[k + 1];
          assert 0 <= k + 1 < |ps| && e in es && ProjectileOffScreen(MoveProjectile(ps[k + 1]))
                 && burns(MoveProjectile(ps[k + 1]), e);
        }
      case None =>
        VolleyRaises(ps[1..], es, burns);
        var k, e :| 0 <= k < |ps[1..]| && e in es && ProjectileOffScreen(MoveProjectile(ps[1..][k]))
                    && burns(MoveProjectile(ps[1..][k]), e);
        assert ps[1..][k] == ps[k + 1];
        assert 0 <= k + 1 < |ps| && e in es && ProjectileOffScreen(MoveProjectile(ps[k + 1]))
               && burns(MoveProjectile(ps[k + 1]), e);
    }
  }

  /** Conversely, when no fireball that ends up off screen burns any of the
      enemies, the loop completes. */
  lemma {:induction false} VolleyCompletes(ps: seq<Projectile>, es: seq<Enemy>,
                                           burns: (Projectile, Enemy) -> bool)
    requires forall k, e :: 0 <= k < |ps| && e in es && ProjectileOffScreen(MoveProjectile(ps[k]))
                            ==> !burns(MoveProjectile(ps[k]), e)
    ensures SweepProjectiles(ps, es, burns).Some?
  {
    VolleyRaises(ps, es, burns);
  }

  /** When no fireball touches an enemy, nothing is killed and nothing raises. */
  lemma {:induction false} HarmlessVolley(ps: seq<Projectile>, es: seq<Enemy>,
                                          burns: (Projectile, Enemy) -> bool)
    requires forall p, e :: !burns(p, e)
    ensures SweepProjectiles(ps, es, burns).Some?
    ensures SweepProjectiles(ps, es, burns).value.kills == 0
    ensures SweepProjectiles(ps, es, burns).value.enemies == es
    decreases |ps|
  {
    if |ps| > 0 {
      HarmlessVolley(ps[1..], es, burns);
    }
  }

  // ---------------------------------------------------------------- spawn geometry

  /** Padding kept between an item and a pipe, by gap height. */
  function ClearancePadding(gapHeight: int): (p: int)
    ensures p == 25 <==> gapHeight >= 250
    ensures p == 20 <==> 230 <= gapHeight < 250
    ensures p == 15 <==> gapHeight < 230
  {
    if gapHeight >= 250 then 25 else if gapHeight >= 230 then 20 else 15
  }

  /** Wider gaps never get less padding. */
  lemma ClearancePaddingMonotone(a: int, b: int)
    requires a <= b
    ensures ClearancePadding(a) <= ClearancePadding(b)
  {
  }

  /** The centre a spawn search proposes inside the opening `[gapTop, gapBottom]`
      for an item (or a column of coins) of height `itemHeight`, or `None` when
      the opening is too small for the item, the bird and the padding. */
  function GapSlot(gapTop: int, gapBottom: int, itemHeight: int, birdSize: int): (r: Option<int>)
    ensures r.Some? <==>
      gapBottom - gapTop >= birdSize + itemHeight + 2 * ClearancePadding(gapBottom - gapTop)
    ensures r.Some? ==> r.value == (gapTop + gapBottom) / 2
  {
    var gapHeight := gapBottom - gapTop;
    var pad := ClearancePadding(gapHeight);
    if gapHeight >= birdSize + itemHeight + 2 * pad then
      var safeTop := gapTop + pad;
      var safeBottom := gapBottom - pad;
      if safeBottom - safeTop >= itemHeight + birdSize then Some((safeTop + safeBottom) / 2)
      else None
    else None
  }

  /** The second filter on a proposed centre: the item must lie inside the
      padded opening and leave the bird's height free above and below it. */
  predicate SlotAccepted(center: int, itemHeight: int, gapTop: int, gapBottom: int, birdSize: int) {
    var pad := ClearancePadding(gapBottom - gapTop);
    var itemTop := center - itemHeight / 2;
    var itemBottom := center + itemHeight / 2;
    !(itemTop < gapTop + pad || itemBottom > gapBottom - pad)
    && !(itemTop - gapTop < birdSize || gapBottom - itemBottom < birdSize)
  }

  /** A centre proposed by `GapSlot` always passes the padding half of the
      second filter; only the bird-room half can reject it, and it does so
      exactly when the opening leaves less than the bird's height above or
      below the item. */
  lemma GapSlotInsidePadding(gapTop: int, gapBottom: int, itemHeight: int, birdSize: int)
    requires itemHeight >= 0 && birdSize >= 0
    requires GapSlot(gapTop, gapBottom, itemHeight, birdSize).Some?
    ensures var c := GapSlot(gapTop, gapBottom, itemHeight, birdSize).value;
      var pad := ClearancePadding(gapBottom - gapTop);
      c - itemHeight / 2 >= gapTop + pad && c + itemHeight / 2 <= gapBottom - pad
    ensures var c := GapSlot(gapTop, gapBottom, itemHeight, birdSize).value;
      SlotAccepted(c, itemHeight, gapTop, gapBottom, birdSize)
      <==> (c - itemHeight / 2 - gapTop >= birdSize && gapBottom - c - itemHeight / 2 >= birdSize)
  {
  }

  /** Height of a column of `n` coins spaced `coinSize + 15` apart. */
  function ClusterHeight(n: int, coinSize: int): int {
    (n - 1) * (coinSize + 15) + coinSize
  }

  /** The coins of a cluster of `n` centred on `centerY`, top to bottom. */
  function ClusterCoins(x: int, centerY: int, n: nat, coinSize: int, speed: int): (r: seq<Pickup>)
    ensures |r| == n
    ensures forall i :: 0 <= i < n ==>
      r[i] == Pickup(x, centerY - ((n - 1) * (coinSize + 15)) / 2 + i * (coinSize + 15), coinSize, speed, false)
  {
    var startY := centerY - ((n - 1) * (coinSize + 15)) / 2;
    seq(n, i => Pickup(x, startY + i * (coinSize + 15), coinSize, speed, false))
  }

  /** Neighbouring coins of a cluster are one spacing apart, and the column is
      centred on `centerY` (rounded up by half a pixel when its span is odd). */
  lemma ClusterLayout(x: int, centerY: int, n: nat, coinSize: int, speed: int)
    requires n >= 1
    ensures var r := ClusterCoins(x, centerY, n, coinSize, speed);
      forall i :: 0 <= i < n - 1 ==> r[i + 1].y - r[i].y == coinSize + 15
    ensures var r := ClusterCoins(x, centerY, n, coinSize, speed);
      r[0].y + r[n - 1].y == 2 * centerY + ((n - 1) * (coinSize + 15)) % 2
  {
  }

  // ---------------------------------------------------------------- timers

  datatype TimerStep = TimerStep(value: nat, fired: bool)

  /** A spawn timer: count one frame, fire and reset at `period`. */
  function Tick(t: nat, period: int): (r: TimerStep)
    ensures r.fired <==> t + 1 >= period
    ensures r.fired ==> r.value == 0
    ensures !r.fired ==> r.value == t + 1
  {
    if t + 1 >= period then TimerStep(0, true) else TimerStep(t + 1, false)
  }

  /** A timer started at zero stays below its period and fires on exactly one
      frame out of every `period`. */
  predicate TimerInRange(t: nat, period: int) {
    t == 0 || t < period
  }

  lemma TickKeepsRange(t: nat, period: int)
    ensures TimerInRange(Tick(t, period).value, period)
    ensures TimerInRange(t, period) && period >= 1 ==> (Tick(t, period).fired <==> t == period - 1)
  {
  }

  function Ticks(t: nat, period: int, n: nat): TimerStep {
    if n == 0 then TimerStep(t, false)
    else
      var prev := Ticks(t, period, n - 1);
      Tick(prev.value, period)
  }

  /** From zero, the first `period - 1` frames do not fire and the next one does. */
  lemma {:induction false} TimerFiresOnPeriod(period: nat, n: nat)
    requires 1 <= n <= period
    ensures Ticks(0, period, n).fired <==> n == period
    ensures n < period ==> Ticks(0, period, n).value == n
  {
    if n > 1 {
      TimerFiresOnPeriod(period, n - 1);
    }
  }

  const CoinPeriod: int := 120
  const ClusterPeriod: int := 300
  const CollectiblePeriod: int := 400

  // ---------------------------------------------------------------- volume

  function Clamp01(v: real): (r: real)
    ensures 0.0 <= r <= 1.0
    ensures 0.0 <= v <= 1.0 ==> r == v
    ensures v < 0.0 ==> r == 0.0
    ensures v > 1.0 ==> r == 1.0
  {
    if v < 0.0 then 0.0 else if v > 1.0 then 1.0 else v
  }

  /** The volume slider: clamp to [0, 1]; zero mutes, and raising the volume
      from zero unmutes; otherwise the mute flag is kept. */
  function SetVolume(g: Game, v: real): (r: Game)
    ensures r.volume == Clamp01(v)
    ensures r.volume == 0.0 ==> r.muted
    ensures g.volume == 0.0 && r.volume > 0.0 ==> !r.muted
    ensures g.volume != 0.0 && r.volume != 0.0 ==> r.muted == g.muted
    ensures r.(volume := g.volume, muted := g.muted) == g
  {
    var nv := Clamp01(v);
    var m := if nv == 0.0 then true else if g.volume == 0.0 && nv > 0.0 then false else g.muted;
    g.(volume := nv, muted := m)
  }

  function ToggleMute(g: Game): (r: Game)
    ensures r.muted != g.muted && r.(muted := g.muted) == g
  {
    g.(muted := !g.muted)
  }

  /** The level the sounds play at. */
  function ActualVolume(g: Game): real {
    if g.muted then 0.0 else g.volume
  }

  /** Effects (coins, fireballs) play at least `floor` loud and twice the
      master volume, capped at full volume, or not at all when muted. */
  function EffectVolume(g: Game, floor: real): (r: real)
    requires 0.0 <= floor <= 1.0
    ensures g.muted ==> r == 0.0
    ensures !g.muted ==> floor <= r <= 1.0
    ensures !g.muted && 2.0 * g.volume <= 1.0 ==> r >= 2.0 * g.volume
    ensures !g.muted && 2.0 * g.volume >= 1.0 ==> r == 1.0
    ensures !g.muted && floor <= 2.0 * g.volume <= 1.0 ==> r == 2.0 * g.volume
    ensures !g.muted && 2.0 * g.volume <= floor ==> r == floor
  {
    if g.muted then 0.0
    else
      var loud := if floor >= g.volume * 2.0 then floor else g.volume * 2.0;
      if loud <= 1.0 then loud else 1.0
  }

  /** Muting twice restores the game; muting silences it, and unmuting plays
      at the slider's volume. */
  lemma ToggleMuteInvolution(g: Game)
    ensures ToggleMute(ToggleMute(g)) == g
    ensures ActualVolume(ToggleMute(g)) == (if g.muted then g.volume else 0.0)
  {
  }

  /** Dragging the slider to zero silences every sound, and dragging it up
      from zero plays at the new volume. */
  lemma SliderSoundLevel(g: Game, v: real)
    ensures v <= 0.0 ==> ActualVolume(SetVolume(g, v)) == 0.0
    ensures g.volume == 0.0 && v > 0.0 ==> ActualVolume(SetVolume(g, v)) == Clamp01(v)
  {
  }

  // ---------------------------------------------------------------- game states

  /** The configuration's levels are addressable and a playing game has a bird. */
  predicate WellFormed(g: Game, cfg: Config) {
    g.level < |cfg.levels| && (g.phase == Playing ==> g.bird.Some?)
  }

  /** The scoring invariant: every coin collected contributed five points,
      and the spawn timers stay below their periods. */
  predicate Consistent(g: Game, cfg: Config) {
    WellFormed(g, cfg)
    && g.score >= 5 * g.coinsCollected
    && TimerInRange(g.coinTimer, CoinPeriod)
    && TimerInRange(g.clusterTimer, ClusterPeriod)
    && TimerInRange(g.collectibleTimer, CollectiblePeriod)
    && TimerInRange(g.enemyTimer, cfg.levels[g.level].enemySpawnRate)
  }

  /** The game as first shown: the start screen of the first level. */
  function InitialGame(highScore: int, volume: real, muted: bool): (g: Game) {
    Game(Start, 0, 0, 0, highScore, 0, None, [], [], [], [], [], 0, 0, 0, 0, 0, 0, volume, muted, false)
  }

  /** Starting (or restarting) resets the round and places a fresh, unflapped bird. */
  function StartGame(g: Game, cfg: Config, hasSprite: bool): (r: Game)
    requires g.level < |cfg.levels|
    ensures r.phase == Playing && r.score == 0 && r.coinsCollected == 0 && r.ammo == 0
    ensures r.bird == Some(NewBird(cfg, cfg.levels[g.level], hasSprite))
    ensures r.walls == [] && r.enemies == [] && r.coins == [] && r.collectibles == [] && r.projectiles == []
    ensures r.highScore == g.highScore && r.level == g.level && !r.dropdownOpen
    ensures r.volume == g.volume && r.muted == g.muted
    ensures r.wallTimer == 0 && r.enemyTimer == 0 && r.coinTimer == 0 && r.clusterTimer == 0
            && r.collectibleTimer == 0
    ensures r.lastWallX == cfg.screenWidth
    ensures Consistent(r, cfg)
  {
    g.(phase := Playing, score := 0, coinsCollected := 0, dropdownOpen := false,
       bird := Some(NewBird(cfg, cfg.levels[g.level], hasSprite)),
       walls := [], enemies := [], coins := [], collectibles := [], projectiles := [], ammo := 0,
       wallTimer := 0, enemyTimer := 0, coinTimer := 0, clusterTimer := 0, collectibleTimer := 0,
       lastWallX := cfg.screenWidth)
  }

  /** Ending a round records the score as the high score when it beats it. */
  function EndGame(g: Game): (r: Game)
    ensures r.phase == GameOver
    ensures r.highScore >= g.highScore && r.highScore >= g.score
    ensures r.highScore == g.highScore || r.highScore == g.score
    ensures r.(phase := g.phase, highScore := g.highScore) == g
  {
    g.(phase := GameOver, highScore := if g.score > g.highScore then g.score else g.highScore)
  }

  /** Shooting needs ammunition and a bird with a collision rectangle. It
      gives the bird a lift (60% of the flap strength when falling, or 18% added
      when rising), switches gravity on, launches a fireball from the bird's
      front and spends one round of ammunition. */
  function Shoot(g: Game, cfg: Config): (r: Game)
    requires g.level < |cfg.levels|
    ensures (g.ammo > 0 && g.bird.Some? && g.bird.value.hasRect) <==> r.ammo == g.ammo - 1
    ensures r.ammo != g.ammo ==> |r.projectiles| == |g.projectiles| + 1
                                 && r.projectiles[..|g.projectiles|] == g.projectiles
                                 && r.bird.Some? && r.bird.value.hasFlapped
    ensures r.ammo == g.ammo ==> r == g
    ensures r.score == g.score && r.coinsCollected == g.coinsCollected && r.phase == g.phase
  {
    if g.ammo > 0 && g.bird.Some? && g.bird.value.hasRect then
      var b := g.bird.value;
      var boost := cfg.levels[g.level].flapStrength * 0.6;
      var v := if b.velocity < 0.0 then boost else b.velocity + boost * 0.3;
      var shot := Projectile(b.x + b.size / 2, b.y, cfg.fireballSize, 8, cfg.screenWidth);
      g.(bird := Some(b.(velocity := v, hasFlapped := true)),
         projectiles := g.projectiles + [shot], ammo := g.ammo - 1)
    else g
  }

  /** The keyboard. Space starts a game from the start or game-over screen;
      while playing it flaps, or shoots with shift held. F shoots while playing. */
  datatype Key = Space(shift: bool) | KeyF

  function OnKey(g: Game, cfg: Config, k: Key, hasSprite: bool): (r: Game)
    requires WellFormed(g, cfg)
    ensures g.phase != Playing && k.Space? ==> r == StartGame(g, cfg, hasSprite)
    ensures g.phase != Playing && k.KeyF? ==> r == g
    ensures g.phase == Playing ==> r.phase == Playing && r.score == g.score && r.highScore == g.highScore
    ensures g.phase == Playing && k == Space(false) ==> r.bird == Some(Flap(g.bird.value))
    ensures g.phase == Playing && k != Space(false) ==> r == Shoot(g, cfg)
  {
    match k
    case Space(shift) =>
      if g.phase == Playing then
        if shift then Shoot(g, cfg) else g.(bird := Some(Flap(g.bird.value)))
      else StartGame(g.(dropdownOpen := false), cfg, hasSprite)
    case KeyF =>
      if g.phase == Playing then Shoot(g, cfg) else g
  }

  // ---------------------------------------------------------------- one frame

  /** The random draws of a frame fall in the ranges `random.randint` produces. */
  predicate FrameFits(g: Game, cfg: Config, f: Frame)
    requires g.level < |cfg.levels|
  {
    var gap := WallGap(cfg.levels[g.level].wallGapSize, cfg.birdSize + 20);
    (gap <= cfg.screenHeight - gap ==> gap <= f.gapDraw <= cfg.screenHeight - gap)
    && (50 <= cfg.screenHeight - 50 ==> 50 <= f.enemyDraw <= cfg.screenHeight - 50)
  }

  /** The bird hits one of the walls `ws` once they are moved. */
  predicate HitsAWall(ws: seq<Wall>, f: Frame) {
    exists k :: 0 <= k < |ws| && f.hitsWall(MoveWall(ws[k]))
  }

  /** The bird hits one of the enemies `es` once they are moved. */
  predicate HitsAnEnemy(es: seq<Enemy>, f: Frame) {
    exists k :: 0 <= k < |es| && f.hitsEnemy(MoveEnemy(es[k]))
  }

  /** The walls after the spawn check: a new wall at the right edge when one
      is due, or `None` when its gap cannot be drawn and `randint` raises. */
  function SpawnWalls(g: Game, cfg: Config, f: Frame): (r: Option<seq<Wall>>)
    requires g.level < |cfg.levels| && FrameFits(g, cfg, f)
    ensures var lvl := cfg.levels[g.level];
      !ShouldSpawnWall(g.walls, cfg.screenWidth, lvl.wallSpacing) ==> r == Some(g.walls)
    ensures var lvl := cfg.levels[g.level]; var gap := WallGap(lvl.wallGapSize, cfg.birdSize + 20);
      ShouldSpawnWall(g.walls, cfg.screenWidth, lvl.wallSpacing) ==>
        (r.None? <==> gap > cfg.screenHeight - gap)
        && (r.Some? ==> |r.value| == |g.walls| + 1 && r.value[..|g.walls|] == g.walls
                        && r.value[|g.walls|].x == cfg.screenWidth && !r.value[|g.walls|].passed)
  {
    var lvl := cfg.levels[g.level];
    if ShouldSpawnWall(g.walls, cfg.screenWidth, lvl.wallSpacing) then
      match NewWall(cfg.screenWidth, cfg.screenHeight, lvl.wallGapSize, cfg.wallWidth,
                    lvl.wallSpeed, cfg.birdSize + 20, f.gapDraw)
      case None => None
      case Some(w) => assert (g.walls + [w])[..|g.walls|] == g.walls; Some(g.walls + [w])
    else Some(g.walls)
  }

  /** Walls: spawn one when due (raising if the gap cannot fit), then move them
      all. Hitting a wall ends the round; otherwise the walls and the score are
      those of the wall loop. */
  function WallStage(g: Game, cfg: Config, f: Frame): (r: Option<Game>)
    requires WellFormed(g, cfg) && g.phase == Playing && FrameFits(g, cfg, f)
    ensures r.None? <==> SpawnWalls(g, cfg, f).None?
    ensures r.Some? ==>
      WallsStaged(g, SpawnWalls(g, cfg, f).value, g.bird.value.x, cfg.wallWidth, f, r.value)
  {
    match SpawnWalls(g, cfg, f)
    case None => None
    case Some(ws) =>
      var g1 := if ShouldSpawnWall(g.walls, cfg.screenWidth, cfg.levels[g.level].wallSpacing)
                then g.(walls := ws, lastWallX := cfg.screenWidth) else g;
      var r := SweepStage(g1, ws, g.bird.value.x, cfg.wallWidth, f.hitsWall);
      SweepStageFrom(g, g1, ws, g.bird.value.x, cfg.wallWidth, f, r);
      Some(r)
  }

  /** What the wall stage makes of `g` when `ws` are the walls after the
      spawn and the bird is at `x`:
      - only the walls, the score, `lastWallX`, the phase and the high score
        change, and the score does not go down;
      - the round ends exactly when a moved wall is hit;
      - while playing, the walls are the advanced walls still on screen, the
        score grows by the walls cleared, and the high score is kept;
      - on a crash the walls and the points are those the wall loop leaves
        at the first wall hit, and the high score becomes the larger of the
        old high score and the new score. */
  predicate WallsStaged(g: Game, ws: seq<Wall>, x: int, wallWidth: int, f: Frame, r: Game) {
    r.score >= g.score
    && r.(score := g.score, walls := g.walls, lastWallX := g.lastWallX,
          phase := g.phase, highScore := g.highScore) == g
    && (r.phase == GameOver <==> HitsAWall(ws, f))
    && (r.phase == Playing ==>
          r.walls == Seqs.Filter(Seqs.Map(Advance(x, wallWidth), ws), WallOnScreen)
          && r.score == g.score + Seqs.Count(Seqs.Map(MoveWall, ws), ClearedBy(x, wallWidth))
          && r.highScore == g.highScore)
    && (r.phase != Playing ==>
          r.phase == GameOver && r.highScore >= g.highScore && r.highScore >= r.score)
    && (r.phase == GameOver ==>
          CrashedAt(ws, x, wallWidth, FirstWallHit(ws, f.hitsWall), WallPass(r.walls, r.score - g.score, true))
          && r.highScore == (if r.score > g.highScore then r.score else g.highScore))
  }

  /** `SweepStage`'s contract read against the game before the spawn, which
      differs from `g1` at most in the walls and `lastWallX`. */
  lemma SweepStageFrom(g: Game, g1: Game, ws: seq<Wall>, x: int, wallWidth: int, f: Frame, r: Game)
    requires g1.phase == Playing
    requires g1.(walls := g.walls, lastWallX := g.lastWallX) == g
    requires r == SweepStage(g1, ws, x, wallWidth, f.hitsWall)
    ensures WallsStaged(g, ws, x, wallWidth, f, r)
  {
  }

  /** The wall loop over `ws` applied to the game: the walls and score it
      leaves, and the end of the round when it crashes. */
  function SweepStage(g: Game, ws: seq<Wall>, x: int, wallWidth: int, hits: Wall -> bool): (r: Game)
    requires g.phase == Playing
    ensures r.(walls := g.walls, score := g.score, phase := g.phase, highScore := g.highScore) == g
    ensures r.score >= g.score
    ensures r.phase == GameOver <==> exists k :: 0 <= k < |ws| && hits(MoveWall(ws[k]))
    ensures r.phase == Playing || r.phase == GameOver
    ensures r.phase == Playing ==>
      r.walls == Seqs.Filter(Seqs.Map(Advance(x, wallWidth), ws), WallOnScreen)
      && r.score == g.score + Seqs.Count(Seqs.Map(MoveWall, ws), ClearedBy(x, wallWidth))
      && r.highScore == g.highScore
    ensures r.phase == GameOver ==>
      CrashedAt(ws, x, wallWidth, FirstWallHit(ws, hits), WallPass(r.walls, r.score - g.score, true))
      && r.highScore == (if r.score > g.highScore then r.score else g.highScore)
  {
    var pass := SweepWalls(ws, x, wallWidth, hits);
    var g2 := g.(walls := pass.walls, score := g.score + pass.gained);
    if pass.crashed then EndGame(g2) else g2
  }

  /** The enemies after the spawn timer: a new enemy at the right edge when it fires. */
  function SpawnEnemies(g: Game, cfg: Config, f: Frame): seq<Enemy>
    requires g.level < |cfg.levels|
  {
    var lvl := cfg.levels[g.level];
    if Tick(g.enemyTimer, lvl.enemySpawnRate).fired
    then g.enemies + [Enemy(cfg.screenWidth, f.enemyDraw, cfg.enemySize, lvl.enemySpeed)]
    else g.enemies
  }

  /** Enemies: the spawn timer, then the enemy loop. */
  function EnemyStage(g: Game, cfg: Config, f: Frame): (r: Option<Game>)
    requires WellFormed(g, cfg) && g.phase == Playing && FrameFits(g, cfg, f)
    ensures r.Some? ==> r.value.(enemies := g.enemies, enemyTimer := g.enemyTimer,
                                 phase := g.phase, highScore := g.highScore) == g
    ensures r.Some? ==> TimerInRange(g.enemyTimer, cfg.levels[g.level].enemySpawnRate) ==>
      TimerInRange(r.value.enemyTimer, cfg.levels[g.level].enemySpawnRate)
    ensures r.Some? && r.value.phase == Playing ==> r.value.highScore == g.highScore
    ensures r.Some? && r.value.phase != Playing ==>
      r.value.phase == GameOver && r.value.highScore >= g.highScore && r.value.highScore >= r.value.score
    ensures r.None? <==> (Tick(g.enemyTimer, cfg.levels[g.level].enemySpawnRate).fired
                          && cfg.screenHeight < 100)
    ensures r.Some? ==> r.value.enemyTimer == Tick(g.enemyTimer, cfg.levels[g.level].enemySpawnRate).value
    ensures r.Some? ==> var es := SpawnEnemies(g, cfg, f);
      (r.value.phase == GameOver <==> HitsAnEnemy(es, f))
    ensures r.Some? && r.value.phase == Playing ==>
      r.value.enemies == Seqs.Filter(Seqs.Map(MoveEnemy, SpawnEnemies(g, cfg, f)), EnemyOnScreen)
    ensures r.Some? && r.value.phase == GameOver ==>
      EnemiesCrashedAt(SpawnEnemies(g, cfg, f), FirstEnemyHit(SpawnEnemies(g, cfg, f), f.hitsEnemy),
                       EnemyPass(r.value.enemies, true))
      && r.value.highScore == (if g.score > g.highScore then g.score else g.highScore)
  {
    var lvl := cfg.levels[g.level];
    var t := Tick(g.enemyTimer, lvl.enemySpawnRate);
    TickKeepsRange(g.enemyTimer, lvl.enemySpawnRate);
    if t.fired && 50 > cfg.screenHeight - 50 then None
    else
      var es := SpawnEnemies(g, cfg, f);
      var pass := SweepEnemies(es, f.hitsEnemy);
      SweepEnemiesCrash(es, f.hitsEnemy);
      var g1 := g.(enemyTimer := t.value, enemies := pass.enemies);
      if pass.crashed then Some(EndGame(g1)) else Some(g1)
  }

  /** Coins, coin clusters and fireball collectibles appear on their timers. */
  function SpawnStage(g: Game, f: Frame): (r: Game)
    ensures TimerInRange(r.coinTimer, CoinPeriod) && TimerInRange(r.clusterTimer, ClusterPeriod)
    ensures TimerInRange(r.collectibleTimer, CollectiblePeriod)
    ensures r.coinTimer == Tick(g.coinTimer, CoinPeriod).value
            && r.clusterTimer == Tick(g.clusterTimer, ClusterPeriod).value
            && r.collectibleTimer == Tick(g.collectibleTimer, CollectiblePeriod).value
    ensures r.coins == g.coins + (if Tick(g.coinTimer, CoinPeriod).fired then f.newCoins else [])
                               + (if Tick(g.clusterTimer, ClusterPeriod).fired then f.newCluster else [])
    ensures r.collectibles == g.collectibles
                              + (if Tick(g.collectibleTimer, CollectiblePeriod).fired then f.newCollectibles else [])
    ensures r.(coins := g.coins, collectibles := g.collectibles, coinTimer := g.coinTimer,
               clusterTimer := g.clusterTimer, collectibleTimer := g.collectibleTimer) == g
  {
    var c := Tick(g.coinTimer, CoinPeriod);
    var k := Tick(g.clusterTimer, ClusterPeriod);
    var b := Tick(g.collectibleTimer, CollectiblePeriod);
    TickKeepsRange(g.coinTimer, CoinPeriod);
    TickKeepsRange(g.clusterTimer, ClusterPeriod);
    TickKeepsRange(g.collectibleTimer, CollectiblePeriod);
    var coins := g.coins + (if c.fired then f.newCoins else []) + (if k.fired then f.newCluster else []);
    var collectibles := g.collectibles + (if b.fired then f.newCollectibles else []);
    g.(coinTimer := c.value, clusterTimer := k.value, collectibleTimer := b.value,
       coins := coins, collectibles := collectibles)
  }

  /** Pickups and fireballs: collectibles add ammunition, kills add ten
      points, coins add five points each. */
  function HarvestStage(g: Game, f: Frame): (r: Option<Game>)
    ensures r.None? <==> SweepProjectiles(g.projectiles, g.enemies, f.burns).None?
    ensures r.Some? ==> r.value.score - g.score == 5 * (r.value.coinsCollected - g.coinsCollected)
                                                   + 10 * (|g.enemies| - |r.value.enemies|)
    ensures r.Some? ==> r.value.ammo == g.ammo + Seqs.Count(Seqs.Map(MovePickup, g.collectibles), GrabbedBy(f.touches))
    ensures r.Some? ==> r.value.coinsCollected == g.coinsCollected + Seqs.Count(Seqs.Map(MovePickup, g.coins), GrabbedBy(f.touches))
    ensures r.Some? ==> r.value.collectibles == Seqs.Filter(Seqs.Map(MovePickup, g.collectibles), KeptBy(f.touches))
    ensures r.Some? ==> r.value.coins == Seqs.Filter(Seqs.Map(MovePickup, g.coins), KeptBy(f.touches))
    ensures r.Some? ==> |r.value.enemies| <= |g.enemies|
    ensures r.Some? ==> r.value.phase == g.phase && r.value.highScore == g.highScore
  {
    var ammo := SweepPickups(g.collectibles, f.touches);
    match SweepProjectiles(g.projectiles, g.enemies, f.burns)
    case None => None
    case Some(v) =>
      var coins := SweepPickups(g.coins, f.touches);
      Some(g.(collectibles := ammo.items, ammo := g.ammo + ammo.taken,
              projectiles := v.projectiles, enemies := v.enemies,
              coins := coins.items,
              score := g.score + 10 * v.kills + 5 * coins.taken,
              coinsCollected := g.coinsCollected + coins.taken))
  }

  /** One frame of the game loop. Nothing happens outside play. `None` stands
      for an exception escaping the frame (an empty `randint` range, or a
      fireball removed twice). */
  function Update(g: Game, cfg: Config, f: Frame): (r: Option<Game>)
    requires WellFormed(g, cfg) && FrameFits(g, cfg, f)
  {
    if g.phase != Playing then Some(g)
    else
      var b := BirdStep(g.bird.value);
      var g0 := g.(bird := Some(b));
      if b.y < 0.0 || b.y > cfg.screenHeight as real then Some(EndGame(g0))
      else Stages(g0, cfg, f)
  }

  /** The stages of a frame once the bird has moved and is on screen: walls,
      then enemies, then spawning and collecting pickups. A stage that ends
      the round or raises ends the frame. */
  function Stages(g: Game, cfg: Config, f: Frame): Option<Game>
    requires WellFormed(g, cfg) && FrameFits(g, cfg, f) && g.phase == Playing
  {
    match WallStage(g, cfg, f)
    case None => None
    case Some(g1) =>
      if g1.phase != Playing then Some(g1)
      else
        match EnemyStage(g1, cfg, f)
        case None => None
        case Some(g2) =>
          if g2.phase != Playing then Some(g2)
          else HarvestStage(SpawnStage(g2, f), f)
  }

  /** A frame never lowers the score or the high score, never resets the
      coin count, keeps the scoring invariant, and either keeps playing or
      ends the round with the high score at least the final score. */
  lemma UpdateProgress(g: Game, cfg: Config, f: Frame)
    requires Consistent(g, cfg) && FrameFits(g, cfg, f)
    ensures var r := Update(g, cfg, f);
      r.Some? ==> r.value.score >= g.score && r.value.highScore >= g.highScore
                  && r.value.coinsCollected >= g.coinsCollected
                  && Consistent(r.value, cfg) && r.value.level == g.level
    ensures var r := Update(g, cfg, f);
      r.Some? && g.phase == Playing && r.value.phase != Playing ==>
        r.value.phase == GameOver && r.value.highScore >= r.value.score
    ensures g.phase != Playing ==> Update(g, cfg, f) == Some(g)
    ensures g.phase == Playing ==> var b := BirdStep(g.bird.value);
      b.y < 0.0 || b.y > cfg.screenHeight as real ==> Update(g, cfg, f) == Some(EndGame(g.(bird := Some(b))))
  {
    if g.phase == Playing {
      var b := BirdStep(g.bird.value);
      var g0 := g.(bird := Some(b));
      assert Consistent(g0, cfg);
      if !(b.y < 0.0 || b.y > cfg.screenHeight as real) {
        StagesProgress(g0, cfg, f);
      }
    }
  }

  /** The stages keep what `UpdateProgress` promises for a frame. */
  lemma StagesProgress(g: Game, cfg: Config, f: Frame)
    requires Consistent(g, cfg) && FrameFits(g, cfg, f) && g.phase == Playing
    ensures var r := Stages(g, cfg, f);
      r.Some? ==> r.value.score >= g.score && r.value.highScore >= g.highScore
                  && r.value.coinsCollected >= g.coinsCollected
                  && Consistent(r.value, cfg) && r.value.level == g.level
                  && (r.value.phase != Playing ==> r.value.phase == GameOver && r.value.highScore >= r.value.score)
  {
    WallStageKeeps(g, cfg, f);
    var w := WallStage(g, cfg, f);
    if w.Some? && w.value.phase == Playing {
      FrameFitsLevel(g, w.value, cfg);
      EnemyStageKeeps(w.value, cfg, f);
      var e := EnemyStage(w.value, cfg, f);
      if e.Some? && e.value.phase == Playing {
        PickupStagesKeep(e.value, cfg, f);
      }
    }
  }

  /** Inside the screen, hitting one of the walls (after the spawn check) ends the round. */
  lemma WallHitEndsRound(g: Game, cfg: Config, f: Frame)
    requires WellFormed(g, cfg) && FrameFits(g, cfg, f) && g.phase == Playing
    requires 0.0 <= BirdStep(g.bird.value).y <= cfg.screenHeight as real
    ensures var ws := SpawnWalls(g.(bird := Some(BirdStep(g.bird.value))), cfg, f);
      ws.Some? && HitsAWall(ws.value, f) ==>
        Update(g, cfg, f).Some? && Update(g, cfg, f).value.phase == GameOver
  {
  }

  /** Inside the screen, missing every wall but hitting one of the enemies
      (after the spawn timer) ends the round. */
  lemma EnemyHitEndsRound(g: Game, cfg: Config, f: Frame)
    requires WellFormed(g, cfg) && FrameFits(g, cfg, f) && g.phase == Playing
    requires 0.0 <= BirdStep(g.bird.value).y <= cfg.screenHeight as real
    ensures var g0 := g.(bird := Some(BirdStep(g.bird.value)));
      var ws := SpawnWalls(g0, cfg, f); var es := SpawnEnemies(g0, cfg, f);
      ws.Some? && !HitsAWall(ws.value, f)
      && !(Tick(g.enemyTimer, cfg.levels[g.level].enemySpawnRate).fired && cfg.screenHeight < 100)
      && HitsAnEnemy(es, f) ==>
        Update(g, cfg, f).Some? && Update(g, cfg, f).value.phase == GameOver
  {
    var g0 := g.(bird := Some(BirdStep(g.bird.value)));
    var ws := SpawnWalls(g0, cfg, f);
    var es := SpawnEnemies(g0, cfg, f);
    if ws.Some? && !HitsAWall(ws.value, f)
       && !(Tick(g.enemyTimer, cfg.levels[g.level].enemySpawnRate).fired && cfg.screenHeight < 100)
       && HitsAnEnemy(es, f)
    {
      var w := WallStage(g0, cfg, f).value;
      assert w.phase == Playing;
      FrameFitsLevel(g0, w, cfg);
      assert SpawnEnemies(w, cfg, f) == es;
      var e := EnemyStage(w, cfg, f);
      assert e.Some? && e.value.phase == GameOver;
      assert Update(g, cfg, f) == e;
    }
  }

  /** Inside the screen, a frame ends the round only through a wall or an enemy hit. */
  lemma RoundEndsOnlyOnHit(g: Game, cfg: Config, f: Frame)
    requires WellFormed(g, cfg) && FrameFits(g, cfg, f) && g.phase == Playing
    requires 0.0 <= BirdStep(g.bird.value).y <= cfg.screenHeight as real
    ensures var g0 := g.(bird := Some(BirdStep(g.bird.value)));
      var ws := SpawnWalls(g0, cfg, f); var es := SpawnEnemies(g0, cfg, f); var r := Update(g, cfg, f);
      r.Some? && r.value.phase == GameOver ==>
        ws.Some? && (HitsAWall(ws.value, f) || HitsAnEnemy(es, f))
  {
    var g0 := g.(bird := Some(BirdStep(g.bird.value)));
    var w := WallStage(g0, cfg, f);
    if w.Some? && w.value.phase == Playing {
      FrameFitsLevel(g0, w.value, cfg);
      assert SpawnEnemies(w.value, cfg, f) == SpawnEnemies(g0, cfg, f);
      var e := EnemyStage(w.value, cfg, f);
      if e.Some? && e.value.phase == Playing {
        assert SpawnStage(e.value, f).phase == Playing;
      }
    }
  }

  lemma WallStageKeeps(g: Game, cfg: Config, f: Frame)
    requires Consistent(g, cfg) && g.phase == Playing && FrameFits(g, cfg, f)
    ensures var r := WallStage(g, cfg, f);
      r.Some? ==> Consistent(r.value, cfg) && r.value.score >= g.score && r.value.highScore >= g.highScore
                  && r.value.coinsCollected == g.coinsCollected && r.value.level == g.level
  {
    var r := WallStage(g, cfg, f);
    if r.Some? {
      assert r.value.(score := g.score, walls := g.walls, lastWallX := g.lastWallX,
                      phase := g.phase, highScore := g.highScore) == g;
    }
  }

  lemma EnemyStageKeeps(g: Game, cfg: Config, f: Frame)
    requires Consistent(g, cfg) && g.phase == Playing && FrameFits(g, cfg, f)
    ensures var r := EnemyStage(g, cfg, f);
      r.Some? ==> Consistent(r.value, cfg) && r.value.score == g.score && r.value.highScore >= g.highScore
                  && r.value.coinsCollected == g.coinsCollected && r.value.level == g.level
  {
    var r := EnemyStage(g, cfg, f);
    if r.Some? {
      assert r.value.(enemies := g.enemies, enemyTimer := g.enemyTimer,
                      phase := g.phase, highScore := g.highScore) == g;
    }
  }

  /** Spawning and collecting keep the scoring invariant: coins add five points each. */
  lemma PickupStagesKeep(g: Game, cfg: Config, f: Frame)
    requires Consistent(g, cfg) && g.phase == Playing
    ensures var r := HarvestStage(SpawnStage(g, f), f);
      r.Some? ==> Consistent(r.value, cfg) && r.value.score >= g.score && r.value.highScore == g.highScore
                  && r.value.coinsCollected >= g.coinsCollected && r.value.phase == Playing
                  && r.value.level == g.level
  {
    var s := SpawnStage(g, f);
    assert s.(coins := g.coins, collectibles := g.collectibles, coinTimer := g.coinTimer,
              clusterTimer := g.clusterTimer, collectibleTimer := g.collectibleTimer) == g;
    var h := HarvestStage(s, f);
    if h.Some? {
      assert h.value.score - s.score >= 5 * (h.value.coinsCollected - s.coinsCollected);
    }
  }

  /** An input to the running game. */
  datatype Input = Press(key: Key, hasSprite: bool) | NextFrame(frame: Frame) | Slider(v: real) | MuteButton

  function Apply(g: Game, cfg: Config, i: Input): Option<Game>
    requires WellFormed(g, cfg)
    requires i.NextFrame? ==> FrameFits(g, cfg, i.frame)
  {
    match i
    case Press(k, s) => Some(OnKey(g, cfg, k, s))
    case NextFrame(f) => Update(g, cfg, f)
    case Slider(v) => Some(SetVolume(g, v))
    case MuteButton => Some(ToggleMute(g))
  }

  /** Every input keeps the scoring invariant and never lowers the high score. */
  lemma ApplyKeepsHighScore(g: Game, cfg: Config, i: Input)
    requires Consistent(g, cfg)
    requires i.NextFrame? ==> FrameFits(g, cfg, i.frame)
    ensures var r := Apply(g, cfg, i);
      r.Some? ==> Consistent(r.value, cfg) && r.value.highScore >= g.highScore && r.value.level == g.level
  {
    match i
    case NextFrame(f) => UpdateProgress(g, cfg, f);
    case Press(k, s) => PressKeepsHighScore(g, cfg, k, s);
    case Slider(v) => SettingsKeepHighScore(g, cfg, v);
    case MuteButton => SettingsKeepHighScore(g, cfg, 0.0);
  }

  lemma PressKeepsHighScore(g: Game, cfg: Config, k: Key, hasSprite: bool)
    requires Consistent(g, cfg)
    ensures var r := OnKey(g, cfg, k, hasSprite);
      Consistent(r, cfg) && r.highScore >= g.highScore && r.level == g.level
  {
    var r := OnKey(g, cfg, k, hasSprite);
    if g.phase != Playing && k.Space? {
      assert r == StartGame(g.(dropdownOpen := false), cfg, hasSprite);
    } else if g.phase == Playing && k == Space(false) {
      assert r == g.(bird := Some(Flap(g.bird.value)));
    } else if g.phase == Playing {
      assert r == Shoot(g, cfg);
    }
  }

  lemma SettingsKeepHighScore(g: Game, cfg: Config, v: real)
    requires Consistent(g, cfg)
    ensures Consistent(SetVolume(g, v), cfg) && Consistent(ToggleMute(g), cfg)
  {
    assert SetVolume(g, v) == g.(volume := Clamp01(v), muted := SetVolume(g, v).muted);
    assert ToggleMute(g) == g.(muted := !g.muted);
  }

  /** Feeds inputs one by one; `None` once one raises. */
  function Run(g: Game, cfg: Config, inputs: seq<Input>): Option<Game>
    requires Consistent(g, cfg)
    requires forall k :: 0 <= k < |inputs| && inputs[k].NextFrame? ==> FrameFits(g, cfg, inputs[k].frame)
    decreases |inputs|
  {
    if |inputs| == 0 then Some(g)
    else
      ApplyKeepsHighScore(g, cfg, inputs[0]);
      match Apply(g, cfg, inputs[0])
      case None => None
      case Some(g1) =>
        assert forall k :: 0 <= k < |inputs[1..]| ==> inputs[1..][k] == inputs[k + 1];
        FrameFitsLevel(g, g1, cfg);
        Run(g1, cfg, inputs[1..])
  }

  /** Whether the draws fit depends only on the level. */
  lemma FrameFitsLevel(g: Game, h: Game, cfg: Config)
    requires g.level < |cfg.levels| && h.level == g.level
    ensures forall f :: FrameFits(g, cfg, f) == FrameFits(h, cfg, f)
  {
  }

  /** The high score never decreases over a session, whatever the inputs. */
  lemma {:induction false} HighScoreNeverDecreases(g: Game, cfg: Config, inputs: seq<Input>)
    requires Consistent(g, cfg)
    requires forall k :: 0 <= k < |inputs| && inputs[k].NextFrame? ==> FrameFits(g, cfg, inputs[k].frame)
    ensures Run(g, cfg, inputs).Some? ==>
      Run(g, cfg, inputs).value.highScore >= g.highScore && Consistent(Run(g, cfg, inputs).value, cfg)
    decreases |inputs|
  {
    if |inputs| > 0 {
      ApplyKeepsHighScore(g, cfg, inputs[0]);
      var r := Apply(g, cfg, inputs[0]);
      if r.Some? {
        assert forall k :: 0 <= k < |inputs[1..]| ==> inputs[1..][k] == inputs[k + 1];
        FrameFitsLevel(g, r.value, cfg);
        HighScoreNeverDecreases(r.value, cfg, inputs[1..]);
      }
    }
  }
}

=== FILE: gallery.dfy ===
/**
 The image gallery: category filtering and the lightbox that pages through
 the filtered images with buttons and swipes.
 */
module Gallery {
  import Text
  import Seqs

  datatype Image = Image(src: string, category: string, photographer: string)

  /** The images of one category. */
  function OfCategory(filter: string): Image -> bool {
    (img: Image) => img.category == filter
  }

  /** The "all" filter keeps every image; any other keeps exactly the images
      of that category, in order: a subsequence of the images, all of the
      category, as many as the images of the category. */
  function FilterGallery(images: seq<Image>, filter: string): (r: seq<Image>)
    ensures filter == "all" ==> r == images
    ensures filter != "all" ==> forall k :: 0 <= k < |r| ==> r[k].category == filter && r[k] in images
    ensures filter != "all" ==> forall k :: 0 <= k < |images| && images[k].category == filter ==> images[k] in r
    ensures filter != "all" ==> |r| == Seqs.Count(images, OfCategory(filter))
    ensures Seqs.IsSubsequence(r, images)
  {
    if filter == "all" then
      Seqs.FilterAll(images, _ => true);
      images
    else
      Seqs.CountIsFilterLength(images, OfCategory(filter));
      Seqs.Filter(images, OfCategory(filter))
  }

  /** The remainder of JavaScript's `%`, which takes the sign of the dividend. */
  function JsRem(a: int, n: int): (r: int)
    requires n > 0
    ensures a >= 0 ==> 0 <= r < n && r == a % n
    ensures a < 0 ==> -n < r <= 0
  {
    if a >= 0 then a % n else -((-a) % n)
  }

  /** The lightbox: the filtered images and the one on show. */
  datatype Lightbox = Lightbox(shown: seq<Image>, index: int, open: bool)

  predicate InRange(b: Lightbox) {
    0 <= b.index < |b.shown|
  }

  /** Clicking the `i`-th rendered item opens the lightbox on it. */
  function Open(shown: seq<Image>, i: nat): (b: Lightbox)
    requires i < |shown|
    ensures InRange(b) && b.open && b.shown[b.index] == shown[i]
  {
    Lightbox(shown, i, true)
  }

  /** The next image, wrapping from the last to the first. The buttons are
      only reachable from an open lightbox, so there is an image on show. */
  function Next(b: Lightbox): (r: Lightbox)
    requires |b.shown| > 0
    ensures r.shown == b.shown && r.open == b.open
    ensures InRange(b) ==> InRange(r)
  {
    b.(index := JsRem(b.index + 1, |b.shown|))
  }

  /** The previous image, wrapping from the first to the last. */
  function Prev(b: Lightbox): (r: Lightbox)
    requires |b.shown| > 0
    ensures r.shown == b.shown && r.open == b.open
    ensures InRange(b) ==> InRange(r)
  {
    b.(index := JsRem(b.index - 1 + |b.shown|, |b.shown|))
  }

  /** Previous undoes next and next undoes previous. */
  lemma PrevNextInverse(b: Lightbox)
    requires InRange(b)
    ensures Prev(Next(b)) == b
    ensures Next(Prev(b)) == b
  {
    var n, i := |b.shown|, b.index;
    if i + 1 < n {
      ModUnique(i + 1, n, 0, i + 1);
      ModUnique(i + n, n, 1, i);
    } else {
      ModUnique(i + 1, n, 1, 0);
      ModUnique(n - 1, n, 0, i);
    }
    if i == 0 {
      ModUnique(n - 1, n, 0, n - 1);
      ModUnique(n, n, 1, 0);
    } else {
      ModUnique(i - 1 + n, n, 1, i - 1);
      ModUnique(i, n, 0, i);
    }
  }

  function NextTimes(b: Lightbox, k: nat): Lightbox
    requires |b.shown| > 0
  {
    if k == 0 then b else Next(NextTimes(b, k - 1))
  }

  /** `k` presses of next advance the index by `k` modulo the count, so
      `n` presses come back to the start. */
  lemma {:induction false} NextTimesAdvances(b: Lightbox, k: nat)
    requires InRange(b)
    ensures NextTimes(b, k).index == (b.index + k) % |b.shown|
    ensures NextTimes(b, k).shown == b.shown && NextTimes(b, k).open == b.open
  {
    if k == 0 {
      ModUnique(b.index, |b.shown|, 0, b.index);
    } else {
      NextTimesAdvances(b, k - 1);
      ModSucc(b.index + k - 1, |b.shown|);
    }
  }

  lemma FullCircle(b: Lightbox)
    requires InRange(b)
    ensures NextTimes(b, |b.shown|) == b
  {
    var r := NextTimes(b, |b.shown|);
    NextTimesAdvances(b, |b.shown|);
    ModUnique(b.index + |b.shown|, |b.shown|, 1, b.index);
    assert r.index == b.index;
  }

  lemma MulAtLeast(d: int, n: int)
    requires d >= 1 && n > 0
    ensures d * n >= n
  {
    var m := d - 1;
    assert d * n == m * n + n;
  }

  /** Euclidean division has one quotient and remainder. */
  lemma ModUnique(x: int, n: int, q: int, r: int)
    requires n > 0 && 0 <= r < n && x == q * n + r
    ensures x % n == r
  {
    var q', r' := x / n, x % n;
    assert q * n + r == q' * n + r';
    assert (q - q') * n == r' - r;
    if q > q' { MulAtLeast(q - q', n); }
    if q < q' { MulAtLeast(q' - q, n); }
  }

  lemma ModSucc(a: int, n: int)
    requires n > 0
    ensures ((a % n) + 1) % n == (a + 1) % n
  {
    var q, r := a / n, a % n;
    if r + 1 < n {
      ModUnique(a + 1, n, q, r + 1);
      ModUnique(r + 1, n, 0, r + 1);
    } else {
      ModUnique(a + 1, n, q + 1, 0);
      ModUnique(r + 1, n, 1, 0);
    }
  }

  const SwipeThreshold: int := 50

  /** A swipe: more than 50 px to the left goes to the next image, more than
      50 px to the right to the previous one. */
  function Swipe(b: Lightbox, startX: int, endX: int): (r: Lightbox)
    requires |b.shown| > 0
    ensures endX < startX - SwipeThreshold ==> r == Next(b)
    ensures endX > startX + SwipeThreshold ==> r == Prev(b)
    ensures startX - SwipeThreshold <= endX <= startX + SwipeThreshold ==> r == b
  {
    var afterLeft := if endX < startX - SwipeThreshold then Next(b) else b;
    if endX > startX + SwipeThreshold then Prev(afterLeft) else afterLeft
  }

  /** A swipe is never both a left and a right swipe. */
  lemma SwipeDirectionsExclusive(startX: int, endX: int)
    ensures !(endX < startX - SwipeThreshold && endX > startX + SwipeThreshold)
  {
  }

  /** The caption: "<position> / <count> â€” Photo by <photographer>". The
      separator is the three characters U+00E2 U+20AC U+201D the script file
      holds (an em dash's UTF-8 bytes read as Windows-1252), not an em dash. */
  function Counter(b: Lightbox): (r: string)
    requires InRange(b)
  {
    Text.NatToString(b.index + 1) + " / " + Text.NatToString(|b.shown|)
      + " \U{E2}\U{20AC}\U{201D} Photo by " + b.shown[b.index].photographer
  }

  /** The caption reads back: the digits before " / " are the 1-based
      position, the digits after it the number of images shown, and the
      caption ends with the photographer's name. */
  lemma CounterPosition(b: Lightbox)
    requires InRange(b)
    ensures var pos := Text.NatToString(b.index + 1);
      var count := Text.NatToString(|b.shown|);
      var front := pos + " / " + count + " \U{E2}\U{20AC}\U{201D} Photo by ";
      Text.StartsWith(Counter(b), front)
      && Counter(b)[|front|..] == b.shown[b.index].photographer
      && Text.ParseDecimal(pos) == b.index + 1
      && Text.ParseDecimal(count) == |b.shown|
      && 1 <= Text.ParseDecimal(pos) <= Text.ParseDecimal(count)
  {
    Text.ParseNatToString(b.index + 1);
    Text.ParseNatToString(|b.shown|);
    var pos := Text.NatToString(b.index + 1);
    var count := Text.NatToString(|b.shown|);
    var front := pos + " / " + count + " \U{E2}\U{20AC}\U{201D} Photo by ";
    assert Counter(b) == front + b.shown[b.index].photographer;
  }
}

=== FILE: generate_route.dfy ===
/**
 The route that writes a note from a prompt: the same check order as the
 summary route but a looser input check, the prompt sent to the model, and
 the title read from the first line of the generated note.
 */
module GenerateRoute {
  import opened Wrappers
  import Text
  import Http

  /** The JSON body's fields; `None` is a field that is absent or null. */
  datatype Body = Body(prompt: Option<string>, title: Option<string>)

  datatype Note = Note(content: string, title: string)

  const TitleLength: nat := 100
  const DefaultTitle: string := "AI Generated Note"

  /** `line.replace(/^#+\s*\/, '')`: a leading run of `#` and the white space
      after it. What is left is a suffix of the line; `HeadingMarksShape`
      says what went. */
  function DropHeadingMarks(line: string): (r: string)
    ensures |r| <= |line| && r == line[|line| - |r|..]
    ensures !(|line| > 0 && line[0] == '#') ==> r == line
  {
    if |line| > 0 && line[0] == '#' then
      TrimmedSuffix(line, Text.IsJsSpace);
      Text.TrimStart(DropHashes(line), Text.IsJsSpace)
    else line
  }

  /** The part `DropHeadingMarks` removes from a line starting with `#` is
      all the leading `#`, at least one, then only white space, and what is
      left does not start with white space. */
  lemma HeadingMarksShape(line: string)
    ensures |line| > 0 && line[0] == '#' ==>
      MarksRun(line, |line| - |DropHashes(line)|, |line| - |DropHeadingMarks(line)|, Text.IsJsSpace)
    ensures |line| > 0 && line[0] == '#' ==>
      DropHeadingMarks(line) == "" || !Text.IsJsSpace(DropHeadingMarks(line)[0])
  {
    if |line| > 0 && line[0] == '#' {
      TrimmedRun(line, Text.IsJsSpace);
    }
  }

  /** What is left after the hashes and white space is a suffix of the line. */
  lemma TrimmedSuffix(line: string, sp: char -> bool)
    requires |line| > 0 && line[0] == '#'
    ensures |Text.TrimStart(DropHashes(line), sp)| <= |line|
    ensures Text.TrimStart(DropHashes(line), sp) == line[|line| - |Text.TrimStart(DropHashes(line), sp)|..]
  {
    MarksThenSpace(line, DropHashes(line), Text.TrimStart(DropHashes(line), sp), sp);
  }

  /** What goes before it is the run of hashes then white space. */
  lemma TrimmedRun(line: string, sp: char -> bool)
    requires |line| > 0 && line[0] == '#'
    ensures MarksRun(line, |line| - |DropHashes(line)|, |line| - |Text.TrimStart(DropHashes(line), sp)|, sp)
  {
    MarksThenSpace(line, DropHashes(line), Text.TrimStart(DropHashes(line), sp), sp);
  }

  /** The first `cut` characters of `line` are `n >= 1` hashes, all the
      leading ones, then only characters satisfying `sp`. */
  predicate MarksRun(line: string, n: int, cut: int, sp: char -> bool) {
    1 <= n <= cut <= |line|
    && (forall k :: 0 <= k < n ==> line[k] == '#')
    && (n < |line| ==> line[n] != '#')
    && (forall k :: n <= k < cut ==> sp(line[k]))
  }

  /** Dropping the leading hashes (`h`) and then a run of `sp` (`r`) removes
      a prefix of the shape `MarksRun` describes. */
  lemma MarksThenSpace(line: string, h: string, r: string, sp: char -> bool)
    requires |line| > 0 && line[0] == '#'
    requires |h| <= |line| && h == line[|line| - |h|..]
    requires (|h| > 0 ==> h[0] != '#') && forall k :: 0 <= k < |line| - |h| ==> line[k] == '#'
    requires |r| <= |h| && r == h[|h| - |r|..]
    requires forall k :: 0 <= k < |h| - |r| ==> sp(h[k])
    ensures r == line[|line| - |r|..]
    ensures MarksRun(line, |line| - |h|, |line| - |r|, sp)
  {
    var n := |line| - |h|;
    SuffixOfSuffix(line, n, |h| - |r|);
    assert forall k :: n <= k < |line| - |r| ==> line[k] == h[k - n];
    if n < |line| {
      assert line[n] == h[0];
    }
  }

  lemma SuffixOfSuffix<T>(s: seq<T>, i: nat, j: nat)
    requires i + j <= |s|
    ensures s[i..][j..] == s[i + j..]
  {
  }

  /** Drops every leading `#`. */
  function DropHashes(s: string): (r: string)
    ensures |r| <= |s| && r == s[|s| - |r|..]
    ensures |r| > 0 ==> r[0] != '#'
    ensures forall k :: 0 <= k < |s| - |r| ==> s[k] == '#'
    decreases |s|
  {
    if |s| > 0 && s[0] == '#' then DropHashes(s[1..]) else s
  }

  /** `extractTitle`: the first line, trimmed, without heading marks, cut at
      100 characters, or "AI Generated Note" when nothing is left. */
  function ExtractTitle(content: string): (t: string)
    ensures t != "" && |t| <= TitleLength
    ensures '\n' !in t
    ensures var line := DropHeadingMarks(Text.JsTrim(Text.Split(content, '\n')[0]));
      (line == "" ==> t == DefaultTitle)
      && (line != "" ==> t == Text.Take(line, TitleLength))
  {
    var line := DropHeadingMarks(Text.JsTrim(Text.Split(content, '\n')[0]));
    var title := Text.Take(line, TitleLength);
    if title != "" then
      FirstLineHasNoBreak(content);
      title
    else
      DefaultTitleIsOneLine();
      DefaultTitle
  }

  lemma FirstLineHasNoBreak(content: string)
    ensures '\n' !in DropHeadingMarks(Text.JsTrim(Text.Split(content, '\n')[0]))
  {
    var first := Text.Split(content, '\n')[0];
    Text.SplitFirstPart(content, '\n');
    Text.TrimChars(first, Text.IsJsSpace);
  }

  lemma DefaultTitleIsOneLine()
    ensures |DefaultTitle| == 17 && '\n' !in DefaultTitle
  {
    assert forall k :: 0 <= k < |DefaultTitle| ==> DefaultTitle[k] != '\n';
  }

  /** `n` copies of `#`. */
  function Hashes(n: nat): (r: string)
    ensures |r| == n && forall k :: 0 <= k < n ==> r[k] == '#'
  {
    seq(n, k => '#')
  }

  /** A markdown heading on the first line gives its text as the title. */
  lemma TitleOfHeading(level: nat, heading: string, rest: string)
    requires level >= 1
    requires 0 < |heading| <= TitleLength && '\n' !in heading
    requires Text.JsTrim(heading) == heading && heading[0] != '#'
    ensures ExtractTitle(Hashes(level) + " " + heading + "\n" + rest) == heading
  {
    var line := Hashes(level) + " " + heading;
    assert '\n' !in line by {
      assert forall k :: 0 <= k < |line| ==> line[k] == '#' || line[k] == ' ' || line[k] in heading;
    }
    FirstLineOf(line, rest);
    HeadingLineTrimmed(level, heading);
    assert !Text.IsJsSpace(heading[0]);
    HeadingMarksDropped(level, heading);
  }

  lemma HeadingLineTrimmed(level: nat, heading: string)
    requires level >= 1 && |heading| > 0 && Text.JsTrim(heading) == heading
    ensures Text.JsTrim(Hashes(level) + " " + heading) == Hashes(level) + " " + heading
  {
    var line := Hashes(level) + " " + heading;
    assert !Text.IsJsSpace(heading[|heading| - 1]);
    assert line[0] == '#' && line[|line| - 1] == heading[|heading| - 1];
    assert Text.TrimStart(line, Text.IsJsSpace) == line;
    assert Text.TrimEnd(line, Text.IsJsSpace) == line;
  }

  lemma HeadingMarksDropped(level: nat, heading: string)
    requires level >= 1 && |heading| > 0 && !Text.IsJsSpace(heading[0]) && heading[0] != '#'
    ensures DropHeadingMarks(Hashes(level) + " " + heading) == heading
  {
    var tail := " " + heading;
    assert Hashes(level) + tail == Hashes(level) + " " + heading;
    MarksThenTail(level, tail);
    SpaceThenHeading(heading);
  }

  lemma MarksThenTail(level: nat, tail: string)
    requires level >= 1 && |tail| > 0 && tail[0] != '#'
    ensures DropHeadingMarks(Hashes(level) + tail) == Text.TrimStart(tail, Text.IsJsSpace)
  {
    DropHashesPrefix(level, tail);
    assert (Hashes(level) + tail)[0] == '#';
  }

  lemma SpaceThenHeading(heading: string)
    requires |heading| > 0 && !Text.IsJsSpace(heading[0])
    ensures Text.TrimStart(" " + heading, Text.IsJsSpace) == heading
  {
    assert (" " + heading)[1..] == heading;
    assert Text.TrimStart(heading, Text.IsJsSpace) == heading;
  }

  lemma {:induction false} DropHashesPrefix(n: nat, s: string)
    requires |s| == 0 || s[0] != '#'
    ensures DropHashes(Hashes(n) + s) == s
    decreases n
  {
    if n > 0 {
      assert (Hashes(n) + s)[1..] == Hashes(n - 1) + s;
      DropHashesPrefix(n - 1, s);
    } else {
      assert Hashes(n) + s == s;
    }
  }

  /** The part before the first line break is the first line. */
  lemma FirstLineOf(line: string, rest: string)
    requires '\n' !in line
    ensures Text.Split(line + "\n" + rest, '\n')[0] == line
  {
    var content := line + "\n" + rest;
    Text.SplitFirstPart(content, '\n');
    var first := Text.Split(content, '\n')[0];
    assert content[..|first|] == first;
    assert content[|line|] == '\n';
    assert forall k :: 0 <= k < |line| ==> content[k] == line[k] && line[k] != '\n';
    assert first == content[..|line|] == line;
  }

  /** The user message: the bare prompt, or a request naming the title first. */
  function Prompt(prompt: string, title: Option<string>): (p: string)
    ensures Truthy(title) ==> p == "Generate a note about \"" + title.value + "\". " + prompt
    ensures !Truthy(title) ==> p == prompt
  {
    if Truthy(title) then "Generate a note about \"" + title.value + "\". " + prompt else prompt
  }

  /** `POST`: 401 without a user, 500 without an API key, 500 when the body
      is not JSON, 400 only for a missing or empty prompt, 500 when the model
      fails or returns nothing; otherwise the note and a title. */
  function Post(userId: Option<string>, apiKey: Option<string>, body: Option<Body>,
                complete: string -> Http.Completion): (r: Http.Reply<Note>)
    ensures !Truthy(userId) ==> r == Http.Failure(Http.Unauthorized, "Unauthorized")
    ensures Truthy(userId) && !Truthy(apiKey) ==> r == Http.Failure(Http.ServerError, "OpenAI API key not configured")
    ensures r.Failure? && r.status == Http.BadRequest <==>
      (Truthy(userId) && Truthy(apiKey) && body.Some? && !Truthy(body.value.prompt))
    ensures r.Json? ==>
      (r.status == Http.Ok && body.Some? && Truthy(body.value.prompt)
       && complete(Prompt(body.value.prompt.value, body.value.title)) == Http.Completed(Some(r.value.content))
       && r.value.content != ""
       && r.value.title == OrElse(body.value.title, ExtractTitle(r.value.content)))
    ensures Truthy(userId) && Truthy(apiKey) && body.None? ==>
      r == Http.Failure(Http.ServerError, "Failed to generate note. Please try again.")
    ensures Truthy(userId) && Truthy(apiKey) && body.Some? && Truthy(body.value.prompt) ==>
      match complete(Prompt(body.value.prompt.value, body.value.title))
      case Threw => r == Http.Failure(Http.ServerError, "Failed to generate note. Please try again.")
      case Completed(c) =>
        Truthy(c) ==> r == Http.Json(Http.Ok, Note(c.value, OrElse(body.value.title, ExtractTitle(c.value))))
  {
    if !Truthy(userId) then Http.Failure(Http.Unauthorized, "Unauthorized")
    else if !Truthy(apiKey) then Http.Failure(Http.ServerError, "OpenAI API key not configured")
    else if body.None? then Http.Failure(Http.ServerError, "Failed to generate note. Please try again.")
    else if !Truthy(body.value.prompt) then Http.Failure(Http.BadRequest, "Prompt is required")
    else
      match complete(Prompt(body.value.prompt.value, body.value.title))
      case Threw => Http.Failure(Http.ServerError, "Failed to generate note. Please try again.")
      case Completed(content) =>
        if !Truthy(content) then Http.Failure(Http.ServerError, "Failed to generate content")
        else Http.Json(Http.Ok, Note(content.value, OrElse(body.value.title, ExtractTitle(content.value))))
  }

  /** A reply without content is the 500 "Failed to generate content" once
      the user, the key and the prompt have passed their checks. */
  lemma EmptyCompletionFails(userId: Option<string>, apiKey: Option<string>, body: Option<Body>,
                             complete: string -> Http.Completion)
    requires body.Some? && body.value.prompt.Some?
    requires complete(Prompt(body.value.prompt.value, body.value.title)) in {Http.Completed(None), Http.Completed(Some(""))}
    ensures Post(userId, apiKey, body, complete).Failure?
    ensures Truthy(userId) && Truthy(apiKey) && Truthy(body.value.prompt) ==>
      Post(userId, apiKey, body, complete) == Http.Failure(Http.ServerError, "Failed to generate content")
  {
  }

  /** Unlike the summary route, a prompt of only white space is sent to the model. */
  lemma BlankPromptAccepted(userId: Option<string>, apiKey: Option<string>, title: Option<string>,
                            complete: string -> Http.Completion)
    requires Truthy(userId) && Truthy(apiKey)
    ensures Post(userId, apiKey, Some(Body(Some(" "), title)), complete).Failure?
      ==> Post(userId, apiKey, Some(Body(Some(" "), title)), complete).status == Http.ServerError
  {
  }
}

=== FILE: http.dfy ===
/** Replies of the route handlers: a status code with either a JSON value or
    an error message; and what a call to the language model can come back with. */
module Http {
  import opened Wrappers

  datatype Reply<T> = Json(status: nat, value: T) | Failure(status: nat, error: string)

  const Ok: nat := 200
  const Created: nat := 201
  const BadRequest: nat := 400
  const Unauthorized: nat := 401
  const ServerError: nat := 500

  /** A chat completion: the first choice's message content when the call
      returns (`None` when there is no choice or no content), or an exception. */
  datatype Completion = Completed(content: Option<string>) | Threw
}

=== FILE: markdown.dfy ===
/**
 The newsletter's markdown-to-HTML step: inline links `[caption](url)` become
 anchors, and everything else is HTML-escaped, so that markup in the text
 can never reach the page unescaped.
 */
module Markdown {
  import opened Wrappers
  import Text

  /** Python's `html.escape` with `quote=True`, one character at a time. */
  function EscapeChar(c: char): string {
    if c == '&' then "&amp;"
    else if c == '<' then "&lt;"
    else if c == '>' then "&gt;"
    else if c == '"' then "&quot;"
    else if c == '\'' then "&#x27;"
    else [c]
  }

  /** Characters that must not appear unescaped in text or attribute values. */
  predicate IsMarkup(c: char) {
    c == '<' || c == '>' || c == '"' || c == '\''
  }

  function Escape(s: string): (r: string)
    ensures forall k :: 0 <= k < |r| ==> !IsMarkup(r[k])
    ensures |r| >= |s|
    decreases |s|
  {
    if |s| == 0 then ""
    else
      var head := EscapeChar(s[0]);
      var tail := Escape(s[1..]);
      assert forall k :: 0 <= k < |head| ==> !IsMarkup(head[k]);
      head + tail
  }

  /** Decodes the five entities `Escape` produces. */
  function Unescape(s: string): string
    decreases |s|
  {
    if |s| == 0 then ""
    else if Text.StartsWith(s, "&amp;") then "&" + Unescape(s[5..])
    else if Text.StartsWith(s, "&lt;") then "<" + Unescape(s[4..])
    else if Text.StartsWith(s, "&gt;") then ">" + Unescape(s[4..])
    else if Text.StartsWith(s, "&quot;") then "\"" + Unescape(s[6..])
    else if Text.StartsWith(s, "&#x27;") then "'" + Unescape(s[6..])
    else [s[0]] + Unescape(s[1..])
  }

  /** Escaping loses nothing: decoding gives the text back. */
  lemma {:induction false} UnescapeEscape(s: string)
    ensures Unescape(Escape(s)) == s
    decreases |s|
  {
    if |s| > 0 {
      UnescapeEscape(s[1..]);
      UnescapeHead(s[0], Escape(s[1..]));
      assert s == [s[0]] + s[1..];
    }
  }

  lemma UnescapeHead(c: char, t: string)
    ensures Unescape(EscapeChar(c) + t) == [c] + Unescape(t)
  {
    var h := EscapeChar(c);
    var e := h + t;
    assert e[..|h|] == h && e[|h|..] == t;
    if c == '&' {
      assert Text.StartsWith(e, "&amp;");
    } else if c == '<' {
      assert e[1] == 'l' && !Text.StartsWith(e, "&amp;");
      assert Text.StartsWith(e, "&lt;");
    } else if c == '>' {
      assert e[1] == 'g' && !Text.StartsWith(e, "&amp;") && !Text.StartsWith(e, "&lt;");
      assert Text.StartsWith(e, "&gt;");
    } else if c == '"' {
      assert e[1] == 'q';
      assert !Text.StartsWith(e, "&amp;") && !Text.StartsWith(e, "&lt;") && !Text.StartsWith(e, "&gt;");
      assert Text.StartsWith(e, "&quot;");
    } else if c == '\'' {
      assert e[1] == '#';
      assert !Text.StartsWith(e, "&amp;") && !Text.StartsWith(e, "&lt;") && !Text.StartsWith(e, "&gt;");
      assert !Text.StartsWith(e, "&quot;");
      assert Text.StartsWith(e, "&#x27;");
    } else {
      assert e[0] == c && e[1..] == t;
      assert !Text.StartsWith(e, "&amp;") && !Text.StartsWith(e, "&lt;") && !Text.StartsWith(e, "&gt;");
      assert !Text.StartsWith(e, "&quot;") && !Text.StartsWith(e, "&#x27;");
    }
  }

  /** A piece of inline markdown: plain text, or a link. */
  datatype Segment = Plain(text: string) | Link(caption: string, url: string)

  /** The markdown a segment was read from. */
  function Source(seg: Segment): string {
    match seg
    case Plain(t) => t
    case Link(l, u) => "[" + l + "](" + u + ")"
  }

  /** The segments' pieces, each spelled by `f`, one after another. */
  function Concat(f: Segment -> string, segs: seq<Segment>): string
    decreases |segs|
  {
    if |segs| == 0 then "" else f(segs[0]) + Concat(f, segs[1..])
  }

  /** Concatenation splits around any one segment. */
  lemma {:induction false} ConcatSplit(f: Segment -> string, segs: seq<Segment>, k: nat)
    requires k < |segs|
    ensures Concat(f, segs) == Concat(f, segs[..k]) + f(segs[k]) + Concat(f, segs[k + 1..])
    decreases k
  {
    if k > 0 {
      ConcatSplit(f, segs[1..], k - 1);
      assert segs[1..][..k - 1] == segs[..k][1..];
      assert segs[1..][k - 1] == segs[k];
      assert segs[1..][k..] == segs[k + 1..];
    }
  }

  function SourceOf(segs: seq<Segment>): string {
    Concat(Source, segs)
  }

  /** The first position at or after `from` holding `c`. */
  function IndexOf(s: string, c: char, from: nat): (r: Option<nat>)
    ensures r.Some? ==> from <= r.value < |s| && s[r.value] == c
                        && forall k :: from <= k < r.value ==> s[k] != c
    ensures r.None? ==> forall k :: from <= k < |s| ==> s[k] != c
    decreases |s| - from
  {
    if from >= |s| then None
    else if s[from] == c then Some(from)
    else IndexOf(s, c, from + 1)
  }

  /** A caption or URL the link pattern accepts: non-empty and free of its closing bracket. */
  predicate LinkPart(t: string, close: char) {
    |t| > 0 && close !in t
  }

  /** The match of `\[([^\]]+)\]\(([^)]+)\)` at the start of `s`, with its length. */
  function LinkAt(s: string): (r: Option<(Segment, nat)>)
    ensures r.Some? ==> r.value.0.Link? && 0 < r.value.1 <= |s|
                        && s[..r.value.1] == Source(r.value.0)
                        && LinkPart(r.value.0.caption, ']') && LinkPart(r.value.0.url, ')')
  {
    if |s| == 0 || s[0] != '[' then None
    else
      match IndexOf(s, ']', 1)
      case None => None
      case Some(j) =>
        if j < 2 || j + 1 >= |s| || s[j + 1] != '(' then None
        else
          match IndexOf(s, ')', j + 2)
          case None => None
          case Some(k) =>
            if k < j + 3 then None
            else
              var seg := Link(s[1..j], s[j + 2..k]);
              assert s[..k + 1] == "[" + s[1..j] + "](" + s[j + 2..k] + ")";
              Some((seg, k + 1))
  }

  /** Conversely, every well-formed link at the start of `s` is matched, whole. */
  lemma LinkAtFindsLink(caption: string, url: string, rest: string)
    requires LinkPart(caption, ']') && LinkPart(url, ')')
    ensures LinkAt(Source(Link(caption, url)) + rest) == Some((Link(caption, url), |Source(Link(caption, url))|))
  {
    var s := Source(Link(caption, url)) + rest;
    var j := |caption| + 1;
    var k := j + 1 + |url| + 1;
    assert s[j] == ']' && s[j + 1] == '(' && s[k] == ')';
    assert forall i :: 1 <= i < j ==> s[i] == caption[i - 1];
    assert forall i :: j + 2 <= i < k ==> s[i] == url[i - j - 2];
    assert IndexOf(s, ']', 1) == Some(j);
    assert IndexOf(s, ')', j + 2) == Some(k);
    assert s[1..j] == caption;
    assert s[j + 2..k] == url;
  }

  /** Adds a character in front of the segments, joining a leading plain segment. */
  function Cons(c: char, segs: seq<Segment>): (r: seq<Segment>)
    ensures SourceOf(r) == [c] + SourceOf(segs)
  {
    if |segs| > 0 && segs[0].Plain? then
      assert SourceOf(segs) == segs[0].text + SourceOf(segs[1..]);
      [Plain([c] + segs[0].text)] + segs[1..]
    else [Plain([c])] + segs
  }

  /** Splits text into links and the plain text between them, scanning left
      to right for non-overlapping matches as `re.sub` does. */
  function Tokenize(s: string): (segs: seq<Segment>)
    decreases |s|
  {
    if |s| == 0 then []
    else
      match LinkAt(s)
      case Some(m) => [m.0] + Tokenize(s[m.1..])
      case None => Cons(s[0], Tokenize(s[1..]))
  }

  /** Tokenising loses nothing: the segments spell the text. */
  lemma {:induction false} TokenizeRoundTrip(s: string)
    ensures SourceOf(Tokenize(s)) == s
    decreases |s|
  {
    if |s| > 0 {
      match LinkAt(s)
      case Some(m) =>
        TokenizeRoundTrip(s[m.1..]);
        assert s == s[..m.1] + s[m.1..];
      case None =>
        TokenizeRoundTrip(s[1..]);
        assert s == [s[0]] + s[1..];
    }
  }

  /** Text without `[` is one plain segment. */
  lemma {:induction false} TokenizeWithoutBrackets(s: string)
    requires '[' !in s && |s| > 0
    ensures Tokenize(s) == [Plain(s)]
    decreases |s|
  {
    PlainStep(s);
    if |s| == 1 {
      assert Tokenize(s[1..]) == [];
      assert s == [s[0]];
    } else {
      assert '[' !in s[1..] by {
        assert forall x :: x in s[1..] ==> x in s;
      }
      TokenizeWithoutBrackets(s[1..]);
      ConsPlain(s[0], s[1..]);
      assert [s[0]] + s[1..] == s;
    }
  }

  /** Text not starting with `[` starts with its first character as plain text. */
  lemma PlainStep(s: string)
    requires |s| > 0 && s[0] != '['
    ensures Tokenize(s) == Cons(s[0], Tokenize(s[1..]))
  {
    assert LinkAt(s).None?;
  }

  lemma ConsPlain(c: char, t: string)
    ensures Cons(c, [Plain(t)]) == [Plain([c] + t)]
  {
    assert [Plain(t)][1..] == [];
  }

  /** The anchor a link becomes; its URL and caption are escaped. */
  function Anchor(caption: string, url: string): string {
    "<a href=\"" + Escape(url) + "\" style=\"color: #326891; text-decoration: none;\">"
      + Escape(caption) + "</a>"
  }

  /** The HTML of one segment. */
  function Html(seg: Segment): string {
    match seg
    case Plain(t) => Escape(t)
    case Link(l, u) => Anchor(l, u)
  }

  function Render(segs: seq<Segment>): string {
    Concat(Html, segs)
  }

  /** `markdown_to_html` without the bold and italic rewriting. */
  function ToHtml(text: string): (r: string)
    ensures text == "" ==> r == ""
  {
    if text == "" then "" else Render(Tokenize(text))
  }

  /** Text without links is only escaped, so decoding the HTML gives it back. */
  lemma ToHtmlWithoutLinks(text: string)
    requires '[' !in text
    ensures ToHtml(text) == Escape(text)
    ensures Unescape(ToHtml(text)) == text
  {
    if |text| > 0 {
      TokenizeWithoutBrackets(text);
      assert Render([Plain(text)]) == Escape(text) + Render([]);
    }
    UnescapeEscape(text);
  }

  /** No link match begins at any position of the plain run `t`, given the
      text `after` that follows it. */
  predicate NoLinkInside(t: string, after: string) {
    forall i :: 0 <= i < |t| ==> LinkAt(t[i..] + after).None?
  }

  /** What the scan guarantees of segment `k`: a link is one the pattern
      accepts; a plain run is non-empty, holds no position where a link
      would match, and is followed by a link or by nothing. */
  predicate SegmentOk(segs: seq<Segment>, k: nat)
    requires k < |segs|
  {
    match segs[k]
    case Link(l, u) => LinkPart(l, ']') && LinkPart(u, ')')
    case Plain(t) =>
      |t| > 0 && NoLinkInside(t, SourceOf(segs[k + 1..]))
      && (k + 1 < |segs| ==> segs[k + 1].Link?)
  }

  predicate WellSplit(segs: seq<Segment>) {
    forall k: nat :: k < |segs| ==> SegmentOk(segs, k)
  }

  /** A link in front of well-split segments keeps them well split. */
  lemma LinkFront(l: string, u: string, segs: seq<Segment>)
    requires LinkPart(l, ']') && LinkPart(u, ')') && WellSplit(segs)
    ensures WellSplit([Link(l, u)] + segs)
  {
    var r := [Link(l, u)] + segs;
    forall k: nat | 0 < k < |r|
      ensures SegmentOk(r, k)
    {
      assert r[k] == segs[k - 1] && r[k + 1..] == segs[k..];
      assert SegmentOk(segs, k - 1);
    }
  }

  /** `Cons` keeps segments well split when no link matches at the new character. */
  lemma ConsWellSplit(c: char, segs: seq<Segment>)
    requires WellSplit(segs) && LinkAt([c] + SourceOf(segs)).None?
    ensures WellSplit(Cons(c, segs))
  {
    var r := Cons(c, segs);
    if |segs| > 0 && segs[0].Plain? {
      var t := segs[0].text;
      assert SegmentOk(segs, 0);
      assert SourceOf(segs) == t + SourceOf(segs[1..]);
      assert r[1..] == segs[1..];
      forall i | 0 <= i < |[c] + t|
        ensures LinkAt(([c] + t)[i..] + SourceOf(r[1..])).None?
      {
        if i == 0 {
          assert ([c] + t)[i..] + SourceOf(r[1..]) == [c] + SourceOf(segs);
        } else {
          assert ([c] + t)[i..] == t[i - 1..];
        }
      }
      assert SegmentOk(r, 0);
      forall k: nat | 0 < k < |r|
        ensures SegmentOk(r, k)
      {
        assert r[k] == segs[k] && r[k + 1..] == segs[k + 1..];
        assert SegmentOk(segs, k);
      }
    } else {
      assert r[1..] == segs;
      assert [c][0..] + SourceOf(segs) == [c] + SourceOf(segs);
      assert SegmentOk(r, 0);
      forall k: nat | 0 < k < |r|
        ensures SegmentOk(r, k)
      {
        assert r[k] == segs[k - 1] && r[k + 1..] == segs[k..];
        assert SegmentOk(segs, k - 1);
      }
    }
  }

  /** The scan's segments are well split. */
  lemma {:induction false} TokenizeWellSplit(s: string)
    ensures WellSplit(Tokenize(s))
    decreases |s|
  {
    if |s| > 0 {
      match LinkAt(s)
      case Some(m) =>
        TokenizeWellSplit(s[m.1..]);
        LinkFront(m.0.caption, m.0.url, Tokenize(s[m.1..]));
      case None =>
        TokenizeWellSplit(s[1..]);
        TokenizeRoundTrip(s[1..]);
        assert [s[0]] + s[1..] == s;
        ConsWellSplit(s[0], Tokenize(s[1..]));
    }
  }

  /** Dropping the first segment keeps the rest well split. */
  lemma WellSplitTail(segs: seq<Segment>)
    requires WellSplit(segs) && |segs| > 0
    ensures WellSplit(segs[1..])
  {
    var rest := segs[1..];
    forall k: nat | k < |rest|
      ensures SegmentOk(rest, k)
    {
      assert SegmentOk(segs, k + 1);
      assert rest[k] == segs[k + 1] && rest[k + 1..] == segs[k + 2..];
    }
  }

  /** Dropping the first character of a leading plain run keeps the segments well split. */
  lemma ShorterRun(t: string, rest: seq<Segment>)
    requires |t| > 1 && WellSplit([Plain(t)] + rest)
    ensures WellSplit([Plain(t[1..])] + rest)
  {
    var segs := [Plain(t)] + rest;
    var shorter := [Plain(t[1..])] + rest;
    assert SegmentOk(segs, 0);
    assert segs[1..] == rest && shorter[1..] == rest;
    forall i | 0 <= i < |t[1..]|
      ensures LinkAt(t[1..][i..] + SourceOf(rest)).None?
    {
      assert t[1..][i..] == t[i + 1..];
    }
    assert SegmentOk(shorter, 0);
    WellSplitTail(segs);
    forall k: nat | 0 < k < |shorter|
      ensures SegmentOk(shorter, k)
    {
      assert shorter[k] == rest[k - 1] && shorter[k + 1..] == rest[k..];
      assert SegmentOk(rest, k - 1);
    }
  }

  /** Where no link matches, the scan takes one character as plain text. */
  lemma NoLinkStep(s: string)
    requires |s| > 0 && LinkAt(s).None?
    ensures Tokenize(s) == Cons(s[0], Tokenize(s[1..]))
  {
  }

  /** Where a link matches, the scan takes it whole. */
  lemma LinkStep(l: string, u: string, rest: string)
    requires LinkPart(l, ']') && LinkPart(u, ')')
    ensures Tokenize(Source(Link(l, u)) + rest) == [Link(l, u)] + Tokenize(rest)
  {
    var s := Source(Link(l, u)) + rest;
    LinkAtFindsLink(l, u, rest);
    assert s[|Source(Link(l, u))|..] == rest;
  }

  lemma ConsOntoPlain(c: char, t: string, rest: seq<Segment>)
    ensures Cons(c, [Plain(t)] + rest) == [Plain([c] + t)] + rest
  {
    assert ([Plain(t)] + rest)[1..] == rest;
  }

  /** The segments after the first character of a leading plain run. */
  function AfterFirstChar(t: string, rest: seq<Segment>): seq<Segment> {
    if |t| <= 1 then rest else [Plain(t[1..])] + rest
  }

  /** Well-split segments that start with plain text: no link matches at the
      front, and the rest of the text is spelled, well split, by the
      segments after the first character, onto which `Cons` puts it back. */
  lemma PlainFront(t: string, rest: seq<Segment>)
    requires WellSplit([Plain(t)] + rest)
    ensures var s := SourceOf([Plain(t)] + rest);
      && |s| > 0 && LinkAt(s).None?
      && WellSplit(AfterFirstChar(t, rest))
      && SourceOf(AfterFirstChar(t, rest)) == s[1..]
      && Cons(s[0], AfterFirstChar(t, rest)) == [Plain(t)] + rest
  {
    var segs := [Plain(t)] + rest;
    var s := SourceOf(segs);
    assert SegmentOk(segs, 0);
    assert segs[1..] == rest;
    assert s == t + SourceOf(rest);
    assert t[0..] == t;
    if |t| == 1 {
      WellSplitTail(segs);
      assert t == [s[0]];
    } else {
      var shorter := [Plain(t[1..])] + rest;
      ShorterRun(t, rest);
      assert shorter[1..] == rest;
      ConsOntoPlain(s[0], t[1..], rest);
      assert [s[0]] + t[1..] == t;
    }
  }

  /** Conversely, well-split segments spelling `s` are exactly the scan of
      `s`: the two facts characterise `Tokenize`. */
  lemma {:induction false} WellSplitIsTokenize(segs: seq<Segment>, s: string)
    requires WellSplit(segs) && SourceOf(segs) == s
    ensures Tokenize(s) == segs
    decreases |s|
  {
    if |segs| > 0 {
      var rest := segs[1..];
      assert segs == [segs[0]] + rest;
      match segs[0]
      case Link(l, u) =>
        assert SegmentOk(segs, 0);
        assert s == Source(segs[0]) + SourceOf(rest);
        WellSplitTail(segs);
        WellSplitIsTokenize(rest, SourceOf(rest));
        LinkStep(l, u, SourceOf(rest));
      case Plain(t) =>
        PlainFront(t, rest);
        WellSplitIsTokenize(AfterFirstChar(t, rest), s[1..]);
        NoLinkStep(s);
    }
  }

  /** The scan is the one well-split cutting of the text into plain runs and links. */
  lemma TokenizeCharacterised(s: string, segs: seq<Segment>)
    ensures Tokenize(s) == segs <==> WellSplit(segs) && SourceOf(segs) == s
  {
    TokenizeWellSplit(s);
    TokenizeRoundTrip(s);
    if WellSplit(segs) && SourceOf(segs) == s {
      WellSplitIsTokenize(segs, s);
    }
  }

  /** The HTML follows the scan segment by segment: for each segment, the
      text splits into what precedes it, its own source and what follows,
      and the HTML into the rendering of what precedes it, the segment
      escaped (plain text) or turned into an anchor (a link), and the
      rendering of what follows; the segment is well formed. */
  lemma ToHtmlBySegment(text: string, k: nat)
    requires k < |Tokenize(text)|
    ensures var segs := Tokenize(text);
      && text == SourceOf(segs[..k]) + Source(segs[k]) + SourceOf(segs[k + 1..])
      && ToHtml(text) == Render(segs[..k])
           + (match segs[k]
              case Plain(t) => Escape(t)
              case Link(l, u) => Anchor(l, u))
           + Render(segs[k + 1..])
      && SegmentOk(segs, k)
  {
    var segs := Tokenize(text);
    assert text != "";
    TokenizeRoundTrip(text);
    TokenizeWellSplit(text);
    ConcatSplit(Source, segs, k);
    ConcatSplit(Html, segs, k);
  }
}

=== FILE: newsletter.dfy ===
/**
 The newsletter's HTML generator: the markdown report is cut into sections
 at its `## ` headings, each section's non-blank lines become its content,
 and every section is rendered as an article whose paragraphs go through
 `Markdown.ToHtml`.

 The parser is written once, with a switch for how it decides that a
 section is open. The program tests the truthiness of the current title,
 which treats a heading with an empty title as no heading at all
 (`keepEmptyTitles == false`); `keepEmptyTitles == true` tests whether a
 heading has been seen, as the surrounding code intends.
 */
module Newsletter {
  import opened Wrappers
  import Text
  import Seqs
  import Markdown

  datatype Section = Section(title: string, content: string)

  /** Sections closed so far, the title of the open one, and its lines. */
  datatype Parser = Parser(sections: seq<Section>, title: Option<string>, lines: seq<string>)

  const Fresh: Parser := Parser([], None, [])

  /** `line.startswith('## ')`. */
  predicate IsHeading(line: string) {
    |line| >= 3 && line[0] == '#' && line[1] == '#' && line[2] == ' '
  }

  /** `line.startswith('# ')`. */
  predicate IsMainTitle(line: string) {
    |line| >= 2 && line[0] == '#' && line[1] == ' '
  }

  /** A main-title line is never a section heading. */
  lemma MainTitleIsNotHeading(line: string)
    requires IsMainTitle(line)
    ensures !IsHeading(line)
  {
    assert line[1] == ' ';
  }

  predicate IsOpen(p: Parser, keepEmptyTitles: bool) {
    if keepEmptyTitles then p.title.Some? else Truthy(p.title)
  }

  /** The open section, its lines joined by newlines and stripped. */
  function Close(p: Parser): Section
    requires p.title.Some?
  {
    Section(p.title.value, Text.PyStrip(Text.Join(p.lines, "\n")))
  }

  /** One line of the report. */
  function Feed(p: Parser, line: string, keepEmptyTitles: bool): Parser {
    if IsHeading(line) then
      Parser(if IsOpen(p, keepEmptyTitles) then p.sections + [Close(p)] else p.sections,
             Some(Text.PyStrip(line[3..])), [])
    else if IsMainTitle(line) then p
    else if IsOpen(p, keepEmptyTitles) && Text.PyStrip(line) != "" then p.(lines := p.lines + [line])
    else p
  }

  function FeedAll(p: Parser, lines: seq<string>, keepEmptyTitles: bool): Parser
    decreases |lines|
  {
    if |lines| == 0 then p else FeedAll(Feed(p, lines[0], keepEmptyTitles), lines[1..], keepEmptyTitles)
  }

  function Finish(p: Parser, keepEmptyTitles: bool): seq<Section> {
    if IsOpen(p, keepEmptyTitles) then p.sections + [Close(p)] else p.sections
  }

  function ParseWith(report: string, keepEmptyTitles: bool): seq<Section> {
    Finish(FeedAll(Fresh, Text.Split(report, '\n'), keepEmptyTitles), keepEmptyTitles)
  }

  /** The sections as the program parses them. */
  function ParseSectionsAsWritten(report: string): seq<Section> {
    ParseWith(report, false)
  }

  /** The sections with an empty heading title kept as a section. */
  function ParseSections(report: string): seq<Section> {
    ParseWith(report, true)
  }

  // ------------------------------------------------------------ titles

  function Titles(secs: seq<Section>): (ts: seq<string>)
    ensures |ts| == |secs|
    ensures forall k :: 0 <= k < |secs| ==> ts[k] == secs[k].title
  {
    seq(|secs|, k requires 0 <= k < |secs| => secs[k].title)
  }

  /** The stripped title a line announces, if it is a heading. */
  function LineTitle(line: string): seq<string> {
    if IsHeading(line) then [Text.PyStrip(line[3..])] else []
  }

  /** The stripped titles of the heading lines, in order. */
  function HeadingTitles(lines: seq<string>): seq<string>
    decreases |lines|
  {
    if |lines| == 0 then [] else LineTitle(lines[0]) + HeadingTitles(lines[1..])
  }

  function Current(p: Parser): seq<string> {
    if p.title.Some? then [p.title.value] else []
  }

  predicate NonEmpty(t: string) {
    t != ""
  }

  /** The titles that open a section under each test. */
  function Kept(titles: seq<string>, keepEmptyTitles: bool): seq<string> {
    if keepEmptyTitles then titles else Seqs.Filter(titles, NonEmpty)
  }

  lemma KeptAppend(a: seq<string>, b: seq<string>, keepEmptyTitles: bool)
    ensures Kept(a + b, keepEmptyTitles) == Kept(a, keepEmptyTitles) + Kept(b, keepEmptyTitles)
  {
    if !keepEmptyTitles {
      Seqs.FilterAppend(a, b, NonEmpty);
    }
  }

  lemma TitlesAppend(a: seq<Section>, b: seq<Section>)
    ensures Titles(a + b) == Titles(a) + Titles(b)
  {
  }

  /** The open section's title counts exactly when the section is open. */
  lemma KeptCurrent(p: Parser, keepEmptyTitles: bool)
    ensures Kept(Current(p), keepEmptyTitles) == if IsOpen(p, keepEmptyTitles) then [p.title.value] else []
  {
    if !keepEmptyTitles && p.title.Some? {
      assert Current(p) == [p.title.value];
      if p.title.value == "" {
        assert Seqs.Filter(Current(p), NonEmpty) == [];
      } else {
        Seqs.FilterAll(Current(p), NonEmpty);
      }
    }
  }

  /** One line moves the open title into the closed sections when a heading
      starts a new one, and changes no title otherwise. */
  lemma FeedTitles(p: Parser, line: string, keepEmptyTitles: bool)
    ensures var q := Feed(p, line, keepEmptyTitles);
      Titles(q.sections) + Kept(Current(q), keepEmptyTitles)
      == Titles(p.sections) + Kept(Current(p), keepEmptyTitles) + Kept(LineTitle(line), keepEmptyTitles)
  {
    if IsHeading(line) {
      FeedHeadingTitles(p, line, keepEmptyTitles);
    } else {
      FeedOtherTitles(p, line, keepEmptyTitles);
    }
  }

  lemma FeedHeadingTitles(p: Parser, line: string, keepEmptyTitles: bool)
    requires IsHeading(line)
    ensures var q := Feed(p, line, keepEmptyTitles);
      Titles(q.sections) + Kept(Current(q), keepEmptyTitles)
      == Titles(p.sections) + Kept(Current(p), keepEmptyTitles) + Kept(LineTitle(line), keepEmptyTitles)
  {
    var k := keepEmptyTitles;
    var q := Feed(p, line, k);
    KeptCurrent(p, k);
    var open := if IsOpen(p, k) then [Close(p)] else [];
    assert Titles(open) == Kept(Current(p), k);
    assert q.sections == p.sections + open;
    TitlesAppend(p.sections, open);
    assert Current(q) == LineTitle(line);
  }

  lemma FeedOtherTitles(p: Parser, line: string, keepEmptyTitles: bool)
    requires !IsHeading(line)
    ensures var q := Feed(p, line, keepEmptyTitles);
      Titles(q.sections) + Kept(Current(q), keepEmptyTitles)
      == Titles(p.sections) + Kept(Current(p), keepEmptyTitles) + Kept(LineTitle(line), keepEmptyTitles)
  {
    var q := Feed(p, line, keepEmptyTitles);
    assert q.sections == p.sections && q.title == p.title;
    assert LineTitle(line) == [];
    assert Kept([], keepEmptyTitles) == [];
  }

  lemma {:induction false} FeedAllTitles(p: Parser, lines: seq<string>, keepEmptyTitles: bool)
    ensures Titles(Finish(FeedAll(p, lines, keepEmptyTitles), keepEmptyTitles))
      == Titles(p.sections) + Kept(Current(p), keepEmptyTitles) + Kept(HeadingTitles(lines), keepEmptyTitles)
    decreases |lines|
  {
    var k := keepEmptyTitles;
    if |lines| == 0 {
      FinishTitles(p, k);
      assert Kept([], k) == [];
    } else {
      var q := Feed(p, lines[0], k);
      FeedAllTitles(q, lines[1..], k);
      FeedTitles(p, lines[0], k);
      KeptAppend(LineTitle(lines[0]), HeadingTitles(lines[1..]), k);
      AppendAssoc(Titles(p.sections) + Kept(Current(p), k), Kept(LineTitle(lines[0]), k), Kept(HeadingTitles(lines[1..]), k));
    }
  }

  lemma AppendAssoc<T>(a: seq<T>, b: seq<T>, c: seq<T>)
    ensures a + b + c == a + (b + c)
  {
  }

  /** Finishing adds the open section's title, when it counts. */
  lemma FinishTitles(p: Parser, keepEmptyTitles: bool)
    ensures Titles(Finish(p, keepEmptyTitles)) == Titles(p.sections) + Kept(Current(p), keepEmptyTitles)
  {
    var k := keepEmptyTitles;
    KeptCurrent(p, k);
    var open := if IsOpen(p, k) then [Close(p)] else [];
    assert Finish(p, k) == p.sections + open;
    TitlesAppend(p.sections, open);
  }

  /** As written, each heading with a non-empty title opens one section, in
      order; a heading whose title strips to nothing opens none. */
  lemma SectionTitlesAsWritten(report: string)
    ensures Titles(ParseSectionsAsWritten(report))
      == Seqs.Filter(HeadingTitles(Text.Split(report, '\n')), NonEmpty)
  {
    var lines := Text.Split(report, '\n');
    FeedAllTitles(Fresh, lines, false);
    assert Kept(Current(Fresh), false) == [] by {
      assert Current(Fresh) == [];
    }
  }

  /** Each heading line opens exactly one section, titled by the rest of the
      line, stripped, in order. */
  lemma SectionTitles(report: string)
    ensures Titles(ParseSections(report)) == HeadingTitles(Text.Split(report, '\n'))
    ensures |ParseSections(report)| == |HeadingTitles(Text.Split(report, '\n'))|
  {
    var lines := Text.Split(report, '\n');
    FeedAllTitles(Fresh, lines, true);
  }

  const Example: string := "## \nhello"

  lemma ExampleLines()
    ensures Text.Split(Example, '\n') == ["## ", "hello"]
  {
    var lines := ["## ", "hello"];
    assert '\n' !in lines[0] && '\n' !in lines[1];
    JoinExample();
    Text.SplitJoin(lines, '\n');
  }

  lemma JoinExample()
    ensures Text.Join(["## ", "hello"], "\n") == Example
  {
    assert ["## ", "hello"][1..] == ["hello"];
  }

  lemma HelloStrips()
    ensures Text.PyStrip("hello") == "hello"
  {
    assert Text.TrimStart("hello", Text.IsPySpace) == "hello";
    assert Text.TrimEnd("hello", Text.IsPySpace) == "hello";
  }

  /** A report whose only heading has an empty title yields no section as
      written, so the line under it is lost; the intended parser keeps it. */
  lemma EmptyTitleDropsSection()
    ensures ParseSectionsAsWritten(Example) == []
    ensures ParseSections(Example) == [Section("", "hello")]
  {
    ExampleAsWritten();
    ExampleIntended();
  }

  lemma ExampleAsWritten()
    ensures ParseSectionsAsWritten(Example) == []
  {
    ExampleLines();
    var p1 := Parser([], Some(""), []);
    ExampleFeedsAsWritten();
    assert !IsOpen(p1, false);
  }

  lemma ExampleIntended()
    ensures ParseSections(Example) == [Section("", "hello")]
  {
    var p2 := Parser([], Some(""), ["hello"]);
    ExampleLines();
    assert ParseSections(Example) == Finish(FeedAll(Fresh, ["## ", "hello"], true), true);
    ExampleFeeds();
    assert IsOpen(p2, true);
    ExampleClose();
    assert Finish(p2, true) == [] + [Section("", "hello")];
  }

  lemma ExampleClose()
    ensures Close(Parser([], Some(""), ["hello"])) == Section("", "hello")
  {
    assert Text.Join(["hello"], "\n") == "hello";
    HelloStrips();
  }

  lemma FeedTwo(p: Parser, a: string, b: string, keepEmptyTitles: bool)
    ensures FeedAll(p, [a, b], keepEmptyTitles)
      == Feed(Feed(p, a, keepEmptyTitles), b, keepEmptyTitles)
  {
    var q := Feed(p, a, keepEmptyTitles);
    var r := Feed(q, b, keepEmptyTitles);
    assert [a, b][0] == a && [a, b][1..] == [b];
    assert FeedAll(p, [a, b], keepEmptyTitles) == FeedAll(q, [b], keepEmptyTitles);
    assert [b][0] == b && [b][1..] == [];
    assert FeedAll(q, [b], keepEmptyTitles) == FeedAll(r, [], keepEmptyTitles);
  }

  lemma ExampleFeedsAsWritten()
    ensures FeedAll(Fresh, ["## ", "hello"], false) == Parser([], Some(""), [])
  {
    FeedTwo(Fresh, "## ", "hello", false);
    ExampleFirstLine(false);
    ExampleSecondLine();
  }

  lemma ExampleFeeds()
    ensures FeedAll(Fresh, ["## ", "hello"], true) == Parser([], Some(""), ["hello"])
  {
    FeedTwo(Fresh, "## ", "hello", true);
    ExampleFirstLine(true);
    ExampleSecondLine();
  }

  lemma ExampleFirstLine(keepEmptyTitles: bool)
    ensures Feed(Fresh, "## ", keepEmptyTitles) == Parser([], Some(""), [])
  {
    assert IsHeading("## ") && "## "[3..] == "";
  }

  lemma ExampleSecondLine()
    ensures Feed(Parser([], Some(""), []), "hello", false) == Parser([], Some(""), [])
    ensures Feed(Parser([], Some(""), []), "hello", true) == Parser([], Some(""), ["hello"])
  {
    HelloStrips();
    assert !IsHeading("hello") && !IsMainTitle("hello");
  }

  // ------------------------------------------------------------ lines the parser skips

  /** Lines before the first heading never reach a section. */
  lemma {:induction false} PreambleIgnored(pre: seq<string>, rest: seq<string>, keepEmptyTitles: bool)
    requires forall k :: 0 <= k < |pre| ==> !IsHeading(pre[k])
    ensures FeedAll(Fresh, pre + rest, keepEmptyTitles) == FeedAll(Fresh, rest, keepEmptyTitles)
    decreases |pre|
  {
    if |pre| > 0 {
      assert Feed(Fresh, pre[0], keepEmptyTitles) == Fresh;
      assert (pre + rest)[1..] == pre[1..] + rest;
      PreambleIgnored(pre[1..], rest, keepEmptyTitles);
    } else {
      assert pre + rest == rest;
    }
  }

  /** Main-title lines (`# `) are skipped wherever they stand. */
  lemma {:induction false} MainTitlesIgnored(p: Parser, lines: seq<string>, keepEmptyTitles: bool)
    ensures FeedAll(p, lines, keepEmptyTitles)
      == FeedAll(p, Seqs.Filter(lines, (l: string) => !IsMainTitle(l)), keepEmptyTitles)
    decreases |lines|
  {
    if |lines| > 0 {
      var q := Feed(p, lines[0], keepEmptyTitles);
      MainTitlesIgnored(q, lines[1..], keepEmptyTitles);
      if IsMainTitle(lines[0]) {
        MainTitleIsNotHeading(lines[0]);
        MainTitlesIgnored(p, lines[1..], keepEmptyTitles);
      }
    }
  }

  // ------------------------------------------------------------ section content

  /** No two consecutive newlines, i.e. no blank line. */
  predicate NoBlankLine(s: string) {
    forall i :: 0 <= i < |s| - 1 ==> !(s[i] == '\n' && s[i + 1] == '\n')
  }

  lemma NoBlankLineSlice(s: string, a: nat, b: nat)
    requires a <= b <= |s| && NoBlankLine(s)
    ensures NoBlankLine(s[a..b])
  {
    var t := s[a..b];
    forall i | 0 <= i < |t| - 1 ensures !(t[i] == '\n' && t[i + 1] == '\n') {
      assert t[i] == s[a + i] && t[i + 1] == s[a + i + 1];
    }
  }

  /** A line the parser keeps: non-empty and newline-free. */
  predicate SolidLine(l: string) {
    |l| > 0 && '\n' !in l
  }

  lemma {:induction false} JoinSolidLines(lines: seq<string>)
    requires forall k :: 0 <= k < |lines| ==> SolidLine(lines[k])
    ensures NoBlankLine(Text.Join(lines, "\n"))
    ensures |lines| > 0 ==> |Text.Join(lines, "\n")| > 0 && Text.Join(lines, "\n")[0] != '\n'
    decreases |lines|
  {
    if |lines| > 1 {
      var l := lines[0];
      var j := Text.Join(lines[1..], "\n");
      JoinSolidLines(lines[1..]);
      var s := Text.Join(lines, "\n");
      assert s == l + "\n" + j;
      forall i | 0 <= i < |s| - 1 ensures !(s[i] == '\n' && s[i + 1] == '\n') {
        if i < |l| {
          assert s[i] == l[i];
        } else if i > |l| {
          assert s[i] == j[i - |l| - 1] && s[i + 1] == j[i - |l|];
        } else {
          assert s[i + 1] == j[0];
        }
      }
      assert s[0] == l[0];
    } else if |lines| == 1 {
      assert Text.Join(lines, "\n") == lines[0];
    }
  }

  /** What every closed section's content satisfies. */
  predicate CleanContent(content: string) {
    NoBlankLine(content) && Text.PyStrip(content) == content
  }

  predicate ParserOk(p: Parser) {
    (forall k :: 0 <= k < |p.lines| ==> SolidLine(p.lines[k]))
    && (forall k :: 0 <= k < |p.sections| ==> CleanContent(p.sections[k].content))
  }

  lemma CloseClean(p: Parser)
    requires p.title.Some? && ParserOk(p)
    ensures CleanContent(Close(p).content)
  {
    var j := Text.Join(p.lines, "\n");
    JoinSolidLines(p.lines);
    var i := Text.TrimIsSlice(j, Text.IsPySpace);
    NoBlankLineSlice(j, i, i + |Text.PyStrip(j)|);
    Text.TrimIdempotent(j, Text.IsPySpace);
  }

  /** One line keeps the parser's open lines solid and its sections clean. */
  lemma FeedKeepsOk(p: Parser, line: string, keepEmptyTitles: bool)
    requires ParserOk(p) && '\n' !in line
    ensures ParserOk(Feed(p, line, keepEmptyTitles))
  {
    if IsHeading(line) {
      if IsOpen(p, keepEmptyTitles) {
        CloseClean(p);
        CleanAppend(p.sections, Close(p));
      }
    } else if !IsMainTitle(line) && IsOpen(p, keepEmptyTitles) && Text.PyStrip(line) != "" {
      assert |line| > 0;
      SolidAppend(p.lines, line);
    }
  }

  lemma CleanAppend(secs: seq<Section>, s: Section)
    requires forall k :: 0 <= k < |secs| ==> CleanContent(secs[k].content)
    requires CleanContent(s.content)
    ensures forall k :: 0 <= k < |secs + [s]| ==> CleanContent((secs + [s])[k].content)
  {
    forall k | 0 <= k < |secs + [s]| ensures CleanContent((secs + [s])[k].content) {
      if k < |secs| {
        assert (secs + [s])[k] == secs[k];
      }
    }
  }

  lemma SolidAppend(lines: seq<string>, l: string)
    requires forall k :: 0 <= k < |lines| ==> SolidLine(lines[k])
    requires SolidLine(l)
    ensures forall k :: 0 <= k < |lines + [l]| ==> SolidLine((lines + [l])[k])
  {
    forall k | 0 <= k < |lines + [l]| ensures SolidLine((lines + [l])[k]) {
      if k < |lines| {
        assert (lines + [l])[k] == lines[k];
      }
    }
  }

  /** Closing the last section keeps every section clean. */
  lemma FinishClean(p: Parser, keepEmptyTitles: bool)
    requires ParserOk(p)
    ensures forall k :: 0 <= k < |Finish(p, keepEmptyTitles)| ==> CleanContent(Finish(p, keepEmptyTitles)[k].content)
  {
    if IsOpen(p, keepEmptyTitles) {
      CloseClean(p);
      CleanAppend(p.sections, Close(p));
    }
  }

  lemma {:induction false} FeedAllClean(p: Parser, lines: seq<string>, keepEmptyTitles: bool)
    requires ParserOk(p)
    requires forall k :: 0 <= k < |lines| ==> '\n' !in lines[k]
    ensures forall k :: 0 <= k < |Finish(FeedAll(p, lines, keepEmptyTitles), keepEmptyTitles)| ==>
      CleanContent(Finish(FeedAll(p, lines, keepEmptyTitles), keepEmptyTitles)[k].content)
    decreases |lines|
  {
    if |lines| == 0 {
      FinishClean(p, keepEmptyTitles);
    } else {
      FeedKeepsOk(p, lines[0], keepEmptyTitles);
      assert forall k :: 0 <= k < |lines[1..]| ==> '\n' !in lines[1..][k] by {
        forall k | 0 <= k < |lines[1..]| ensures '\n' !in lines[1..][k] {
          assert lines[1..][k] == lines[k + 1];
        }
      }
      FeedAllClean(Feed(p, lines[0], keepEmptyTitles), lines[1..], keepEmptyTitles);
    }
  }

  /** Every section's content is stripped and contains no blank line. */
  lemma SectionContentClean(report: string, keepEmptyTitles: bool)
    ensures forall k :: 0 <= k < |ParseWith(report, keepEmptyTitles)| ==>
      CleanContent(ParseWith(report, keepEmptyTitles)[k].content)
  {
    Text.SplitPartsAvoidSeparator(report, '\n');
    FeedAllClean(Fresh, Text.Split(report, '\n'), keepEmptyTitles);
  }

  // ------------------------------------------------------------ sections by heading

  /** A line that goes into a section's content: not a heading, not a main
      title, and not blank. */
  predicate ContentLine(line: string) {
    !IsHeading(line) && !IsMainTitle(line) && Text.PyStrip(line) != ""
  }

  /** The lines under a heading: those before the next heading. */
  function Body(lines: seq<string>): (b: seq<string>)
    ensures |b| <= |lines| && b == lines[..|b|]
    ensures forall k :: 0 <= k < |b| ==> !IsHeading(b[k])
    ensures |b| < |lines| ==> IsHeading(lines[|b|])
    decreases |lines|
  {
    if |lines| == 0 || IsHeading(lines[0]) then []
    else
      assert forall k :: 1 <= k < |lines| ==> lines[k] == lines[1..][k - 1];
      [lines[0]] + Body(lines[1..])
  }

  /** A section's content: its body's content lines joined by newlines, stripped. */
  function Content(body: seq<string>): string {
    Text.PyStrip(Text.Join(Seqs.Filter(body, ContentLine), "\n"))
  }

  /** The section a heading line yields from the report's lines starting at
      it: titled by the rest of the line, stripped, holding the content of
      the lines up to the next heading. */
  function HeadingSection(from: seq<string>): Section {
    if |from| > 0 && IsHeading(from[0]) then Section(Text.PyStrip(from[0][3..]), Content(Body(from[1..])))
    else Section("", "")
  }

  /** The report read heading by heading, with no parser state: every heading
      line yields one section. */
  function Sections(lines: seq<string>): seq<Section> {
    Seqs.Collect(lines, IsHeading, HeadingSection)
  }

  /** The section the open title will close into once the body of `lines`
      has been fed. */
  function Pending(p: Parser, lines: seq<string>): seq<Section> {
    if p.title.Some? then
      [Section(p.title.value, Text.PyStrip(Text.Join(p.lines + Seqs.Filter(Body(lines), ContentLine), "\n")))]
    else []
  }

  lemma PendingNone(p: Parser, lines: seq<string>)
    requires |lines| > 0 && IsHeading(lines[0])
    ensures Pending(p, lines) == if p.title.Some? then [Close(p)] else []
  {
    assert Body(lines) == [];
    assert p.lines + Seqs.Filter([], ContentLine) == p.lines;
  }

  lemma FreshPending(t: string, lines: seq<string>)
    ensures Pending(Parser([], Some(t), []), lines) == [Section(t, Content(Body(lines)))]
  {
    assert [] + Seqs.Filter(Body(lines), ContentLine) == Seqs.Filter(Body(lines), ContentLine);
  }

  /** A heading closes the open section and opens its own. */
  lemma HeadingStep(p: Parser, lines: seq<string>)
    requires |lines| > 0 && IsHeading(lines[0])
    ensures var q := Feed(p, lines[0], true);
      q.sections + Pending(q, lines[1..]) + Sections(lines[1..]) == p.sections + Pending(p, lines) + Sections(lines)
  {
    var t := Text.PyStrip(lines[0][3..]);
    var open := if p.title.Some? then [Close(p)] else [];
    FeedHeading(p, lines[0]);
    PendingNone(p, lines);
    FreshPending(t, lines[1..]);
    SectionsAtHeading(lines);
    AppendAssoc(p.sections + open, [Section(t, Content(Body(lines[1..])))], Sections(lines[1..]));
  }

  lemma FeedHeading(p: Parser, line: string)
    requires IsHeading(line)
    ensures Feed(p, line, true)
      == Parser(p.sections + (if p.title.Some? then [Close(p)] else []), Some(Text.PyStrip(line[3..])), [])
  {
  }

  /** A heading in front yields its section before the later ones. */
  lemma SectionsAtHeading(lines: seq<string>)
    requires |lines| > 0 && IsHeading(lines[0])
    ensures Sections(lines)
      == [Section(Text.PyStrip(lines[0][3..]), Content(Body(lines[1..])))] + Sections(lines[1..])
  {
    assert HeadingSection(lines) == Section(Text.PyStrip(lines[0][3..]), Content(Body(lines[1..])));
  }

  /** Any other line goes into the open section's lines exactly when it is a
      content line. */
  lemma OtherStep(p: Parser, lines: seq<string>)
    requires |lines| > 0 && !IsHeading(lines[0])
    ensures var q := Feed(p, lines[0], true);
      q.sections + Pending(q, lines[1..]) + Sections(lines[1..]) == p.sections + Pending(p, lines) + Sections(lines)
  {
    var l := lines[0];
    var q := Feed(p, l, true);
    var F := Seqs.Filter(Body(lines[1..]), ContentLine);
    assert Body(lines) == [l] + Body(lines[1..]);
    Seqs.FilterCons(l, Body(lines[1..]), ContentLine);
    assert Sections(lines) == Sections(lines[1..]);
    if p.title.Some? && ContentLine(l) {
      assert q == p.(lines := p.lines + [l]);
      AppendAssoc(p.lines, [l], F);
    } else {
      assert q == p;
    }
  }

  lemma {:induction false} FeedAllSections(p: Parser, lines: seq<string>)
    ensures Finish(FeedAll(p, lines, true), true) == p.sections + Pending(p, lines) + Sections(lines)
    decreases |lines|
  {
    if |lines| == 0 {
      assert p.lines + Seqs.Filter(Body(lines), ContentLine) == p.lines;
      assert Sections(lines) == [];
    } else {
      var q := Feed(p, lines[0], true);
      FeedAllSections(q, lines[1..]);
      if IsHeading(lines[0]) {
        HeadingStep(p, lines);
      } else {
        OtherStep(p, lines);
      }
    }
  }

  /** The parser agrees with the heading-by-heading reading: section `k` is
      the `k`-th heading's title and the content lines under it, in order. */
  lemma ParseByHeading(report: string)
    ensures ParseSections(report) == Sections(Text.Split(report, '\n'))
  {
    var lines := Text.Split(report, '\n');
    FeedAllSections(Fresh, lines);
    assert Fresh.sections + Pending(Fresh, lines) == [];
  }

  /** The positions of the heading lines, in increasing order. */
  function Headings(lines: seq<string>): (r: seq<nat>)
    ensures forall k :: 0 <= k < |r| ==> r[k] < |lines| && IsHeading(lines[r[k]])
  {
    Seqs.Positions(lines, IsHeading)
  }

  /** Section `k` is titled by the `k`-th heading line and holds the
      section's non-blank lines up to the next heading, without main titles,
      joined by newlines and stripped. */
  lemma SectionContent(report: string, k: nat)
    requires k < |ParseSections(report)|
    ensures var lines := Text.Split(report, '\n');
      k < |Headings(lines)|
      && ParseSections(report)[k].title == Text.PyStrip(lines[Headings(lines)[k]][3..])
      && ParseSections(report)[k].content == Content(Body(lines[Headings(lines)[k] + 1..]))
  {
    var lines := Text.Split(report, '\n');
    ParseByHeading(report);
    Seqs.CollectAtPositions(lines, IsHeading, HeadingSection);
    var j := Headings(lines)[k];
    assert lines[j..][0] == lines[j] && lines[j..][1..] == lines[j + 1..];
  }

  // ------------------------------------------------------------ articles

  /** `s.split("\n\n")`: cut at non-overlapping blank-line separators, left to right. */
  function SplitBlank(s: string): (parts: seq<string>)
    ensures |parts| >= 1
    decreases |s|
  {
    if |s| < 2 then [s]
    else if s[0] == '\n' && s[1] == '\n' then [""] + SplitBlank(s[2..])
    else
      var rest := SplitBlank(s[1..]);
      [[s[0]] + rest[0]] + rest[1..]
  }

  /** The paragraphs of a section: split at blank lines when there are any,
      each stripped and blank ones dropped; otherwise the stripped content as
      one paragraph, or none when it is blank. */
  function Paragraphs(content: string): seq<string> {
    if !NoBlankLine(content) then
      var parts := SplitBlank(content);
      Seqs.Filter(seq(|parts|, k requires 0 <= k < |parts| => Text.PyStrip(parts[k])), NonEmpty)
    else if Text.PyStrip(content) != "" then [Text.PyStrip(content)]
    else []
  }

  const ParagraphSeparator: string := "\n                    "

  function ParagraphHtml(p: string): string {
    "<p>" + Markdown.ToHtml(p) + "</p>"
  }

  /** The body of an article: its paragraphs, or one empty paragraph. */
  function ArticleBody(content: string): string {
    var ps := Paragraphs(content);
    if |ps| > 0 then Text.Join(seq(|ps|, k requires 0 <= k < |ps| => ParagraphHtml(ps[k])), ParagraphSeparator)
    else "<p></p>"
  }

  /** Clean content renders as exactly one paragraph, empty when there is no content. */
  lemma CleanContentIsOneParagraph(c: string)
    requires CleanContent(c)
    ensures ArticleBody(c) == ParagraphHtml(c)
  {
    if c == "" {
      assert Paragraphs(c) == [];
    } else {
      assert Paragraphs(c) == [c];
      var ps := seq(1, i requires 0 <= i < 1 => ParagraphHtml(c));
      assert Text.Join(ps, ParagraphSeparator) == ParagraphHtml(c);
    }
  }

  /** A parsed section always renders as exactly one paragraph. */
  lemma ParsedSectionIsOneParagraph(report: string, keepEmptyTitles: bool, k: nat)
    requires k < |ParseWith(report, keepEmptyTitles)|
    ensures var c := ParseWith(report, keepEmptyTitles)[k].content;
      ArticleBody(c) == ParagraphHtml(c)
  {
    SectionContentClean(report, keepEmptyTitles);
    CleanContentIsOneParagraph(ParseWith(report, keepEmptyTitles)[k].content);
  }

  /** The first and the last article span the full width. */
  predicate FullWidth(i: nat, count: nat) {
    i == 0 || i == count - 1
  }

  function ArticleClass(i: nat, count: nat): (c: string) {
    if FullWidth(i, count) then "full-width" else ""
  }

  /** Exactly two articles are full-width when there are at least two, and
      the only one when there is one. */
  lemma FullWidthArticles(count: nat)
    ensures (set i | 0 <= i < count && FullWidth(i, count)) == (if count == 0 then {} else {0, count - 1})
    ensures count >= 2 ==> |set i | 0 <= i < count && FullWidth(i, count)| == 2
  {
    if count >= 2 {
      assert (set i | 0 <= i < count && FullWidth(i, count)) == {0, count - 1};
    }
  }
}

=== FILE: note_card.dfy ===
/**
 A note's card on the dashboard: whether its content is taken for HTML, the
 preview text, the capped font size and the "Edited" mark. Reading the text
 out of HTML goes through the browser's parser, so it is a parameter here.
 */
module NoteCard {
  import opened Wrappers
  import Text

  /** The props the card reads; `None` is a prop left undefined. */
  datatype Props = Props(
    title: string, content: string, createdAt: string, updatedAt: string,
    fontFamily: Option<string>, fontSize: Option<int>, fontColor: Option<string>)

  const DefaultFamily: string := "sans-serif"
  const DefaultSize: int := 16
  const DefaultColor: string := "#FFFFFF"

  /** Preview text is cut after this many characters. */
  const PreviewLength: nat := 150

  /** Content is rendered as HTML when it has both angle brackets somewhere. */
  predicate IsHtml(content: string) {
    '<' in content && '>' in content
  }

  /** `getTruncatedContent`: the text (tags stripped from HTML) cut at 150
      characters; short content is shown as it is, markup included. */
  function Preview(content: string, stripHtml: string -> string): (r: string)
    ensures var text := if IsHtml(content) then stripHtml(content) else content;
      (|text| > PreviewLength ==> r == text[..PreviewLength] + "...")
      && (|text| <= PreviewLength ==> r == content)
  {
    var text := if IsHtml(content) then stripHtml(content) else content;
    if |text| > PreviewLength then Text.Take(text, PreviewLength) + "..."
    else if IsHtml(content) then content
    else text
  }

  /** Plain content is previewed exactly as the popup's `truncateText` would cut it. */
  lemma PlainPreview(content: string, stripHtml: string -> string)
    requires !IsHtml(content)
    ensures Preview(content, stripHtml) == Text.Ellipsize(content, PreviewLength)
    ensures |Preview(content, stripHtml)| <= PreviewLength + 3
  {
  }

  /** Previewing a plain preview again changes nothing: a cut preview keeps
      its 150 characters and its "...", and it stays plain text. */
  lemma PlainPreviewIdempotent(content: string, stripHtml: string -> string)
    requires !IsHtml(content)
    ensures !IsHtml(Preview(content, stripHtml))
    ensures Preview(Preview(content, stripHtml), stripHtml) == Preview(content, stripHtml)
  {
    var r := Preview(content, stripHtml);
    if |content| > PreviewLength {
      var head := content[..PreviewLength];
      assert r == head + "...";
      assert '<' !in r || '>' !in r by {
        assert forall c :: c in r ==> c in head || c == '.';
        assert forall c :: c in head ==> c in content;
      }
      assert r[..PreviewLength] == head;
    }
  }

  /** The style the card's body is rendered with. */
  datatype Style = Style(fontFamily: string, fontSizePx: int, color: string)

  /** The body style: undefined props take their defaults, and the size is
      capped at 16 pixels. */
  function BodyStyle(p: Props): (s: Style)
    ensures s.fontSizePx <= DefaultSize
    ensures s.fontSizePx == DefaultSize || (p.fontSize.Some? && s.fontSizePx == p.fontSize.value)
    ensures p.fontSize.Some? && p.fontSize.value <= DefaultSize ==> s.fontSizePx == p.fontSize.value
    ensures p.fontFamily.None? ==> s.fontFamily == DefaultFamily
    ensures p.fontFamily.Some? ==> s.fontFamily == p.fontFamily.value
    ensures p.fontColor.None? ==> s.color == DefaultColor
    ensures p.fontColor.Some? ==> s.color == p.fontColor.value
  {
    var size := if p.fontSize.Some? then p.fontSize.value else DefaultSize;
    Style(
      if p.fontFamily.Some? then p.fontFamily.value else DefaultFamily,
      if size < DefaultSize then size else DefaultSize,
      if p.fontColor.Some? then p.fontColor.value else DefaultColor)
  }

  /** What the card shows, apart from dates and buttons. */
  datatype Card = Card(title: string, body: string, bodyIsHtml: bool, style: Style, edited: bool)

  function Render(p: Props, stripHtml: string -> string): (c: Card)
    ensures c.title == p.title
    ensures c.bodyIsHtml <==> '<' in p.content && '>' in p.content
    ensures c.edited <==> p.createdAt != p.updatedAt
    ensures c.body == Preview(p.content, stripHtml) && c.style == BodyStyle(p)
  {
    Card(p.title, Preview(p.content, stripHtml), IsHtml(p.content), BodyStyle(p), p.createdAt != p.updatedAt)
  }
}

=== FILE: note_editor.dfy ===
/**
 The note dialog's rich-text commands, over an abstract editor document: a
 flat sequence of nodes (text, font spans, checklists) and a selection range
 between two boundary points. What `document.execCommand` does to the
 document is browser-defined; a command handed to it is returned as an
 effect and not interpreted.

 Also the dialog's speech-transcript accumulation and its save guard.
 */
module NoteEditor {
  import opened Wrappers
  import Text
  import Seqs

  const ZeroWidthSpace: char := '\U{200B}'

  datatype FontProperty = FontFamily | FontSize | FontColor

  /** One checklist entry: a checkbox followed by its label. */
  datatype Item = Item(checked: bool, caption: string)

  datatype Node =
    | TextNode(text: string)
    | Span(property: FontProperty, value: string, text: string)
    | Checklist(items: seq<Item>)

  function Captions(items: seq<Item>): (cs: seq<string>)
    ensures |cs| == |items|
    ensures forall k :: 0 <= k < |items| ==> cs[k] == items[k].caption
  {
    seq(|items|, k requires 0 <= k < |items| => items[k].caption)
  }

  /** A node's `textContent` (a checkbox contributes nothing). */
  function NodeText(n: Node): string {
    match n
    case TextNode(t) => t
    case Span(_, _, t) => t
    case Checklist(items) => Text.Join(Captions(items), "")
  }

  /** The document's text, all nodes in order. */
  function DocText(doc: seq<Node>): string
    decreases |doc|
  {
    if |doc| == 0 then "" else NodeText(doc[0]) + DocText(doc[1..])
  }

  lemma {:induction false} DocTextAppend(a: seq<Node>, b: seq<Node>)
    ensures DocText(a + b) == DocText(a) + DocText(b)
    decreases |a|
  {
    if |a| == 0 {
      assert a + b == b;
    } else {
      assert (a + b)[1..] == a[1..] + b;
      DocTextAppend(a[1..], b);
    }
  }

  // ------------------------------------------------------------ boundary points and ranges

  /** An offset inside the text node `node`, or else the boundary just before
      node `node` (the end of the document when `node == |doc|`). */
  datatype Point = Point(node: nat, offset: nat)

  predicate InText(doc: seq<Node>, p: Point) {
    p.node < |doc| && doc[p.node].TextNode?
  }

  predicate ValidPoint(doc: seq<Node>, p: Point) {
    if InText(doc, p) then p.offset <= |doc[p.node].text| else p.node <= |doc| && p.offset == 0
  }

  predicate Precedes(p: Point, q: Point) {
    p.node < q.node || (p.node == q.node && p.offset <= q.offset)
  }

  /** The selection's range; `inEditor` says whether its common ancestor lies
      inside the editor element. */
  datatype Range = Range(start: Point, end: Point, inEditor: bool)

  /** What the browser guarantees of a live range: both ends valid, start first. */
  predicate RangeOk(doc: seq<Node>, r: Range) {
    ValidPoint(doc, r.start) && ValidPoint(doc, r.end) && Precedes(r.start, r.end)
  }

  /** The page around the command: whether the editor element exists, and the
      selection's first range, if the selection has one. */
  datatype View = View(hasEditor: bool, range: Option<Range>)

  predicate ViewOk(doc: seq<Node>, v: View) {
    v.range.Some? ==> RangeOk(doc, v.range.value)
  }

  /** The text in front of a point. */
  function TextBefore(doc: seq<Node>, p: Point): string
    requires ValidPoint(doc, p)
  {
    DocText(doc[..p.node]) + (if InText(doc, p) then doc[p.node].text[..p.offset] else "")
  }

  /** Splits the text node holding `p` in two, as inserting at a text offset
      does; returns the document and the node boundary now at `p`. */
  function SplitAt(doc: seq<Node>, p: Point): (r: (seq<Node>, nat))
    requires ValidPoint(doc, p)
    ensures r.1 <= |r.0|
    ensures DocText(r.0) == DocText(doc)
    ensures DocText(r.0[..r.1]) == TextBefore(doc, p)
  {
    if InText(doc, p) then
      var k := p.node;
      var t := doc[k].text;
      var d := doc[..k] + [TextNode(t[..p.offset]), TextNode(t[p.offset..])] + doc[k + 1..];
      SplitAtText(doc, k, p.offset);
      (d, k + 1)
    else
      assert doc[..|doc|] == doc;
      (doc, p.node)
  }

  lemma SplitAtText(doc: seq<Node>, k: nat, o: nat)
    requires k < |doc| && doc[k].TextNode? && o <= |doc[k].text|
    ensures var t := doc[k].text;
      var d := doc[..k] + [TextNode(t[..o]), TextNode(t[o..])] + doc[k + 1..];
      DocText(d) == DocText(doc) && DocText(d[..k + 1]) == DocText(doc[..k]) + t[..o]
  {
    var t := doc[k].text;
    var pre, post := doc[..k], doc[k + 1..];
    var two := [TextNode(t[..o]), TextNode(t[o..])];
    TakeAtDrop(doc, k);
    SplitTextNode(t, o);
    DocTextSingle(doc[k]);
    SameTextMiddle(pre, [doc[k]], two, post);
    assert (pre + two + post)[..k + 1] == pre + [TextNode(t[..o])];
    PrefixText(pre, t[..o]);
  }

  /** Replacing a middle part by one with the same text keeps the document's text. */
  lemma SameTextMiddle(pre: seq<Node>, a: seq<Node>, b: seq<Node>, post: seq<Node>)
    requires DocText(a) == DocText(b)
    ensures DocText(pre + a + post) == DocText(pre + b + post)
  {
    DocTextThree(pre, a, post);
    DocTextThree(pre, b, post);
  }

  lemma PrefixText(pre: seq<Node>, s: string)
    ensures DocText(pre + [TextNode(s)]) == DocText(pre) + s
  {
    DocTextAppend(pre, [TextNode(s)]);
    DocTextSingle(TextNode(s));
  }

  lemma SplitTextNode(t: string, o: nat)
    requires o <= |t|
    ensures DocText([TextNode(t[..o]), TextNode(t[o..])]) == t
  {
    assert [TextNode(t[..o]), TextNode(t[o..])] == [TextNode(t[..o])] + [TextNode(t[o..])];
    DocTextAppend([TextNode(t[..o])], [TextNode(t[o..])]);
    DocTextSingle(TextNode(t[..o]));
    DocTextSingle(TextNode(t[o..]));
    assert t[..o] + t[o..] == t;
  }

  lemma DocTextThree(a: seq<Node>, b: seq<Node>, c: seq<Node>)
    ensures DocText(a + b + c) == DocText(a) + DocText(b) + DocText(c)
  {
    DocTextAppend(a + b, c);
    DocTextAppend(a, b);
  }

  lemma DocTextSingle(n: Node)
    ensures DocText([n]) == NodeText(n)
  {
    assert [n][1..] == [];
  }

  /** The text in front of a point is a prefix of the document's text. */
  lemma TextBeforeIsPrefix(doc: seq<Node>, p: Point)
    requires ValidPoint(doc, p)
    ensures |TextBefore(doc, p)| <= |DocText(doc)|
    ensures DocText(doc)[..|TextBefore(doc, p)|] == TextBefore(doc, p)
  {
    var (d, i) := SplitAt(doc, p);
    TakeDrop(d, i);
    DocTextAppend(d[..i], d[i..]);
  }

  /** The start of a range lies in what comes before its end, once the end is split. */
  lemma StartInPrefix(doc: seq<Node>, r: Range)
    requires RangeOk(doc, r)
    ensures var (d, j) := SplitAt(doc, r.end);
      ValidPoint(d[..j], r.start) && TextBefore(d[..j], r.start) == TextBefore(doc, r.start)
  {
    var (d, j) := SplitAt(doc, r.end);
    var s := r.start;
    var e := r.end;
    var pre := d[..j];
    if InText(doc, e) {
      var t := doc[e.node].text;
      assert pre == doc[..e.node] + [TextNode(t[..e.offset])];
      assert pre[..s.node] == doc[..s.node];
      if s.node == e.node {
        assert pre[s.node].text[..s.offset] == t[..s.offset];
      } else {
        assert pre[s.node] == doc[s.node];
      }
    } else {
      assert pre == doc[..e.node];
      assert pre[..s.node] == doc[..s.node];
      if s.node < e.node {
        assert pre[s.node] == doc[s.node];
      }
    }
  }

  /** Splits the document at both ends of a range and returns the node
      boundaries `a <= b` that now delimit the selected contents. */
  function Cut(doc: seq<Node>, r: Range): (c: (seq<Node>, nat, nat))
    requires RangeOk(doc, r)
    ensures c.1 <= c.2 <= |c.0|
    ensures DocText(c.0) == DocText(doc)
    ensures DocText(c.0[..c.1]) == TextBefore(doc, r.start)
    ensures DocText(c.0[..c.2]) == TextBefore(doc, r.end)
  {
    var (d1, j) := SplitAt(doc, r.end);
    StartInPrefix(doc, r);
    var (d2, i) := SplitAt(d1[..j], r.start);
    ResplitPrefix(d1, j, d2, i);
    (d2 + d1[j..], i, |d2|)
  }

  /** Replacing a prefix by a re-split copy of it keeps the document's text
      and the prefix's nodes. */
  lemma ResplitPrefix(d1: seq<Node>, j: nat, d2: seq<Node>, i: nat)
    requires j <= |d1| && i <= |d2| && DocText(d2) == DocText(d1[..j])
    ensures var d := d2 + d1[j..];
      DocText(d) == DocText(d1) && d[..i] == d2[..i] && d[..|d2|] == d2
  {
    Halves(d1, j);
    SameTextSameTail(d1[..j], d2, d1[j..]);
    TakeOfAppend(d2, d1[j..], i);
    TakeOfAppend(d2, d1[j..], |d2|);
  }

  lemma Halves(d: seq<Node>, j: nat)
    requires j <= |d|
    ensures DocText(d[..j] + d[j..]) == DocText(d)
  {
    TakeDrop(d, j);
  }

  lemma TakeAtDrop<T>(s: seq<T>, k: nat)
    requires k < |s|
    ensures s[..k] + [s[k]] + s[k + 1..] == s
  {
  }

  lemma TakeDrop<T>(s: seq<T>, j: nat)
    requires j <= |s|
    ensures s[..j] + s[j..] == s
  {
  }

  /** Two parts with the same text, followed by the same nodes, give the same text. */
  lemma SameTextSameTail(a: seq<Node>, b: seq<Node>, tail: seq<Node>)
    requires DocText(a) == DocText(b)
    ensures DocText(b + tail) == DocText(a + tail)
  {
    DocTextAppend(a, tail);
    DocTextAppend(b, tail);
  }

  lemma TakeOfAppend<T>(a: seq<T>, b: seq<T>, i: nat)
    requires i <= |a|
    ensures (a + b)[..i] == a[..i]
  {
  }

  /** `selection.toString()`: the text between the range's ends. */
  function Selected(doc: seq<Node>, r: Range): (t: string)
    requires RangeOk(doc, r)
    ensures TextBefore(doc, r.start) + t == TextBefore(doc, r.end)
  {
    var (d, a, b) := Cut(doc, r);
    assert d[..b] == d[..a] + d[a..b];
    DocTextAppend(d[..a], d[a..b]);
    DocText(d[a..b])
  }

  /** The text after a range's end. */
  function TextAfter(doc: seq<Node>, p: Point): (t: string)
    requires ValidPoint(doc, p)
    ensures TextBefore(doc, p) + t == DocText(doc)
  {
    TextBeforeIsPrefix(doc, p);
    var t := DocText(doc)[|TextBefore(doc, p)|..];
    assert DocText(doc) == DocText(doc)[..|TextBefore(doc, p)|] + t;
    t
  }

  /** `range.insertNode(n)` at a point: `n` lands at the returned index. */
  function InsertAt(doc: seq<Node>, p: Point, n: Node): (r: (seq<Node>, nat))
    requires ValidPoint(doc, p)
    ensures r.1 < |r.0| && r.0[r.1] == n
    ensures DocText(r.0[..r.1]) == TextBefore(doc, p)
    ensures DocText(r.0[r.1 + 1..]) == TextAfter(doc, p)
    ensures DocText(r.0) == TextBefore(doc, p) + NodeText(n) + TextAfter(doc, p)
  {
    var (d, i) := SplitAt(doc, p);
    SuffixIsAfter(doc, p, d, i);
    PutBetween(d, i, i, n);
    (d[..i] + [n] + d[i..], i)
  }

  /** Once the document is re-split so that its first `b` nodes hold the text
      before `p`, the remaining nodes hold the text after `p`. */
  lemma SuffixIsAfter(doc: seq<Node>, p: Point, d: seq<Node>, b: nat)
    requires ValidPoint(doc, p) && b <= |d|
    requires DocText(d) == DocText(doc) && DocText(d[..b]) == TextBefore(doc, p)
    ensures DocText(d[b..]) == TextAfter(doc, p)
  {
    Halves(d, b);
    DocTextAppend(d[..b], d[b..]);
    var a, x, y := TextBefore(doc, p), DocText(d[b..]), TextAfter(doc, p);
    assert a + x == a + y;
    assert x == (a + x)[|a|..] && y == (a + y)[|a|..];
  }

  /** A node put in place of the nodes `a` to `b` sits at index `a` and
      brings exactly its own text there. */
  lemma PutBetween(d: seq<Node>, a: nat, b: nat, n: Node)
    requires a <= b <= |d|
    ensures var e := d[..a] + [n] + d[b..];
      a < |e| && e[a] == n && e[..a] == d[..a] && e[a + 1..] == d[b..]
      && DocText(e) == DocText(d[..a]) + NodeText(n) + DocText(d[b..])
  {
    var e := d[..a] + [n] + d[b..];
    DocTextThree(d[..a], [n], d[b..]);
    DocTextSingle(n);
    assert e[..a] == d[..a] && e[a + 1..] == d[b..];
  }

  /** `range.deleteContents()` then `range.insertNode(n)`: `n` replaces the
      selected contents and lands at the returned index. */
  function ReplaceRange(doc: seq<Node>, r: Range, n: Node): (res: (seq<Node>, nat))
    requires RangeOk(doc, r)
    ensures res.1 < |res.0| && res.0[res.1] == n
    ensures DocText(res.0[..res.1]) == TextBefore(doc, r.start)
    ensures DocText(res.0) == TextBefore(doc, r.start) + NodeText(n) + TextAfter(doc, r.end)
  {
    var (d, a, b) := Cut(doc, r);
    SuffixIsAfter(doc, r.end, d, b);
    PutBetween(d, a, b, n);
    (d[..a] + [n] + d[b..], a)
  }

  // ------------------------------------------------------------ effects

  /** Where the code leaves the caret: right after node `node`, or at the
      start of the editable text inside node `node`. */
  datatype Caret = After(node: nat) | Inside(node: nat)

  datatype Command = Command(name: string, value: Option<string>)

  datatype Effect =
    | Unchanged
      /** `execCommand` on the current selection; its effect is the browser's. */
    | Browser(command: Command)
      /** The document is edited, the caret placed, and `run`, if any, executed
          on the node just inserted. */
    | Edit(doc: seq<Node>, caret: Caret, run: Option<Command>)
      /** The document is edited, then the handler throws before placing the caret. */
    | EditThenThrow(doc: seq<Node>)

  /** The guards shared by the formatting commands: no editor, no range, or a
      range outside the editor leave everything as it is. */
  predicate Active(v: View) {
    v.hasEditor && v.range.Some? && v.range.value.inEditor
  }

  /** The zero-width marker path: insert one U+200B at the range start, run the
      command on it, and put the caret right after it. */
  function MarkThenRun(doc: seq<Node>, start: Point, c: Command): (e: Effect)
    requires ValidPoint(doc, start)
    ensures e.Edit? && e.run == Some(c) && e.caret.After?
    ensures e.caret.node < |e.doc| && e.doc[e.caret.node] == TextNode([ZeroWidthSpace])
    ensures DocText(e.doc) == TextBefore(doc, start) + [ZeroWidthSpace] + TextAfter(doc, start)
  {
    var (d, i) := InsertAt(doc, start, TextNode([ZeroWidthSpace]));
    Edit(d, After(i), Some(c))
  }

  /** `formatText(command, value)`. */
  function FormatText(doc: seq<Node>, v: View, command: string, value: Option<string>): (e: Effect)
    requires ViewOk(doc, v)
    ensures !Active(v) ==> e == Unchanged
    ensures Active(v) && !Text.IsJsBlank(Selected(doc, v.range.value)) ==> e == Browser(Command(command, value))
    ensures Active(v) && Text.IsJsBlank(Selected(doc, v.range.value)) ==>
      e == MarkThenRun(doc, v.range.value.start, Command(command, value))
  {
    if !Active(v) then Unchanged
    else
      var r := v.range.value;
      if !Text.IsJsBlank(Selected(doc, r)) then Browser(Command(command, value))
      else MarkThenRun(doc, r.start, Command(command, value))
  }

  /** The marker path adds exactly one U+200B to the text, at the range start,
      and the caret sits right after the node holding it. */
  lemma FormatTextMarker(doc: seq<Node>, v: View, command: string, value: Option<string>)
    requires ViewOk(doc, v) && Active(v) && Text.IsJsBlank(Selected(doc, v.range.value))
    ensures var e := FormatText(doc, v, command, value);
      e.Edit? && e.caret.After?
      && e.caret.node < |e.doc| && e.doc[e.caret.node] == TextNode([ZeroWidthSpace])
      && DocText(e.doc[..e.caret.node]) == TextBefore(doc, v.range.value.start)
      && DocText(e.doc) == TextBefore(doc, v.range.value.start) + [ZeroWidthSpace] + TextAfter(doc, v.range.value.start)
  {
    var r := v.range.value;
    var (d, i) := InsertAt(doc, r.start, TextNode([ZeroWidthSpace]));
    assert FormatText(doc, v, command, value) == Edit(d, After(i), Some(Command(command, value)));
  }

  /** `applyFontFormatting(property, value)`. */
  function ApplyFont(doc: seq<Node>, v: View, property: FontProperty, value: string): (e: Effect)
    requires ViewOk(doc, v)
    ensures !Active(v) ==> e == Unchanged
    ensures Active(v) && property == FontColor ==>
      e == if Text.IsJsBlank(Selected(doc, v.range.value))
           then MarkThenRun(doc, v.range.value.start, Command("foreColor", Some(value)))
           else Browser(Command("foreColor", Some(value)))
    ensures Active(v) && property != FontColor ==> e.Edit? && e.run.None?
  {
    if !Active(v) then Unchanged
    else
      var r := v.range.value;
      var selected := Selected(doc, r);
      if !Text.IsJsBlank(selected) then
        if property == FontColor then Browser(Command("foreColor", Some(value)))
        else
          var (d, i) := ReplaceRange(doc, r, Span(property, value, selected));
          Edit(d, After(i), None)
      else
        if property == FontColor then MarkThenRun(doc, r.start, Command("foreColor", Some(value)))
        else
          var (d, i) := InsertAt(doc, r.start, Span(property, value, ""));
          Edit(d, Inside(i), None)
  }

  /** A family or size change on a non-blank selection replaces it by one span
      holding exactly the selected text: the document's text is unchanged and
      the caret ends right after the span. */
  lemma FontSpanKeepsText(doc: seq<Node>, v: View, property: FontProperty, value: string)
    requires ViewOk(doc, v) && Active(v) && property != FontColor
    requires !Text.IsJsBlank(Selected(doc, v.range.value))
    ensures var e := ApplyFont(doc, v, property, value);
      e.Edit? && e.caret.After? && e.caret.node < |e.doc|
      && e.doc[e.caret.node] == Span(property, value, Selected(doc, v.range.value))
      && DocText(e.doc) == DocText(doc)
  {
    var r := v.range.value;
    var s := Selected(doc, r);
    var (d, i) := ReplaceRange(doc, r, Span(property, value, s));
    assert ApplyFont(doc, v, property, value) == Edit(d, After(i), None);
    assert TextBefore(doc, r.start) + s + TextAfter(doc, r.end) == DocText(doc);
  }

  /** A family or size change with a blank selection inserts an empty span at
      the range start and puts the caret inside it; the text is unchanged. */
  lemma FontSpanForNextText(doc: seq<Node>, v: View, property: FontProperty, value: string)
    requires ViewOk(doc, v) && Active(v) && property != FontColor
    requires Text.IsJsBlank(Selected(doc, v.range.value))
    ensures var e := ApplyFont(doc, v, property, value);
      e.Edit? && e.caret.Inside? && e.caret.node < |e.doc|
      && e.doc[e.caret.node] == Span(property, value, "")
      && DocText(e.doc) == DocText(doc)
  {
    FontSpanBranch(doc, v, property, value);
    InsertEmptyKeepsText(doc, v.range.value.start, Span(property, value, ""));
  }

  /** With a blank selection, a family or size change inserts an empty span at the range start. */
  lemma FontSpanBranch(doc: seq<Node>, v: View, property: FontProperty, value: string)
    requires ViewOk(doc, v) && Active(v) && property != FontColor
    requires Text.IsJsBlank(Selected(doc, v.range.value))
    ensures var (d, i) := InsertAt(doc, v.range.value.start, Span(property, value, ""));
      ApplyFont(doc, v, property, value) == Edit(d, Inside(i), None)
  {
  }

  // ------------------------------------------------------------ checklists

  predicate NonEmpty(s: string) {
    s != ""
  }

  function TrimAll(lines: seq<string>): (r: seq<string>)
    ensures |r| == |lines|
    ensures forall k :: 0 <= k < |lines| ==> r[k] == Text.JsTrim(lines[k])
  {
    seq(|lines|, k requires 0 <= k < |lines| => Text.JsTrim(lines[k]))
  }

  /** The labels of the checklist made from selected text: its lines, trimmed,
      blank ones dropped. */
  function ChecklistLabels(selected: string): (labels: seq<string>)
    ensures forall k :: 0 <= k < |labels| ==> labels[k] != "" && Text.JsTrim(labels[k]) == labels[k]
    ensures Seqs.IsSubsequence(labels, TrimAll(Text.Split(selected, '\n')))
    ensures |labels| <= |Text.Split(selected, '\n')|
  {
    var trimmed := TrimAll(Text.Split(selected, '\n'));
    var labels := Seqs.Filter(trimmed, NonEmpty);
    forall k | 0 <= k < |labels| ensures Text.JsTrim(labels[k]) == labels[k] {
      var j :| 0 <= j < |trimmed| && trimmed[j] == labels[k];
      Text.TrimIdempotent(Text.Split(selected, '\n')[j], Text.IsJsSpace);
    }
    labels
  }

  /** Every non-blank line gives one item, in order; blank lines give none. */
  lemma ChecklistOfLines(lines: seq<string>)
    requires |lines| >= 1 && forall k :: 0 <= k < |lines| ==> '\n' !in lines[k]
    ensures ChecklistLabels(Text.Join(lines, "\n")) == Seqs.Filter(TrimAll(lines), NonEmpty)
  {
    Text.SplitJoin(lines, '\n');
  }

  /** Lines that are all blank give an empty list. */
  lemma BlankLinesNoItems(selected: string)
    requires forall k :: 0 <= k < |Text.Split(selected, '\n')| ==> Text.IsJsBlank(Text.Split(selected, '\n')[k])
    ensures ChecklistLabels(selected) == []
  {
  }

  /** One unchecked item per label, in order. */
  function Unchecked(labels: seq<string>): (items: seq<Item>)
    ensures |items| == |labels|
    ensures forall k :: 0 <= k < |items| ==> !items[k].checked
    ensures Captions(items) == labels
  {
    seq(|labels|, k requires 0 <= k < |labels| => Item(false, labels[k]))
  }

  /** What a DOM node reference in the caret code points at: a node in the
      document, or a node with no parent. */
  datatype Target = InDocument(index: nat) | Detached

  /** `range.setStartAfter(n)`: throws when `n` has no parent. */
  function SetStartAfter(n: Target): (c: Option<Caret>)
    ensures c.Some? <==> n.InDocument?
  {
    match n
    case InDocument(k) => Some(After(k))
    case Detached => None
  }

  /** `fragment.lastChild || fragment` once `range.insertNode(fragment)` has
      moved the fragment's children into the document: the fragment is then
      empty, so this is the fragment itself, which never has a parent. */
  function FragmentCaretTarget(childrenLeft: seq<nat>): Target {
    if |childrenLeft| > 0 then InDocument(childrenLeft[|childrenLeft| - 1]) else Detached
  }

  /** `insertChecklist()` as written. There is no check that the range lies in
      the editor: any range is edited. */
  function InsertChecklistAsWritten(doc: seq<Node>, v: View): (e: Effect)
    requires ViewOk(doc, v)
    ensures !v.hasEditor || v.range.None? ==> e == Unchanged
    ensures v.hasEditor && v.range.Some? ==> (e.Edit? <==> Selected(doc, v.range.value) == "")
    ensures v.hasEditor && v.range.Some? ==> (e.EditThenThrow? <==> Selected(doc, v.range.value) != "")
  {
    if !v.hasEditor || v.range.None? then Unchanged
    else
      var r := v.range.value;
      var selected := Selected(doc, r);
      if selected != "" then
        var (d, i) := ReplaceRange(doc, r, Checklist(Unchecked(ChecklistLabels(selected))));
        match SetStartAfter(FragmentCaretTarget([]))
        case Some(c) => Edit(d, c, None)
        case None => EditThenThrow(d)
      else
        var (d, i) := InsertAt(doc, r.start, Checklist([Item(false, "")]));
        Edit(d, Inside(i), None)
  }

  /** As written, converting selected text always throws after the list is in
      place, so the caret is never moved past it. */
  lemma ChecklistFromSelectionThrows(doc: seq<Node>, v: View)
    requires ViewOk(doc, v) && v.hasEditor && v.range.Some?
    requires Selected(doc, v.range.value) != ""
    ensures InsertChecklistAsWritten(doc, v).EditThenThrow?
  {
  }

  /** A one-character selection is enough to see it. */
  lemma ChecklistThrowsOnWord()
    ensures InsertChecklistAsWritten([TextNode("a")], View(true, Some(Range(Point(0, 0), Point(0, 1), true)))).EditThenThrow?
  {
    var doc := [TextNode("a")];
    var r := Range(Point(0, 0), Point(0, 1), true);
    var s := Selected(doc, r);
    assert TextBefore(doc, r.end) == "a" by {
      assert doc[..0] == [] && "a"[..1] == "a";
    }
    assert TextBefore(doc, r.start) == "" by {
      assert doc[..0] == [] && "a"[..0] == "";
    }
    assert s == "a";
  }

  /** `insertChecklist()` with the caret placed after the inserted list, as the
      code's comment intends. */
  function InsertChecklist(doc: seq<Node>, v: View): (e: Effect)
    requires ViewOk(doc, v)
    ensures !v.hasEditor || v.range.None? ==> e == Unchanged
    ensures v.hasEditor && v.range.Some? ==> e.Edit? && e.run.None? && e.caret.node < |e.doc|
  {
    if !v.hasEditor || v.range.None? then Unchanged
    else
      var r := v.range.value;
      var selected := Selected(doc, r);
      if selected != "" then
        var (d, i) := ReplaceRange(doc, r, Checklist(Unchecked(ChecklistLabels(selected))));
        match SetStartAfter(InDocument(i))
        case Some(c) => Edit(d, c, None)
        case None => assert false; Unchanged
      else
        var (d, i) := InsertAt(doc, r.start, Checklist([Item(false, "")]));
        Edit(d, Inside(i), None)
  }

  /** Selected text becomes one list of unchecked items, one per non-blank
      line, replacing the selection; the caret ends right after the list, and
      the document is the one the code as written produces. */
  lemma ChecklistFromSelection(doc: seq<Node>, v: View)
    requires ViewOk(doc, v) && v.hasEditor && v.range.Some?
    requires Selected(doc, v.range.value) != ""
    ensures var e := InsertChecklist(doc, v);
      var labels := ChecklistLabels(Selected(doc, v.range.value));
      e.caret.After? && e.doc[e.caret.node] == Checklist(Unchecked(labels))
      && DocText(e.doc) == TextBefore(doc, v.range.value.start) + Text.Join(labels, "") + TextAfter(doc, v.range.value.end)
      && e.doc == InsertChecklistAsWritten(doc, v).doc
  {
    SelectionChecklistBranch(doc, v);
    UncheckedText(ChecklistLabels(Selected(doc, v.range.value)));
  }

  /** With text selected, the list replaces the range; the caret lands after
      it in the intended version, and the code as written throws there. */
  lemma SelectionChecklistBranch(doc: seq<Node>, v: View)
    requires ViewOk(doc, v) && v.hasEditor && v.range.Some?
    requires Selected(doc, v.range.value) != ""
    ensures var list := Checklist(Unchecked(ChecklistLabels(Selected(doc, v.range.value))));
      var (d, i) := ReplaceRange(doc, v.range.value, list);
      InsertChecklist(doc, v) == Edit(d, After(i), None)
      && InsertChecklistAsWritten(doc, v) == EditThenThrow(d)
  {
    var list := Checklist(Unchecked(ChecklistLabels(Selected(doc, v.range.value))));
    var (d, i) := ReplaceRange(doc, v.range.value, list);
    assert SetStartAfter(InDocument(i)) == Some(After(i));
    assert SetStartAfter(FragmentCaretTarget([])) == None;
  }

  /** A list's text is its labels, in order. */
  lemma UncheckedText(labels: seq<string>)
    ensures NodeText(Checklist(Unchecked(labels))) == Text.Join(labels, "")
  {
  }

  /** With nothing selected, the list has one unchecked item with empty text,
      and the caret is inside it; the document's text is unchanged. */
  lemma ChecklistAtCaret(doc: seq<Node>, v: View)
    requires ViewOk(doc, v) && v.hasEditor && v.range.Some?
    requires Selected(doc, v.range.value) == ""
    ensures var e := InsertChecklist(doc, v);
      e.caret.Inside? && e.doc[e.caret.node] == Checklist([Item(false, "")])
      && DocText(e.doc) == DocText(doc)
      && e == InsertChecklistAsWritten(doc, v)
  {
    var list := Checklist([Item(false, "")]);
    EmptyChecklistBranch(doc, v);
    assert NodeText(list) == "" by {
      assert Captions([Item(false, "")]) == [""];
    }
    InsertEmptyKeepsText(doc, v.range.value.start, list);
  }

  /** With nothing selected, both versions insert the empty list at the range start. */
  lemma EmptyChecklistBranch(doc: seq<Node>, v: View)
    requires ViewOk(doc, v) && v.hasEditor && v.range.Some?
    requires Selected(doc, v.range.value) == ""
    ensures var (d, i) := InsertAt(doc, v.range.value.start, Checklist([Item(false, "")]));
      InsertChecklist(doc, v) == Edit(d, Inside(i), None)
      && InsertChecklistAsWritten(doc, v) == Edit(d, Inside(i), None)
  {
  }

  /** Inserting a node without text leaves the document's text as it was. */
  lemma InsertEmptyKeepsText(doc: seq<Node>, p: Point, n: Node)
    requires ValidPoint(doc, p) && NodeText(n) == ""
    ensures DocText(InsertAt(doc, p, n).0) == DocText(doc)
  {
    var t := DocText(InsertAt(doc, p, n).0);
    assert t == TextBefore(doc, p) + "" + TextAfter(doc, p);
    assert TextBefore(doc, p) + "" == TextBefore(doc, p);
  }

  /** The checklist command looks only at the range, never at where it lies. */
  lemma ChecklistIgnoresEditorCheck(doc: seq<Node>, hasEditor: bool, r: Range)
    requires RangeOk(doc, r)
    ensures InsertChecklist(doc, View(hasEditor, Some(r))) == InsertChecklist(doc, View(hasEditor, Some(r.(inEditor := !r.inEditor))))
  {
    var r2 := r.(inEditor := !r.inEditor);
    assert Selected(doc, r) == Selected(doc, r2);
  }

  // ------------------------------------------------------------ speech transcript

  /** One entry of `event.results`: its best transcript and whether it is final. */
  datatype SpeechResult = SpeechResult(transcript: string, isFinal: bool)

  /** The final results' transcripts, each followed by one space. */
  function FinalText(results: seq<SpeechResult>): string
    decreases |results|
  {
    if |results| == 0 then ""
    else (if results[0].isFinal then results[0].transcript + " " else "") + FinalText(results[1..])
  }

  /** `onresult`: the transcript grows by the final results from `resultIndex` on. */
  function OnResult(transcript: string, resultIndex: nat, results: seq<SpeechResult>): (r: string)
    ensures |transcript| <= |r| && r[..|transcript|] == transcript
  {
    if resultIndex <= |results| then transcript + FinalText(results[resultIndex..]) else transcript
  }

  lemma {:induction false} FinalTextAppend(a: seq<SpeechResult>, b: seq<SpeechResult>)
    ensures FinalText(a + b) == FinalText(a) + FinalText(b)
    decreases |a|
  {
    if |a| == 0 {
      assert a + b == b;
    } else {
      assert (a + b)[1..] == a[1..] + b;
      FinalTextAppend(a[1..], b);
    }
  }

  predicate IsFinal(r: SpeechResult) {
    r.isFinal
  }

  function Spaced(results: seq<SpeechResult>): (pieces: seq<string>)
    ensures |pieces| == |results|
  {
    seq(|results|, k requires 0 <= k < |results| => results[k].transcript + " ")
  }

  /** The growth is exactly the final results, in order, each with one space
      after it; interim results never enter it. */
  lemma {:induction false} FinalTextIsFinalResults(results: seq<SpeechResult>)
    ensures FinalText(results) == Text.Join(Spaced(Seqs.Filter(results, IsFinal)), "")
    decreases |results|
  {
    if |results| > 0 {
      var x, tail := results[0], results[1..];
      FinalTextIsFinalResults(tail);
      assert results == [x] + tail;
      Seqs.FilterCons(x, tail, IsFinal);
      var rest := Seqs.Filter(tail, IsFinal);
      if x.isFinal {
        SpacedCons(x, rest);
        JoinEmptyCons(x.transcript + " ", Spaced(rest));
      }
    }
  }

  lemma SpacedCons(x: SpeechResult, rest: seq<SpeechResult>)
    ensures Spaced([x] + rest) == [x.transcript + " "] + Spaced(rest)
  {
  }

  lemma JoinEmptyCons(x: string, xs: seq<string>)
    ensures Text.Join([x] + xs, "") == x + Text.Join(xs, "")
  {
    if |xs| == 0 {
      assert [x] + xs == [x];
    } else {
      assert ([x] + xs)[1..] == xs;
    }
  }

  /** An event with only interim results leaves the transcript as it was. */
  lemma InterimOnly(transcript: string, resultIndex: nat, results: seq<SpeechResult>)
    requires forall k :: 0 <= k < |results| ==> !results[k].isFinal
    ensures OnResult(transcript, resultIndex, results) == transcript
  {
    if resultIndex <= |results| {
      var tail := results[resultIndex..];
      FinalTextIsFinalResults(tail);
      assert Seqs.Filter(tail, IsFinal) == [];
    }
  }

  // ------------------------------------------------------------ saving

  /** The dialog's form state. */
  datatype Draft = Draft(
    title: string, content: string, sectionId: Option<string>,
    fontFamily: string, fontSize: int, fontColor: string,
    transcript: string, aiPrompt: string, showAIPrompt: bool, recording: bool)

  /** The editor element's `innerHTML`, `innerText` and `textContent`. */
  datatype EditorView = EditorView(innerHtml: string, innerText: string, textContent: string)

  datatype NotePayload = NotePayload(
    title: string, content: string, sectionId: Option<string>,
    fontFamily: string, fontSize: int, fontColor: string)

  /** The text the save guard inspects: the editor's text, else the draft content. */
  function SavedText(d: Draft, editor: Option<EditorView>): string {
    if editor.Some? && editor.value.innerText != "" then editor.value.innerText
    else if editor.Some? && editor.value.textContent != "" then editor.value.textContent
    else d.content
  }

  /** The request `handleSave` sends, if any: nothing when the trimmed title or
      the trimmed text is empty; otherwise the title as typed and the editor's
      HTML (or the draft content when there is none). */
  function SaveRequest(d: Draft, editor: Option<EditorView>): (p: Option<NotePayload>)
    ensures p.Some? <==> !Text.IsJsBlank(d.title) && !Text.IsJsBlank(SavedText(d, editor))
    ensures p.Some? ==>
      (p.value.title == d.title && p.value.sectionId == d.sectionId
       && p.value.fontFamily == d.fontFamily && p.value.fontSize == d.fontSize && p.value.fontColor == d.fontColor)
    ensures p.Some? ==> p.value.content == (if editor.Some? && editor.value.innerHtml != "" then editor.value.innerHtml else d.content)
  {
    if Text.IsJsBlank(d.title) || Text.IsJsBlank(SavedText(d, editor)) then None
    else
      var html := if editor.Some? && editor.value.innerHtml != "" then editor.value.innerHtml else d.content;
      Some(NotePayload(d.title, html, d.sectionId, d.fontFamily, d.fontSize, d.fontColor))
  }

  /** The form after a save: a fresh draft when `onSave` succeeded, unchanged
      when it threw or the guard stopped it. */
  function AfterSave(d: Draft, editor: Option<EditorView>, saved: bool): (r: Draft)
    ensures SaveRequest(d, editor).None? || !saved ==> r == d
    ensures SaveRequest(d, editor).Some? && saved ==>
      r.title == "" && r.content == "" && r.sectionId.None? && r.transcript == ""
      && r.fontFamily == "sans-serif" && r.fontSize == 16 && r.fontColor == "#FFFFFF"
      && !r.recording && !r.showAIPrompt && r.aiPrompt == ""
  {
    if SaveRequest(d, editor).Some? && saved then
      Draft("", "", None, "sans-serif", 16, "#FFFFFF", "", "", false, false)
    else d
  }

  /** A draft just reset by a save cannot be saved again until a title is typed. */
  lemma ResetDraftNotSavable(d: Draft, editor: Option<EditorView>, next: Option<EditorView>)
    requires SaveRequest(d, editor).Some?
    ensures SaveRequest(AfterSave(d, editor, true), next).None?
  {
  }
}

=== FILE: notes_api.dfy ===
/**
 The notes collection route: listing the caller's notes, newest first, and
 creating a note with defaults for the optional fields. The database is an
 in-memory table; authentication and the clock are inputs.
 */
module NotesApi {
  import opened Wrappers
  import Seqs
  import Sorting
  import Http

  datatype Note = Note(
    id: nat, userId: string, title: string, content: string, sectionId: Option<string>,
    fontFamily: string, fontSize: int, fontColor: string, createdAt: int, updatedAt: int)

  /** The notes table and the id the next row gets. */
  datatype Db = Db(notes: seq<Note>, nextId: nat)

  /** The JSON body of a create request; `None` is a field that is absent or
      null. A `userId` in the body is read by nobody. */
  datatype Body = Body(
    title: Option<string>, content: Option<string>, sectionId: Option<string>,
    fontFamily: Option<string>, fontSize: Option<int>, fontColor: Option<string>,
    userId: Option<string>)

  const DefaultFamily: string := "sans-serif"
  const DefaultSize: int := 16
  const DefaultColor: string := "#FFFFFF"

  predicate OwnedBy(uid: string, n: Note) {
    n.userId == uid
  }

  /** The sort key putting the most recently updated note first. */
  function NewestFirst(n: Note): int {
    -n.updatedAt
  }

  /** `GET`: 401 without a user; 500 when the query raises (`dbFails`);
      otherwise exactly the caller's notes, the most recently updated first. */
  function Get(userId: Option<string>, db: Db, dbFails: bool): (r: Http.Reply<seq<Note>>)
    ensures !Truthy(userId) <==> r == Http.Failure(Http.Unauthorized, "Unauthorized")
    ensures Truthy(userId) && dbFails ==> r == Http.Failure(Http.ServerError, "Failed to fetch notes")
    ensures r.Json? <==> Truthy(userId) && !dbFails
    ensures r.Json? ==>
      (r.status == Http.Ok
       && multiset(r.value) == multiset(Seqs.Filter(db.notes, n => OwnedBy(userId.value, n)))
       && forall i, j :: 0 <= i < j < |r.value| ==> r.value[i].updatedAt >= r.value[j].updatedAt)
  {
    if !Truthy(userId) then Http.Failure(Http.Unauthorized, "Unauthorized")
    else if dbFails then Http.Failure(Http.ServerError, "Failed to fetch notes")
    else
      var owned := Seqs.Filter(db.notes, n => OwnedBy(userId.value, n));
      var sorted := Sorting.SortBy(owned, NewestFirst);
      assert forall i, j :: 0 <= i < j < |sorted| ==> NewestFirst(sorted[i]) <= NewestFirst(sorted[j]);
      Http.Json(Http.Ok, sorted)
  }

  /** Every note listed belongs to the caller, and every note of the caller is listed. */
  lemma GetListsOwnNotes(userId: Option<string>, db: Db)
    requires Truthy(userId)
    ensures var listed := Get(userId, db, false).value;
      (forall k :: 0 <= k < |listed| ==> listed[k].userId == userId.value && listed[k] in db.notes)
      && (forall k :: 0 <= k < |db.notes| && db.notes[k].userId == userId.value ==> db.notes[k] in listed)
  {
    var owned := Seqs.Filter(db.notes, n => OwnedBy(userId.value, n));
    var listed := Get(userId, db, false).value;
    forall k | 0 <= k < |listed| ensures listed[k].userId == userId.value && listed[k] in db.notes {
      assert listed[k] in multiset(owned);
    }
    forall k | 0 <= k < |db.notes| && db.notes[k].userId == userId.value ensures db.notes[k] in listed {
      assert db.notes[k] in multiset(owned);
    }
  }

  /** The row `POST` inserts: required fields from the body, the owner from
      authentication, and falsy optional fields replaced by their defaults. */
  function NewNote(id: nat, userId: string, title: string, content: string, body: Body, now: int): (n: Note)
    ensures n.userId == userId && n.title == title && n.content == content && n.id == id
    ensures n.createdAt == now && n.updatedAt == now
    ensures n.sectionId == (if Truthy(body.sectionId) then body.sectionId else None)
    ensures n.fontFamily == OrElse(body.fontFamily, DefaultFamily)
    ensures n.fontSize == (if body.fontSize.Some? && body.fontSize.value != 0 then body.fontSize.value else DefaultSize)
    ensures n.fontColor == OrElse(body.fontColor, DefaultColor)
  {
    Note(id, userId, title, content,
         if Truthy(body.sectionId) then body.sectionId else None,
         OrElse(body.fontFamily, DefaultFamily),
         if body.fontSize.Some? && body.fontSize.value != 0 then body.fontSize.value else DefaultSize,
         OrElse(body.fontColor, DefaultColor),
         now, now)
  }

  /** `POST`: 401 without a user, 500 when the body is not JSON, 400 without
      a title or content, 500 when the insert raises (`dbFails`); otherwise
      the new note, which is appended to the table. Nothing is written on
      failure. */
  function Post(userId: Option<string>, body: Option<Body>, db: Db, now: int, dbFails: bool): (r: (Http.Reply<Note>, Db))
    ensures !Truthy(userId) ==> r == (Http.Failure(Http.Unauthorized, "Unauthorized"), db)
    ensures r.0.Failure? && r.0.status == Http.BadRequest <==>
      (Truthy(userId) && body.Some? && (!Truthy(body.value.title) || !Truthy(body.value.content)))
    ensures r.0.Failure? ==> r.1 == db
    ensures r.0.Json? ==>
      (r.0.status == Http.Created && Truthy(userId) && body.Some?
       && r.0.value.userId == userId.value
       && Truthy(body.value.title) && r.0.value.title == body.value.title.value
       && Truthy(body.value.content) && r.0.value.content == body.value.content.value
       && r.1 == Db(db.notes + [r.0.value], db.nextId + 1))
    ensures Truthy(userId) && body.None? ==> r == (Http.Failure(Http.ServerError, "Failed to create note"), db)
    ensures Truthy(userId) && body.Some? && Truthy(body.value.title) && Truthy(body.value.content) && dbFails ==>
      r == (Http.Failure(Http.ServerError, "Failed to create note"), db)
    ensures Truthy(userId) && body.Some? && Truthy(body.value.title) && Truthy(body.value.content) && !dbFails ==>
      r.0 == Http.Json(Http.Created, NewNote(db.nextId, userId.value, body.value.title.value,
                                            body.value.content.value, body.value, now))
  {
    if !Truthy(userId) then (Http.Failure(Http.Unauthorized, "Unauthorized"), db)
    else if body.None? then (Http.Failure(Http.ServerError, "Failed to create note"), db)
    else if !Truthy(body.value.title) || !Truthy(body.value.content) then
      (Http.Failure(Http.BadRequest, "Title and content are required"), db)
    else if dbFails then (Http.Failure(Http.ServerError, "Failed to create note"), db)
    else
      var note := NewNote(db.nextId, userId.value, body.value.title.value, body.value.content.value, body.value, now);
      (Http.Json(Http.Created, note), Db(db.notes + [note], db.nextId + 1))
  }

  /** The owner of a created note is the caller, whatever the body claims. */
  lemma OwnerFromAuth(userId: Option<string>, body: Body, db: Db, now: int)
    requires Truthy(userId) && Truthy(body.title) && Truthy(body.content)
    ensures Post(userId, Some(body), db, now, false).0.value.userId == userId.value
    ensures body.userId.Some? && body.userId.value != userId.value ==>
      Post(userId, Some(body), db, now, false).0.value.userId != body.userId.value
  {
  }

  /** A created note shows up in its owner's next listing, and nobody else's
      listing changes. */
  lemma CreatedNoteIsListed(userId: Option<string>, body: Body, db: Db, now: int, other: string)
    requires Truthy(userId) && Truthy(body.title) && Truthy(body.content)
    requires other != "" && other != userId.value
    ensures var (reply, db') := Post(userId, Some(body), db, now, false);
      reply.value in Get(userId, db', false).value
      && multiset(Get(Some(other), db', false).value) == multiset(Get(Some(other), db, false).value)
  {
    var (reply, db') := Post(userId, Some(body), db, now, false);
    var mine := (n: Note) => OwnedBy(userId.value, n);
    var theirs := (n: Note) => OwnedBy(other, n);
    Seqs.FilterAppend(db.notes, [reply.value], mine);
    Seqs.FilterAppend(db.notes, [reply.value], theirs);
    assert Seqs.Filter([reply.value], mine) == [reply.value];
    assert Seqs.Filter([reply.value], theirs) == [];
    assert reply.value in multiset(Seqs.Filter(db'.notes, mine));
  }
}

=== FILE: organize_files.dfy ===
/**
 The folder organiser: files are sorted into `images`, `pdfs`, `videos` and
 `other` by their extension, hidden names are skipped, and a name already
 taken in the destination gets a `_1`, `_2`, ... suffix. The file system is
 the listing of the directory and the set of names already in each category
 folder; whether a move fails is an oracle.
 */
module OrganizeFiles {
  import opened Wrappers
  import Text
  import Seqs

  datatype Category = Images | Pdfs | Videos | Other

  /** The folder a category's files go to. */
  function FolderName(c: Category): string {
    match c
    case Images => "images"
    case Pdfs => "pdfs"
    case Videos => "videos"
    case Other => "other"
  }

  const ImageExtensions: set<string> := {".jpg", ".jpeg", ".png", ".gif", ".bmp", ".tiff", ".webp", ".svg"}
  const VideoExtensions: set<string> := {".mp4", ".mov", ".avi", ".mkv", ".wmv", ".flv", ".webm", ".m4v", ".3gp"}
  const PdfExtensions: set<string> := {".pdf"}

  /** Lower-casing of ASCII letters; other characters are left alone. */
  function LowerChar(c: char): (r: char)
    ensures r == '.' <==> c == '.'
  {
    if 'A' <= c <= 'Z' then (c as int + 32) as char else c
  }

  function Lower(s: string): (r: string)
    ensures |r| == |s| && forall k :: 0 <= k < |s| ==> r[k] == LowerChar(s[k])
  {
    seq(|s|, k requires 0 <= k < |s| => LowerChar(s[k]))
  }

  /** `name.rfind('.')`. */
  function LastDot(name: string): (r: Option<nat>)
    ensures r.Some? ==> r.value < |name| && name[r.value] == '.'
                        && forall k :: r.value < k < |name| ==> name[k] != '.'
    ensures r.None? ==> forall k :: 0 <= k < |name| ==> name[k] != '.'
    decreases |name|
  {
    if |name| == 0 then None
    else if name[|name| - 1] == '.' then Some(|name| - 1)
    else LastDot(name[..|name| - 1])
  }

  /** Where `pathlib` splits a name into stem and suffix: the last dot, unless
      it begins or ends the name. */
  function SuffixStart(name: string): (r: Option<nat>)
    ensures r.Some? ==> 0 < r.value < |name| - 1 && name[r.value] == '.'
                        && forall k :: r.value < k < |name| ==> name[k] != '.'
  {
    match LastDot(name)
    case Some(i) => if 0 < i < |name| - 1 then Some(i) else None
    case None => None
  }

  /** `Path(name).suffix`. */
  function Suffix(name: string): (r: string)
    ensures r == "" || (r[0] == '.' && 2 <= |r| < |name|)
  {
    match SuffixStart(name)
    case Some(i) => name[i..]
    case None => ""
  }

  /** `Path(name).stem`. */
  function Stem(name: string): string {
    match SuffixStart(name)
    case Some(i) => name[..i]
    case None => name
  }

  /** Stem and suffix together are the name. */
  lemma StemSuffix(name: string)
    ensures Stem(name) + Suffix(name) == name
  {
    match SuffixStart(name)
    case Some(i) =>
      assert name == name[..i] + name[i..];
    case None =>
  }

  /** `get_file_category`: one category per file, chosen by the lower-cased
      extension; the three extension sets do not overlap. */
  function CategoryOf(name: string): (c: Category)
    ensures c == Images <==> Lower(Suffix(name)) in ImageExtensions
    ensures c == Pdfs <==> Lower(Suffix(name)) in PdfExtensions
    ensures c == Videos <==> Lower(Suffix(name)) in VideoExtensions
    ensures c == Other <==> Lower(Suffix(name)) !in ImageExtensions + PdfExtensions + VideoExtensions
  {
    var ext := Lower(Suffix(name));
    if ext in ImageExtensions then Images
    else if ext in PdfExtensions then Pdfs
    else if ext in VideoExtensions then Videos
    else Other
  }

  /** Two names with dots in the same places have their last dot in the same place. */
  lemma {:induction false} LastDotSamePlaces(s: string, t: string)
    requires |s| == |t| && forall k :: 0 <= k < |s| ==> (s[k] == '.' <==> t[k] == '.')
    ensures LastDot(s) == LastDot(t)
    decreases |s|
  {
    if |s| > 0 && s[|s| - 1] != '.' {
      LastDotSamePlaces(s[..|s| - 1], t[..|t| - 1]);
    }
  }

  /** The split point does not move when the name is lower-cased. */
  lemma SuffixStartLower(name: string)
    ensures SuffixStart(Lower(name)) == SuffixStart(name)
  {
    LastDotSamePlaces(Lower(name), name);
  }

  /** Classification ignores letter case: a name and its lower-cased form
      land in the same folder. */
  lemma CategoryIgnoresCase(name: string)
    ensures CategoryOf(Lower(name)) == CategoryOf(name)
  {
    SuffixStartLower(name);
    var lower := Lower(name);
    match SuffixStart(name)
    case Some(i) =>
      assert Suffix(lower) == lower[i..];
      assert Lower(Suffix(lower)) == Lower(Suffix(name));
    case None =>
  }

  /** Names the organiser never moves. */
  predicate IsHidden(name: string) {
    (|name| > 0 && name[0] == '.') || name == "__pycache__"
  }

  /** The name tried on the `k`-th conflict: `stem_k.suffix`. */
  function Numbered(name: string, k: nat): string {
    Stem(name) + "_" + Text.NatToString(k) + Suffix(name)
  }

  /** Different counters give different names. */
  lemma NumberedInjective(name: string, a: nat, b: nat)
    requires Numbered(name, a) == Numbered(name, b)
    ensures a == b
  {
    var p, q := Stem(name) + "_", Suffix(name);
    var x, y := Text.NatToString(a), Text.NatToString(b);
    assert Numbered(name, a) == p + x + q && Numbered(name, b) == p + y + q;
    assert |x| == |y|;
    assert x == (p + x + q)[|p|..|p| + |x|];
    assert y == (p + y + q)[|p|..|p| + |y|];
    Text.NatToStringInjective(a, b);
  }

  /** A directory entry as `iterdir` lists it. */
  datatype Entry = Entry(name: string, isFile: bool)

  /** The files considered: not directories, and not the script itself. */
  function Candidates(entries: seq<Entry>, scriptName: string): (files: seq<string>)
    ensures forall k :: 0 <= k < |files| ==> Entry(files[k], true) in entries && files[k] != scriptName
    ensures forall k :: 0 <= k < |entries| && entries[k].isFile && entries[k].name != scriptName ==>
      entries[k].name in files
    ensures files == Seqs.Map(NameOf, Seqs.Filter(entries, Movable(scriptName)))
    ensures |files| == Seqs.Count(entries, Movable(scriptName))
    decreases |entries|
  {
    Seqs.CountIsFilterLength(entries, Movable(scriptName));
    MovableNames(entries, scriptName);
    if |entries| == 0 then []
    else
      var rest := Candidates(entries[1..], scriptName);
      Seqs.MapCons(NameOf, entries[0], Seqs.Filter(entries[1..], Movable(scriptName)));
      if entries[0].isFile && entries[0].name != scriptName then [entries[0].name] + rest else rest
  }

  /** The names of the movable entries are those of files other than the
      script, and every such file is named. */
  lemma MovableNames(entries: seq<Entry>, scriptName: string)
    ensures var names := Seqs.Map(NameOf, Seqs.Filter(entries, Movable(scriptName)));
      && (forall k :: 0 <= k < |names| ==> Entry(names[k], true) in entries && names[k] != scriptName)
      && (forall k :: 0 <= k < |entries| && entries[k].isFile && entries[k].name != scriptName ==>
            entries[k].name in names)
  {
    var kept := Seqs.Filter(entries, Movable(scriptName));
    var names := Seqs.Map(NameOf, kept);
    forall k | 0 <= k < |names|
      ensures Entry(names[k], true) in entries && names[k] != scriptName
    {
      assert Movable(scriptName)(kept[k]);
      assert kept[k] == Entry(names[k], true);
    }
    forall k | 0 <= k < |entries| && entries[k].isFile && entries[k].name != scriptName
      ensures entries[k].name in names
    {
      assert Movable(scriptName)(entries[k]);
      var j :| 0 <= j < |kept| && kept[j] == entries[k];
      assert names[j] == entries[k].name;
    }
  }

  /** The entries the listing keeps: files other than the script. */
  function Movable(scriptName: string): Entry -> bool {
    (e: Entry) => e.isFile && e.name != scriptName
  }

  function NameOf(e: Entry): string {
    e.name
  }

  datatype Stats = Stats(images: nat, pdfs: nat, videos: nat, other: nat, skipped: nat)

  function Total(s: Stats): nat {
    s.images + s.pdfs + s.videos + s.other + s.skipped
  }

  /** One more file counted under `c`. */
  function CountMoved(s: Stats, c: Category): (r: Stats)
    ensures Total(r) == Total(s) + 1 && r.skipped == s.skipped
    ensures r.images == s.images + (if c == Images then 1 else 0)
            && r.pdfs == s.pdfs + (if c == Pdfs then 1 else 0)
            && r.videos == s.videos + (if c == Videos then 1 else 0)
            && r.other == s.other + (if c == Other then 1 else 0)
  {
    match c
    case Images => s.(images := s.images + 1)
    case Pdfs => s.(pdfs := s.pdfs + 1)
    case Videos => s.(videos := s.videos + 1)
    case Other => s.(other := s.other + 1)
  }

  /** A move performed: `from` went to `to` inside the category's folder. */
  datatype Move = Move(from: string, category: Category, to: string)

  /** Names already present, per category folder. */
  type Folders = Category -> set<string>

  function Add(folders: Folders, c: Category, name: string): Folders {
    d => if d == c then folders(d) + {name} else folders(d)
  }

  /** The `while dest_path.exists()` loop from counter `k` on: the first
      free `stem_k.suffix`. The ghost set `tried` holds the names already
      found taken, which bounds the search. */
  function FirstFree(name: string, taken: set<string>, k: nat, ghost tried: set<string>): (r: nat)
    requires k >= 1 && tried <= taken && |tried| == k - 1
    requires forall x :: x in tried ==> exists j :: 1 <= j < k && x == Numbered(name, j)
    requires forall j :: 1 <= j < k ==> Numbered(name, j) in taken
    ensures r >= k && Numbered(name, r) !in taken
    ensures forall j :: 1 <= j < r ==> Numbered(name, j) in taken
    decreases |taken| - |tried|
  {
    var next := Numbered(name, k);
    if next !in taken then k
    else
      TryNext(name, taken, k, tried);
      FirstFree(name, taken, k + 1, tried + {next})
  }

  /** One more taken name found: the search state moves on to `k + 1`. */
  lemma TryNext(name: string, taken: set<string>, k: nat, tried: set<string>)
    requires k >= 1 && tried <= taken && |tried| == k - 1
    requires forall x :: x in tried ==> exists j :: 1 <= j < k && x == Numbered(name, j)
    requires forall j :: 1 <= j < k ==> Numbered(name, j) in taken
    requires Numbered(name, k) in taken
    ensures var more := tried + {Numbered(name, k)};
      more <= taken && |more| == k && |more| <= |taken|
      && (forall x :: x in more ==> exists j :: 1 <= j < k + 1 && x == Numbered(name, j))
      && (forall j :: 1 <= j < k + 1 ==> Numbered(name, j) in taken)
  {
    var next := Numbered(name, k);
    if next in tried {
      var j :| 1 <= j < k && next == Numbered(name, j);
      NumberedInjective(name, j, k);
    }
    var more := tried + {next};
    assert |more| == k;
    SubsetSize(more, taken);
    forall x | x in more ensures exists j :: 1 <= j < k + 1 && x == Numbered(name, j) {
      if x != next {
        var j :| 1 <= j < k && x == Numbered(name, j);
      }
    }
  }

  lemma {:induction false} SubsetSize(a: set<string>, b: set<string>)
    requires a <= b
    ensures |a| <= |b|
    decreases |a|
  {
    if a != {} {
      var x :| x in a;
      SubsetSize(a - {x}, b - {x});
    }
  }

  /** The destination name in a folder already holding `taken`: the name
      itself when free, otherwise `stem_k.suffix` for the smallest `k >= 1`
      that is free. */
  function Destination(name: string, taken: set<string>): (dest: string)
    ensures dest !in taken
    ensures name !in taken ==> dest == name
    ensures name in taken ==> exists k :: k >= 1 && dest == Numbered(name, k)
                                           && forall j :: 1 <= j < k ==> Numbered(name, j) in taken
  {
    if name !in taken then name else Numbered(name, FirstFree(name, taken, 1, {}))
  }

  function FromOf(m: Move): string {
    m.from
  }

  /** A candidate the loop moves: not hidden, and its move does not raise. */
  function IsMoved(moveFails: string -> bool): string -> bool {
    (n: string) => !IsHidden(n) && !moveFails(n)
  }

  /** A candidate the loop moves into the folder of category `c`. */
  function MovedInto(moveFails: string -> bool, c: Category): string -> bool {
    (n: string) => !IsHidden(n) && !moveFails(n) && CategoryOf(n) == c
  }

  /** The per-category counts the loop reports for the moves of `files`. */
  predicate CountsMoves(s: Stats, files: seq<string>, moveFails: string -> bool) {
    s.images == Seqs.Count(files, MovedInto(moveFails, Images))
    && s.pdfs == Seqs.Count(files, MovedInto(moveFails, Pdfs))
    && s.videos == Seqs.Count(files, MovedInto(moveFails, Videos))
    && s.other == Seqs.Count(files, MovedInto(moveFails, Other))
  }

  /** What the organiser's loop promises about the moves and counts it
      reports for `files`, given the names already in each folder. */
  predicate Processed(files: seq<string>, folders: Folders, moveFails: string -> bool,
                      moves: seq<Move>, stats: Stats) {
    Total(stats) == |files|
    && (forall k :: 0 <= k < |moves| ==> moves[k].to !in folders(moves[k].category))
    && (forall i, j :: 0 <= i < j < |moves| && moves[i].category == moves[j].category ==> moves[i].to != moves[j].to)
    && (forall k :: 0 <= k < |moves| ==> moves[k].category == CategoryOf(moves[k].from))
    && stats.skipped + |moves| == |files|
    && CountsMoves(stats, files, moveFails)
    && Seqs.Map(FromOf, moves) == Seqs.Filter(files, IsMoved(moveFails))
  }

  /** The organiser's loop over the candidate files. Every file that is not
      hidden and whose move does not raise is moved, in order, to a name free
      in its category's folder, and counted under its category; the rest are
      counted as skipped. */
  function Process(files: seq<string>, folders: Folders, moveFails: string -> bool): (r: (seq<Move>, Stats))
    ensures Total(r.1) == |files|
    ensures forall k :: 0 <= k < |r.0| ==> r.0[k].to !in folders(r.0[k].category)
    ensures forall i, j :: 0 <= i < j < |r.0| && r.0[i].category == r.0[j].category ==> r.0[i].to != r.0[j].to
    ensures forall k :: 0 <= k < |r.0| ==> r.0[k].category == CategoryOf(r.0[k].from)
    ensures r.1.skipped + |r.0| == |files|
    ensures CountsMoves(r.1, files, moveFails)
    ensures Seqs.Map(FromOf, r.0) == Seqs.Filter(files, IsMoved(moveFails))
    decreases |files|
  {
    if |files| == 0 then ([], Stats(0, 0, 0, 0, 0))
    else
      var name := files[0];
      if IsHidden(name) || moveFails(name) then
        var (moves, stats) := Process(files[1..], folders, moveFails);
        SkipStep(files, folders, moveFails, moves, stats);
        (moves, stats.(skipped := stats.skipped + 1))
      else
        var c := CategoryOf(name);
        var dest := Destination(name, folders(c));
        var (moves, stats) := Process(files[1..], Add(folders, c, dest), moveFails);
        MoveStep(files, folders, moveFails, moves, stats, c, dest);
        ([Move(name, c, dest)] + moves, CountMoved(stats, c))
  }

  /** A skipped first file: the moves of the rest, one more skipped. */
  lemma SkipStep(files: seq<string>, folders: Folders, moveFails: string -> bool, moves: seq<Move>, stats: Stats)
    requires |files| > 0 && !IsMoved(moveFails)(files[0])
    requires Processed(files[1..], folders, moveFails, moves, stats)
    ensures Processed(files, folders, moveFails, moves, stats.(skipped := stats.skipped + 1))
  {
    SkipCounts(files, moveFails, stats);
  }

  /** A moved first file goes to the free destination `dest` in the folder
      of its category `c`, ahead of the moves of the rest, which see that
      name as taken. */
  lemma MoveStep(files: seq<string>, folders: Folders, moveFails: string -> bool, moves: seq<Move>, stats: Stats,
                 c: Category, dest: string)
    requires |files| > 0 && IsMoved(moveFails)(files[0])
    requires c == CategoryOf(files[0]) && dest !in folders(c)
    requires Processed(files[1..], Add(folders, c, dest), moveFails, moves, stats)
    ensures Processed(files, folders, moveFails, [Move(files[0], c, dest)] + moves, CountMoved(stats, c))
  {
    MoveStepMoves(files, folders, moveFails, moves, c, dest);
    MoveCounts(files, moveFails, stats);
  }

  lemma MoveStepMoves(files: seq<string>, folders: Folders, moveFails: string -> bool, moves: seq<Move>,
                      c: Category, dest: string)
    requires |files| > 0 && IsMoved(moveFails)(files[0])
    requires c == CategoryOf(files[0]) && dest !in folders(c)
    requires forall k :: 0 <= k < |moves| ==> moves[k].to !in Add(folders, c, dest)(moves[k].category)
    requires forall i, j :: 0 <= i < j < |moves| && moves[i].category == moves[j].category ==> moves[i].to != moves[j].to
    requires forall k :: 0 <= k < |moves| ==> moves[k].category == CategoryOf(moves[k].from)
    requires Seqs.Map(FromOf, moves) == Seqs.Filter(files[1..], IsMoved(moveFails))
    ensures var all := [Move(files[0], c, dest)] + moves;
      (forall k :: 0 <= k < |all| ==> all[k].to !in folders(all[k].category))
      && (forall i, j :: 0 <= i < j < |all| && all[i].category == all[j].category ==> all[i].to != all[j].to)
      && (forall k :: 0 <= k < |all| ==> all[k].category == CategoryOf(all[k].from))
      && Seqs.Map(FromOf, all) == Seqs.Filter(files, IsMoved(moveFails))
  {
    var m := Move(files[0], c, dest);
    PrependFresh(m, moves, folders);
    PrependCategory(m, moves);
    PrependFrom(files, moveFails, m, moves);
  }

  /** A move filed under its source's category keeps every move so filed. */
  lemma PrependCategory(m: Move, moves: seq<Move>)
    requires m.category == CategoryOf(m.from)
    requires forall k :: 0 <= k < |moves| ==> moves[k].category == CategoryOf(moves[k].from)
    ensures forall k :: 0 <= k < |[m] + moves| ==> ([m] + moves)[k].category == CategoryOf(([m] + moves)[k].from)
  {
    var all := [m] + moves;
    forall k | 0 <= k < |all| ensures all[k].category == CategoryOf(all[k].from) {
      if k > 0 {
        assert all[k] == moves[k - 1];
      }
    }
  }

  /** Moving the first file puts its name in front of the names moved from the rest. */
  lemma PrependFrom(files: seq<string>, moveFails: string -> bool, m: Move, moves: seq<Move>)
    requires |files| > 0 && IsMoved(moveFails)(files[0]) && m.from == files[0]
    requires Seqs.Map(FromOf, moves) == Seqs.Filter(files[1..], IsMoved(moveFails))
    ensures Seqs.Map(FromOf, [m] + moves) == Seqs.Filter(files, IsMoved(moveFails))
  {
    Seqs.MapCons(FromOf, m, moves);
    assert Seqs.Filter(files, IsMoved(moveFails)) == [files[0]] + Seqs.Filter(files[1..], IsMoved(moveFails));
  }

  /** A skipped first file adds to no category count and is not moved. */
  lemma SkipCounts(files: seq<string>, moveFails: string -> bool, stats: Stats)
    requires |files| > 0 && !IsMoved(moveFails)(files[0])
    requires CountsMoves(stats, files[1..], moveFails)
    ensures CountsMoves(stats.(skipped := stats.skipped + 1), files, moveFails)
    ensures Seqs.Filter(files, IsMoved(moveFails)) == Seqs.Filter(files[1..], IsMoved(moveFails))
  {
  }

  /** A moved first file adds one to its own category's count. */
  lemma MoveCounts(files: seq<string>, moveFails: string -> bool, stats: Stats)
    requires |files| > 0 && IsMoved(moveFails)(files[0])
    requires CountsMoves(stats, files[1..], moveFails)
    ensures CountsMoves(CountMoved(stats, CategoryOf(files[0])), files, moveFails)
  {
    var c := CategoryOf(files[0]);
    CountHead(files, moveFails, c, Images);
    CountHead(files, moveFails, c, Pdfs);
    CountHead(files, moveFails, c, Videos);
    CountHead(files, moveFails, c, Other);
  }

  lemma CountHead(files: seq<string>, moveFails: string -> bool, c: Category, d: Category)
    requires |files| > 0 && IsMoved(moveFails)(files[0]) && CategoryOf(files[0]) == c
    ensures Seqs.Count(files, MovedInto(moveFails, d))
            == (if d == c then 1 else 0) + Seqs.Count(files[1..], MovedInto(moveFails, d))
  {
  }

  /** A move to a free name, followed by moves that avoid that name as well
      as everything already there, collides with nothing. */
  lemma PrependFresh(m: Move, moves: seq<Move>, folders: Folders)
    requires m.to !in folders(m.category)
    requires forall k :: 0 <= k < |moves| ==> moves[k].to !in Add(folders, m.category, m.to)(moves[k].category)
    requires forall i, j :: 0 <= i < j < |moves| && moves[i].category == moves[j].category ==> moves[i].to != moves[j].to
    ensures forall k :: 0 <= k < |[m] + moves| ==> ([m] + moves)[k].to !in folders(([m] + moves)[k].category)
    ensures forall i, j :: 0 <= i < j < |[m] + moves| && ([m] + moves)[i].category == ([m] + moves)[j].category ==>
      ([m] + moves)[i].to != ([m] + moves)[j].to
  {
    var all := [m] + moves;
    forall k | 0 <= k < |all| ensures all[k].to !in folders(all[k].category) {
      if k > 0 {
        assert all[k] == moves[k - 1];
      }
    }
    forall i, j | 0 <= i < j < |all| && all[i].category == all[j].category ensures all[i].to != all[j].to {
      assert all[j] == moves[j - 1];
      if i > 0 {
        assert all[i] == moves[i - 1];
      }
    }
  }

  datatype Outcome =
    | Missing
    | NotADirectory
    | NoFiles
    | Organized(moves: seq<Move>, stats: Stats)

  /** `organize_files`: checks the path, lists the candidates, and moves each. */
  function Organize(exists_: bool, isDir: bool, entries: seq<Entry>, scriptName: string,
                    folders: Folders, moveFails: string -> bool): (o: Outcome)
    ensures !exists_ ==> o == Missing
    ensures exists_ && !isDir ==> o == NotADirectory
    ensures o.NoFiles? <==> exists_ && isDir && Candidates(entries, scriptName) == []
    ensures o.Organized? ==> Total(o.stats) == |Candidates(entries, scriptName)|
    ensures o.Organized? ==> var files := Candidates(entries, scriptName);
      Seqs.Map(FromOf, o.moves) == Seqs.Filter(files, IsMoved(moveFails)) && CountsMoves(o.stats, files, moveFails)
  {
    if !exists_ then Missing
    else if !isDir then NotADirectory
    else
      var files := Candidates(entries, scriptName);
      if files == [] then NoFiles
      else
        var (moves, stats) := Process(files, folders, moveFails);
        Organized(moves, stats)
  }

  /** No move overwrites anything: every destination was free in its folder
      and no two moves share one; hidden names, directories and the script
      are never moved. */
  lemma NothingOverwritten(exists_: bool, isDir: bool, entries: seq<Entry>, scriptName: string,
                           folders: Folders, moveFails: string -> bool)
    requires Organize(exists_, isDir, entries, scriptName, folders, moveFails).Organized?
    ensures var moves := Organize(exists_, isDir, entries, scriptName, folders, moveFails).moves;
      (forall k :: 0 <= k < |moves| ==> moves[k].to !in folders(moves[k].category))
      && (forall i, j :: 0 <= i < j < |moves| && moves[i].category == moves[j].category ==> moves[i].to != moves[j].to)
      && (forall k :: 0 <= k < |moves| ==>
            !IsHidden(moves[k].from) && Entry(moves[k].from, true) in entries && moves[k].from != scriptName)
  {
  }
}

=== FILE: sections_api.dfy ===
/**
 The sections collection route: listing the caller's sections, oldest
 first, each with the number of notes filed under it, and creating a
 section with a default colour and icon.
 */
module SectionsApi {
  import opened Wrappers
  import Seqs
  import Sorting
  import Http
  import NotesApi

  datatype Section = Section(id: string, userId: string, name: string, color: string, icon: string, createdAt: int)

  /** A listed section with `_count.notes`. */
  datatype Listed = Listed(section: Section, noteCount: nat)

  /** The JSON body of a create request; `None` is a field that is absent or null. */
  datatype Body = Body(name: Option<string>, color: Option<string>, icon: Option<string>)

  const DefaultColor: string := "#3B82F6"
  const DefaultIcon: string := "\U{1F4DD}"

  predicate OwnedBy(uid: string, s: Section) {
    s.userId == uid
  }

  /** `OwnedBy` as a filter over the table. */
  function Owns(uid: string): Section -> bool {
    (s: Section) => OwnedBy(uid, s)
  }

  function SectionOf(l: Listed): Section {
    l.section
  }

  function CreatedAt(s: Section): int {
    s.createdAt
  }

  predicate FiledUnder(sectionId: string, n: NotesApi.Note) {
    n.sectionId == Some(sectionId)
  }

  /** Each section with the count of notes filed under it. */
  function WithCounts(sections: seq<Section>, notes: seq<NotesApi.Note>): (r: seq<Listed>)
    ensures |r| == |sections|
    ensures forall k :: 0 <= k < |r| ==>
      r[k].section == sections[k] && r[k].noteCount == Seqs.Count(notes, n => FiledUnder(sections[k].id, n))
  {
    seq(|sections|, k requires 0 <= k < |sections| => Listed(sections[k], Seqs.Count(notes, n => FiledUnder(sections[k].id, n))))
  }

  /** What a listing for `uid` promises: only the user's sections, every one
      of them, as often as the table holds it, oldest first, each with its
      note count. */
  predicate ListsOwned(uid: string, sections: seq<Section>, notes: seq<NotesApi.Note>, listed: seq<Listed>) {
    && (forall k :: 0 <= k < |listed| ==> listed[k].section.userId == uid && listed[k].section in sections)
    && (forall k :: 0 <= k < |sections| && sections[k].userId == uid ==>
          exists j :: 0 <= j < |listed| && listed[j].section == sections[k])
    && (forall i, j :: 0 <= i < j < |listed| ==> listed[i].section.createdAt <= listed[j].section.createdAt)
    && (forall k :: 0 <= k < |listed| ==>
          listed[k].noteCount == Seqs.Count(notes, n => FiledUnder(listed[k].section.id, n)))
    && |listed| == Seqs.Count(sections, Owns(uid))
    && multiset(Seqs.Map(SectionOf, listed)) == multiset(Seqs.Filter(sections, Owns(uid)))
  }

  /** The user's sections, oldest first, with their note counts. */
  function Listing(uid: string, sections: seq<Section>, notes: seq<NotesApi.Note>): seq<Listed> {
    WithCounts(Sorting.SortBy(Seqs.Filter(sections, Owns(uid)), CreatedAt), notes)
  }

  lemma ListingIsOwned(uid: string, sections: seq<Section>, notes: seq<NotesApi.Note>)
    ensures ListsOwned(uid, sections, notes, Listing(uid, sections, notes))
  {
    var owned := Seqs.Filter(sections, Owns(uid));
    var sorted := Sorting.SortBy(owned, CreatedAt);
    var listed := WithCounts(sorted, notes);
    SortedKeepsOwned(sorted, owned, sections, uid);
    ListingCounts(sections, uid, sorted, listed);
  }

  /** `GET`: 401 without a user; 500 when the query raises (`dbFails`);
      otherwise exactly the caller's sections, each as often as in the table,
      the oldest first, each with its note count. */
  function Get(userId: Option<string>, sections: seq<Section>, notes: seq<NotesApi.Note>, dbFails: bool)
    : (r: Http.Reply<seq<Listed>>)
    ensures !Truthy(userId) <==> r == Http.Failure(Http.Unauthorized, "Unauthorized")
    ensures Truthy(userId) && dbFails ==> r == Http.Failure(Http.ServerError, "Failed to fetch sections")
    ensures r.Json? <==> Truthy(userId) && !dbFails
    ensures r.Json? ==>
      (r.status == Http.Ok
       && (forall k :: 0 <= k < |r.value| ==> r.value[k].section.userId == userId.value && r.value[k].section in sections)
       && (forall k :: 0 <= k < |sections| && sections[k].userId == userId.value ==>
             exists j :: 0 <= j < |r.value| && r.value[j].section == sections[k])
       && (forall i, j :: 0 <= i < j < |r.value| ==> r.value[i].section.createdAt <= r.value[j].section.createdAt)
       && (forall k :: 0 <= k < |r.value| ==>
             r.value[k].noteCount == Seqs.Count(notes, n => FiledUnder(r.value[k].section.id, n))))
    ensures r.Json? ==> |r.value| == Seqs.Count(sections, Owns(userId.value))
    ensures r.Json? ==> multiset(Seqs.Map(SectionOf, r.value)) == multiset(Seqs.Filter(sections, Owns(userId.value)))
  {
    if !Truthy(userId) then Http.Failure(Http.Unauthorized, "Unauthorized")
    else if dbFails then Http.Failure(Http.ServerError, "Failed to fetch sections")
    else
      ListingIsOwned(userId.value, sections, notes);
      Http.Json(Http.Ok, Listing(userId.value, sections, notes))
  }

  /** A listing that carries a permutation of the owned sections lists each
      owned section exactly as often as the table holds it. */
  lemma ListingCounts(sections: seq<Section>, uid: string, sorted: seq<Section>, listed: seq<Listed>)
    requires multiset(sorted) == multiset(Seqs.Filter(sections, Owns(uid)))
    requires |listed| == |sorted| && forall k :: 0 <= k < |listed| ==> listed[k].section == sorted[k]
    ensures |listed| == Seqs.Count(sections, Owns(uid))
    ensures multiset(Seqs.Map(SectionOf, listed)) == multiset(Seqs.Filter(sections, Owns(uid)))
  {
    Seqs.CountIsFilterLength(sections, Owns(uid));
    assert |sorted| == |Seqs.Filter(sections, Owns(uid))|;
    assert Seqs.Map(SectionOf, listed) == sorted;
  }

  lemma SortedKeepsOwned(sorted: seq<Section>, owned: seq<Section>, sections: seq<Section>, uid: string)
    requires owned == Seqs.Filter(sections, Owns(uid))
    requires multiset(sorted) == multiset(owned)
    ensures forall k :: 0 <= k < |sorted| ==> sorted[k].userId == uid && sorted[k] in sections
    ensures forall k :: 0 <= k < |sections| && sections[k].userId == uid ==> sections[k] in sorted
  {
    forall k | 0 <= k < |sorted| ensures sorted[k].userId == uid && sorted[k] in sections {
      assert sorted[k] in multiset(owned);
    }
    forall k | 0 <= k < |sections| && sections[k].userId == uid ensures sections[k] in sorted {
      assert sections[k] in multiset(sorted);
    }
  }

  /** The row `POST` inserts: the name from the body, the owner from
      authentication, and falsy colour or icon replaced by the defaults. */
  function NewSection(id: string, userId: string, name: string, body: Body, now: int): (s: Section)
    ensures s.id == id && s.userId == userId && s.name == name && s.createdAt == now
    ensures s.color == OrElse(body.color, DefaultColor) && s.icon == OrElse(body.icon, DefaultIcon)
  {
    Section(id, userId, name, OrElse(body.color, DefaultColor), OrElse(body.icon, DefaultIcon), now)
  }

  /** `POST`: 401 without a user, 500 when the body is not JSON, 400 without
      a name, 500 when the insert raises (`dbFails`); otherwise the new
      section, appended to the table. Nothing is written on failure. The
      database chooses the id. */
  function Post(userId: Option<string>, body: Option<Body>, sections: seq<Section>, newId: string, now: int,
                dbFails: bool)
    : (r: (Http.Reply<Section>, seq<Section>))
    ensures !Truthy(userId) ==> r == (Http.Failure(Http.Unauthorized, "Unauthorized"), sections)
    ensures r.0.Failure? && r.0.status == Http.BadRequest <==> Truthy(userId) && body.Some? && !Truthy(body.value.name)
    ensures r.0.Failure? ==> r.1 == sections
    ensures r.0.Json? ==>
      (r.0.status == Http.Created && Truthy(userId) && body.Some? && Truthy(body.value.name)
       && r.0.value == NewSection(newId, userId.value, body.value.name.value, body.value, now)
       && r.1 == sections + [r.0.value])
    ensures Truthy(userId) && body.None? ==> r == (Http.Failure(Http.ServerError, "Failed to create section"), sections)
    ensures Truthy(userId) && body.Some? && Truthy(body.value.name) && dbFails ==>
      r == (Http.Failure(Http.ServerError, "Failed to create section"), sections)
    ensures Truthy(userId) && body.Some? && Truthy(body.value.name) && !dbFails ==>
      r.0 == Http.Json(Http.Created, NewSection(newId, userId.value, body.value.name.value, body.value, now))
  {
    if !Truthy(userId) then (Http.Failure(Http.Unauthorized, "Unauthorized"), sections)
    else if body.None? then (Http.Failure(Http.ServerError, "Failed to create section"), sections)
    else if !Truthy(body.value.name) then (Http.Failure(Http.BadRequest, "Section name is required"), sections)
    else if dbFails then (Http.Failure(Http.ServerError, "Failed to create section"), sections)
    else
      var section := NewSection(newId, userId.value, body.value.name.value, body.value, now);
      (Http.Json(Http.Created, section), sections + [section])
  }

  /** A new section is listed for its owner with no notes under it, as long
      as no note already names its id. */
  lemma CreatedSectionIsListed(userId: Option<string>, body: Body, sections: seq<Section>, newId: string, now: int,
                               notes: seq<NotesApi.Note>)
    requires Truthy(userId) && Truthy(body.name)
    requires forall k :: 0 <= k < |notes| ==> notes[k].sectionId != Some(newId)
    ensures var (reply, sections') := Post(userId, Some(body), sections, newId, now, false);
      exists j :: 0 <= j < |Get(userId, sections', notes, false).value|
        && Get(userId, sections', notes, false).value[j] == Listed(reply.value, 0)
  {
    var s := NewSection(newId, userId.value, body.name.value, body, now);
    var (reply, sections') := Post(userId, Some(body), sections, newId, now, false);
    assert reply == Http.Json(Http.Created, s) && sections' == sections + [s];
    assert sections'[|sections|] == s && s.userId == userId.value;
    ListedWithoutNotes(Get(userId, sections', notes, false).value, s, notes);
  }

  /** A listed section that no note names is listed with a count of 0. */
  lemma ListedWithoutNotes(listed: seq<Listed>, s: Section, notes: seq<NotesApi.Note>)
    requires exists j :: 0 <= j < |listed| && listed[j].section == s
    requires forall k :: 0 <= k < |listed| ==>
      listed[k].noteCount == Seqs.Count(notes, n => FiledUnder(listed[k].section.id, n))
    requires forall k :: 0 <= k < |notes| ==> notes[k].sectionId != Some(s.id)
    ensures exists j :: 0 <= j < |listed| && listed[j] == Listed(s, 0)
  {
    var j :| 0 <= j < |listed| && listed[j].section == s;
    assert listed[j].noteCount == Seqs.Count(notes, n => FiledUnder(s.id, n));
  }
}

=== FILE: seqs.dfy ===
/** Order-preserving filtering and counting over sequences, the shape of
    JavaScript's `Array.prototype.filter` and of a database `where` clause. */
module Seqs {

  /** `a` can be obtained from `b` by deleting elements. */
  predicate IsSubsequence<T(==)>(a: seq<T>, b: seq<T>)
    decreases |b|
  {
    |a| == 0 || (|b| > 0 && if a[0] == b[0] then IsSubsequence(a[1..], b[1..]) else IsSubsequence(a, b[1..]))
  }

  /** The elements of `s` satisfying `p`, in their original order. */
  function Filter<T(==)>(s: seq<T>, p: T -> bool): (r: seq<T>)
    ensures forall k :: 0 <= k < |r| ==> p(r[k]) && r[k] in s
    ensures forall k :: 0 <= k < |s| && p(s[k]) ==> s[k] in r
    ensures IsSubsequence(r, s)
    ensures |r| <= |s|
    decreases |s|
  {
    if |s| == 0 then []
    else
      var rest := Filter(s[1..], p);
      assert forall k :: 1 <= k < |s| ==> s[k] == s[1..][k - 1];
      if p(s[0]) then [s[0]] + rest else rest
  }

  /** Filtering with a predicate every element satisfies keeps everything. */
  lemma {:induction false} FilterAll<T>(s: seq<T>, p: T -> bool)
    requires forall k :: 0 <= k < |s| ==> p(s[k])
    ensures Filter(s, p) == s
    decreases |s|
  {
    if |s| > 0 {
      assert forall k :: 0 <= k < |s| - 1 ==> s[1..][k] == s[k + 1];
      FilterAll(s[1..], p);
      FilterCons(s[0], s[1..], p);
      ConsSplit(s);
    }
  }

  /** `f` applied to every element, in order. */
  function Map<A, B>(f: A -> B, s: seq<A>): (r: seq<B>)
    ensures |r| == |s|
    ensures forall k :: 0 <= k < |s| ==> r[k] == f(s[k])
  {
    seq(|s|, k requires 0 <= k < |s| => f(s[k]))
  }

  /** Concatenation regroups freely. */
  lemma AppendAssoc<T>(a: seq<T>, b: seq<T>, c: seq<T>)
    ensures a + (b + c) == (a + b) + c
  {
  }

  /** Dropping the head of a mapped sequence maps the tail. */
  lemma MapTail<A, B>(f: A -> B, s: seq<A>)
    requires |s| > 0
    ensures Map(f, s)[1..] == Map(f, s[1..])
  {
  }

  lemma MapCons<A, B>(f: A -> B, x: A, s: seq<A>)
    ensures Map(f, [x] + s) == [f(x)] + Map(f, s)
  {
  }

  /** Filtering one element in front of the rest. */
  lemma FilterCons<T>(x: T, s: seq<T>, p: T -> bool)
    ensures Filter([x] + s, p) == if p(x) then [x] + Filter(s, p) else Filter(s, p)
  {
    assert ([x] + s)[1..] == s;
  }

  /** Filtering before a map that cannot turn a rejected element into an
      accepted one is redundant when the result is filtered again; `h` is
      `f` followed by `g`. */
  lemma {:induction false} FilterMapFilter<A, B>(f: A -> B, g: B -> B, h: A -> B, p: B -> bool, s: seq<A>)
    requires forall k :: 0 <= k < |s| ==> h(s[k]) == g(f(s[k])) && (p(g(f(s[k]))) ==> p(f(s[k])))
    ensures Filter(Map(g, Filter(Map(f, s), p)), p) == Filter(Map(h, s), p)
    decreases |s|
  {
    if |s| > 0 {
      assert forall k :: 0 <= k < |s| - 1 ==> s[1..][k] == s[k + 1];
      FilterMapFilter(f, g, h, p, s[1..]);
      FilterMapFilterStep(f, g, h, p, s[0], s[1..]);
      ConsSplit(s);
    }
  }

  lemma ConsSplit<T>(s: seq<T>)
    requires |s| > 0
    ensures [s[0]] + s[1..] == s
  {
  }

  lemma FilterMapFilterStep<A, B>(f: A -> B, g: B -> B, h: A -> B, p: B -> bool, x: A, rest: seq<A>)
    requires h(x) == g(f(x))
    requires !p(f(x)) ==> !p(g(f(x)))
    requires Filter(Map(g, Filter(Map(f, rest), p)), p) == Filter(Map(h, rest), p)
    ensures Filter(Map(g, Filter(Map(f, [x] + rest), p)), p) == Filter(Map(h, [x] + rest), p)
  {
    var F := Filter(Map(f, rest), p);
    MapCons(f, x, rest);
    MapCons(h, x, rest);
    FilterCons(f(x), Map(f, rest), p);
    FilterCons(h(x), Map(h, rest), p);
    if p(f(x)) {
      MapCons(g, f(x), F);
      FilterCons(g(f(x)), Map(g, F), p);
    }
  }

  /** Filtering a concatenation filters each part. */
  lemma {:induction false} FilterAppend<T>(a: seq<T>, b: seq<T>, p: T -> bool)
    ensures Filter(a + b, p) == Filter(a, p) + Filter(b, p)
    decreases |a|
  {
    if |a| == 0 {
      assert a + b == b;
    } else {
      assert (a + b)[1..] == a[1..] + b;
      FilterAppend(a[1..], b, p);
    }
  }

  /** The positions of the elements satisfying `p`, in increasing order:
      increasing positions of qualifying elements, as many as there are. */
  function Positions<T>(s: seq<T>, p: T -> bool): (r: seq<nat>)
    ensures forall k :: 0 <= k < |r| ==> r[k] < |s| && p(s[r[k]])
    ensures forall k, m :: 0 <= k < m < |r| ==> r[k] < r[m]
    ensures |r| == Count(s, p)
    decreases |s|
  {
    if |s| == 0 then []
    else
      var t := Positions(s[1..], p);
      ShiftUpPositions(s, p, t);
      (if p(s[0]) then [0] else []) + ShiftUp(t)
  }

  /** Increasing positions of qualifying elements in the tail, shifted up,
      are increasing positive positions of qualifying elements in `s`. */
  lemma ShiftUpPositions<T>(s: seq<T>, p: T -> bool, t: seq<nat>)
    requires |s| > 0
    requires forall k :: 0 <= k < |t| ==> t[k] < |s[1..]| && p(s[1..][t[k]])
    requires forall k, m :: 0 <= k < m < |t| ==> t[k] < t[m]
    ensures var u := ShiftUp(t);
      && (forall k :: 0 <= k < |u| ==> 0 < u[k] < |s| && p(s[u[k]]))
      && (forall k, m :: 0 <= k < m < |u| ==> u[k] < u[m])
  {
    var u := ShiftUp(t);
    forall k | 0 <= k < |u|
      ensures 0 < u[k] < |s| && p(s[u[k]])
    {
      assert s[u[k]] == s[1..][t[k]];
    }
  }

  /** Every position moved one place to the right. */
  function ShiftUp(t: seq<nat>): (r: seq<nat>)
    ensures |r| == |t| && forall k :: 0 <= k < |t| ==> r[k] == t[k] + 1
  {
    seq(|t|, k requires 0 <= k < |t| => t[k] + 1)
  }

  /** The positions in `s` are those of its tail shifted by one, after 0 when
      the head qualifies. */
  lemma PositionsCons<T>(s: seq<T>, p: T -> bool)
    requires |s| > 0
    ensures var d := if p(s[0]) then 1 else 0;
      |Positions(s, p)| == d + |Positions(s[1..], p)|
      && (d == 1 ==> Positions(s, p)[0] == 0)
      && forall k :: 0 <= k < |Positions(s[1..], p)| ==> Positions(s, p)[d + k] == Positions(s[1..], p)[k] + 1
  {
    var t := Positions(s[1..], p);
    if p(s[0]) {
      assert Positions(s, p) == [0] + ShiftUp(t);
    } else {
      assert Positions(s, p) == [] + ShiftUp(t);
    }
  }

  /** `f` of the suffix starting at each element satisfying `p`, in order. */
  function Collect<T, U>(s: seq<T>, p: T -> bool, f: seq<T> -> U): seq<U>
    decreases |s|
  {
    if |s| == 0 then []
    else (if p(s[0]) then [f(s)] else []) + Collect(s[1..], p, f)
  }

  /** The `k`-th collected value comes from the suffix at the `k`-th position. */
  lemma {:induction false} CollectAtPositions<T, U>(s: seq<T>, p: T -> bool, f: seq<T> -> U)
    ensures |Collect(s, p, f)| == |Positions(s, p)|
    ensures forall k :: 0 <= k < |Positions(s, p)| ==> Collect(s, p, f)[k] == f(s[Positions(s, p)[k]..])
    decreases |s|
  {
    if |s| > 0 {
      CollectAtPositions(s[1..], p, f);
      PositionsCons(s, p);
      var c, rest := Collect(s, p, f), Collect(s[1..], p, f);
      var h, t := Positions(s, p), Positions(s[1..], p);
      var d := if p(s[0]) then 1 else 0;
      var head := if p(s[0]) then [f(s)] else [];
      assert c == head + rest;
      forall k | 0 <= k < |h| ensures c[k] == f(s[h[k]..]) {
        if k >= d {
          assert c[k] == rest[k - d] && h[k] == t[k - d] + 1;
          assert s[1..][t[k - d]..] == s[t[k - d] + 1..];
        }
      }
    }
  }

  /** Number of elements of `s` satisfying `p`. */
  function Count<T>(s: seq<T>, p: T -> bool): (n: nat)
    ensures n <= |s|
    ensures n == 0 <==> forall k :: 0 <= k < |s| ==> !p(s[k])
    decreases |s|
  {
    if |s| == 0 then 0
    else
      assert forall k :: 1 <= k < |s| ==> s[k] == s[1..][k - 1];
      (if p(s[0]) then 1 else 0) + Count(s[1..], p)
  }

  /** The count is the length of the filtered sequence. */
  lemma {:induction false} CountIsFilterLength<T>(s: seq<T>, p: T -> bool)
    ensures Count(s, p) == |Filter(s, p)|
    decreases |s|
  {
    if |s| > 0 {
      CountIsFilterLength(s[1..], p);
    }
  }
}

=== FILE: sorting.dfy ===
/**
 Ordering of query results by an integer key, standing in for the database's
 `orderBy`. The sort is a functional insertion sort: the result is a
 permutation of the input, ordered by the key.
 */
module Sorting {

  /** Keys never decrease from left to right. */
  predicate SortedBy<T>(s: seq<T>, key: T -> int) {
    forall i, j :: 0 <= i < j < |s| ==> key(s[i]) <= key(s[j])
  }

  /** Inserts `x` in front of the first element whose key is at least
      `key(x)`, so `x` lands before the elements with an equal key. */
  function InsertBy<T(==)>(x: T, s: seq<T>, key: T -> int): (r: seq<T>)
    requires SortedBy(s, key)
    ensures SortedBy(r, key)
    ensures multiset(r) == multiset(s) + multiset{x}
    ensures |r| == |s| + 1
  {
    if |s| == 0 then [x]
    else if key(x) <= key(s[0]) then [x] + s
    else
      var tail := InsertBy(x, s[1..], key);
      HeadBelowTail(x, s, tail, key);
      assert s == [s[0]] + s[1..];
      [s[0]] + tail
  }

  /** The head of a sorted `s` is no larger than anything in `s[1..]` with `x` added. */
  lemma HeadBelowTail<T>(x: T, s: seq<T>, tail: seq<T>, key: T -> int)
    requires |s| > 0 && SortedBy(s, key) && key(s[0]) < key(x)
    requires SortedBy(tail, key)
    requires multiset(tail) == multiset(s[1..]) + multiset{x}
    ensures SortedBy([s[0]] + tail, key)
  {
    forall i | 0 <= i < |tail| ensures key(s[0]) <= key(tail[i]) {
      assert tail[i] in multiset(tail);
      if tail[i] != x {
        assert tail[i] in multiset(s[1..]);
        var k :| 0 <= k < |s[1..]| && s[1..][k] == tail[i];
        assert s[k + 1] == tail[i];
      }
    }
  }

  /** `s` ordered by `key`, smallest first. */
  function SortBy<T(==)>(s: seq<T>, key: T -> int): (r: seq<T>)
    ensures SortedBy(r, key)
    ensures multiset(r) == multiset(s)
    ensures |r| == |s|
  {
    if |s| == 0 then []
    else
      assert s == [s[0]] + s[1..];
      InsertBy(s[0], SortBy(s[1..], key), key)
  }
}

=== FILE: summarize_route.dfy ===
/**
 The route that summarises a voice transcript: authentication, configuration
 and input checks in a fixed order, the prompt sent to the model, and the
 title derived from the transcript when none is given. Authentication, the
 environment and the model are inputs.
 */
module SummarizeRoute {
  import opened Wrappers
  import Text
  import Http

  /** The JSON body's fields; `None` is a field that is absent or null. */
  datatype Body = Body(text: Option<string>, title: Option<string>)

  datatype Summary = Summary(summary: string, title: string)

  const TitleLength: nat := 100
  const DefaultTitle: string := "Voice Note"

  predicate IsTerminator(c: char) {
    c == '.' || c == '!' || c == '?'
  }

  /** `text.split(/[.!?]/)[0]`: the text up to its first sentence terminator. */
  function FirstSentence(text: string): (r: string)
    ensures Text.StartsWith(text, r)
    ensures forall k :: 0 <= k < |r| ==> !IsTerminator(r[k])
    ensures |r| < |text| ==> IsTerminator(text[|r|])
    decreases |text|
  {
    if |text| == 0 || IsTerminator(text[0]) then ""
    else
      var rest := FirstSentence(text[1..]);
      assert text[1..][..|rest|] == rest;
      [text[0]] + rest
  }

  /** `extractTitleFromText`: the first sentence, trimmed, cut at 100
      characters, or "Voice Note" when nothing is left. */
  function ExtractTitle(text: string): (t: string)
    ensures t != "" && |t| <= TitleLength
    ensures forall k :: 0 <= k < |t| ==> !IsTerminator(t[k])
    ensures Text.IsJsBlank(FirstSentence(text)) ==> t == DefaultTitle
    ensures !Text.IsJsBlank(FirstSentence(text)) ==>
      Text.StartsWith(Text.JsTrim(FirstSentence(text)), t) && (|t| == TitleLength || t == Text.JsTrim(FirstSentence(text)))
  {
    var trimmed := Text.JsTrim(FirstSentence(text));
    var title := Text.Take(trimmed, TitleLength);
    if title != "" then
      SentenceTrimmed(text);
      title
    else
      DefaultTitleIsSentence();
      DefaultTitle
  }

  lemma SentenceTrimmed(text: string)
    ensures forall k :: 0 <= k < |Text.JsTrim(FirstSentence(text))| ==> !IsTerminator(Text.JsTrim(FirstSentence(text))[k])
  {
    var first := FirstSentence(text);
    Text.TrimChars(first, Text.IsJsSpace);
  }

  lemma DefaultTitleIsSentence()
    ensures |DefaultTitle| == 10 && forall k :: 0 <= k < |DefaultTitle| ==> !IsTerminator(DefaultTitle[k])
  {
  }

  /** A short, trimmed first sentence is the title, whatever follows its terminator. */
  lemma TitleOfFirstSentence(sentence: string, terminator: char, rest: string)
    requires 0 < |sentence| <= TitleLength && Text.JsTrim(sentence) == sentence
    requires forall k :: 0 <= k < |sentence| ==> !IsTerminator(sentence[k])
    requires IsTerminator(terminator)
    ensures ExtractTitle(sentence + [terminator] + rest) == sentence
  {
    var text := sentence + [terminator] + rest;
    SentenceBeforeTerminator(sentence, terminator, rest);
    assert FirstSentence(text) == sentence;
  }

  lemma {:induction false} SentenceBeforeTerminator(sentence: string, terminator: char, rest: string)
    requires forall k :: 0 <= k < |sentence| ==> !IsTerminator(sentence[k])
    requires IsTerminator(terminator)
    ensures FirstSentence(sentence + [terminator] + rest) == sentence
    decreases |sentence|
  {
    var text := sentence + [terminator] + rest;
    if |sentence| > 0 {
      assert text[1..] == sentence[1..] + [terminator] + rest;
      SentenceBeforeTerminator(sentence[1..], terminator, rest);
      assert sentence == [sentence[0]] + sentence[1..];
    }
  }

  const Instructions: string := "Summarize the following transcript"

  /** The user message: it names the title, in quotes, when one is given. */
  function Prompt(text: string, title: Option<string>): (p: string)
    ensures Truthy(title) ==> p == Instructions + " about \"" + title.value + "\":\n\n" + text
    ensures !Truthy(title) ==> p == Instructions + ":\n\n" + text
  {
    if Truthy(title) then Instructions + " about \"" + title.value + "\":\n\n" + text
    else Instructions + ":\n\n" + text
  }

  /** The two prompt forms differ right after the instruction, so the model
      can tell whether a title was given. */
  lemma PromptShowsTitle(text: string, title: Option<string>)
    ensures var p := Prompt(text, title);
      |p| > |Instructions| && (p[|Instructions|] == ' ' <==> Truthy(title))
  {
    var p := Prompt(text, title);
    if Truthy(title) {
      assert p == Instructions + (" about \"" + title.value + "\":\n\n" + text);
    } else {
      assert p == Instructions + (":\n\n" + text);
    }
  }

  /** `POST`: 401 without a user, 500 without an API key, 500 when the body
      is not JSON, 400 without non-blank text, 500 when the model fails or
      returns nothing; otherwise the summary and a title. */
  function Post(userId: Option<string>, apiKey: Option<string>, body: Option<Body>,
                complete: string -> Http.Completion): (r: Http.Reply<Summary>)
    ensures !Truthy(userId) ==> r == Http.Failure(Http.Unauthorized, "Unauthorized")
    ensures Truthy(userId) && !Truthy(apiKey) ==> r == Http.Failure(Http.ServerError, "OpenAI API key not configured")
    ensures r.Failure? && r.status == Http.BadRequest <==>
      (Truthy(userId) && Truthy(apiKey) && body.Some? && (body.value.text.None? || Text.IsJsBlank(body.value.text.value)))
    ensures r.Json? ==>
      (r.status == Http.Ok && body.Some? && body.value.text.Some?
       && !Text.IsJsBlank(body.value.text.value)
       && complete(Prompt(body.value.text.value, body.value.title)) == Http.Completed(Some(r.value.summary))
       && r.value.summary != ""
       && r.value.title == OrElse(body.value.title, ExtractTitle(body.value.text.value)))
    ensures Truthy(userId) && Truthy(apiKey) && body.None? ==>
      r == Http.Failure(Http.ServerError, "Failed to generate summary. Please try again.")
    ensures Truthy(userId) && Truthy(apiKey) && body.Some? && Truthy(body.value.text)
            && !Text.IsJsBlank(body.value.text.value) ==>
      var text := body.value.text.value;
      match complete(Prompt(text, body.value.title))
      case Threw => r == Http.Failure(Http.ServerError, "Failed to generate summary. Please try again.")
      case Completed(c) =>
        Truthy(c) ==> r == Http.Json(Http.Ok, Summary(c.value, OrElse(body.value.title, ExtractTitle(text))))
  {
    if !Truthy(userId) then Http.Failure(Http.Unauthorized, "Unauthorized")
    else if !Truthy(apiKey) then Http.Failure(Http.ServerError, "OpenAI API key not configured")
    else if body.None? then Http.Failure(Http.ServerError, "Failed to generate summary. Please try again.")
    else if !Truthy(body.value.text) || Text.IsJsBlank(body.value.text.value) then
      Http.Failure(Http.BadRequest, "Text is required")
    else
      var text := body.value.text.value;
      match complete(Prompt(text, body.value.title))
      case Threw => Http.Failure(Http.ServerError, "Failed to generate summary. Please try again.")
      case Completed(content) =>
        if !Truthy(content) then Http.Failure(Http.ServerError, "Failed to generate summary")
        else Http.Json(Http.Ok, Summary(content.value, OrElse(body.value.title, ExtractTitle(text))))
  }

  /** A reply without content never reaches the client as a summary; once
      the user, the key and the text have passed their checks, it is the
      500 "Failed to generate summary". */
  lemma EmptyCompletionFails(userId: Option<string>, apiKey: Option<string>, body: Option<Body>,
                             complete: string -> Http.Completion)
    requires body.Some? && body.value.text.Some?
    requires complete(Prompt(body.value.text.value, body.value.title)) in {Http.Completed(None), Http.Completed(Some(""))}
    ensures Post(userId, apiKey, body, complete).Failure?
    ensures Truthy(userId) && Truthy(apiKey) && !Text.IsJsBlank(body.value.text.value) ==>
      Post(userId, apiKey, body, complete) == Http.Failure(Http.ServerError, "Failed to generate summary")
  {
  }
}

=== FILE: summary_background.dfy ===
/**
 The summary extension's background worker: when it builds its API client,
 how it answers a summary request, and how the model's answer becomes
 bullet points. The API client is reduced to the key it was built with, and
 the completion call to an oracle from prompt to outcome.
 */
module SummaryWorker {
  import opened Wrappers
  import Text
  import Seqs

  /** `initializeOpenAI(apiKey)`: a present, non-blank key (re)builds the
      client; anything else reports failure and keeps the client there is. */
  function Initialize(client: Option<string>, apiKey: Option<string>): (r: (Option<string>, bool))
    ensures r.1 <==> apiKey.Some? && !Text.IsJsBlank(apiKey.value)
    ensures r.1 ==> r.0 == apiKey
    ensures !r.1 ==> r.0 == client
  {
    if Truthy(apiKey) && !Text.IsJsBlank(apiKey.value) then (apiKey, true) else (client, false)
  }

  /** The stored-key listener at start-up. */
  function OnStartup(client: Option<string>, storedKey: Option<string>): (c: Option<string>)
    ensures Truthy(storedKey) && !Text.IsJsBlank(storedKey.value) ==> c == storedKey
    ensures !(Truthy(storedKey) && !Text.IsJsBlank(storedKey.value)) ==> c == client
  {
    if Truthy(storedKey) then Initialize(client, storedKey).0 else client
  }

  /** A storage change: `newValue` is the key's new value, `None` when it was removed. */
  datatype Change = Change(newValue: Option<string>)

  /** The storage listener: only local changes to the key re-initialise. */
  function OnStorageChanged(client: Option<string>, area: string, change: Option<Change>): (c: Option<string>)
    ensures area != "local" || change.None? ==> c == client
    ensures area == "local" && change.Some? ==> c == Initialize(client, change.value.newValue).0
  {
    if area == "local" && change.Some? then Initialize(client, change.value.newValue).0 else client
  }

  /** Removing the key does not drop a client already built: requests keep
      being served with the old key. */
  lemma RemovedKeyKeepsClient(key: string)
    requires !Text.IsJsBlank(key)
    ensures OnStorageChanged(Some(key), "local", Some(Change(None))) == Some(key)
  {
  }

  const MaxChars: nat := 8000

  /** The page text sent to the model: at most 8000 characters, then "...". */
  function TruncatePage(pageText: string): (t: string)
    ensures |pageText| <= MaxChars ==> t == pageText
    ensures |pageText| > MaxChars ==> t == pageText[..MaxChars] + "..."
  {
    var t := Text.Ellipsize(pageText, MaxChars);
    assert |pageText| > MaxChars ==> t == t[..MaxChars] + t[MaxChars..];
    t
  }

  const Instructions: string :=
    "Please provide a concise summary of the following webpage content. Format your response as a bulleted list with 3-5 key points. Be clear and informative."

  /** The one user message sent to the model. */
  function Prompt(pageTitle: string, url: string, pageText: string): string {
    Instructions + "\n\nTitle: " + pageTitle + "\nURL: " + url + "\n\nContent:\n" + TruncatePage(pageText) + "\n\nSummary:"
  }

  /** A bullet marker at the start of a line. */
  predicate IsMarker(c: char) {
    c == '-' || c == '\U{2022}' || c == '*'
  }

  /** Removing the pattern `^[-•*]\s*`: one leading marker and the white space after it. */
  function StripMarker(line: string): (r: string)
    ensures |line| > 0 && IsMarker(line[0]) ==> r == Text.TrimStart(line[1..], Text.IsJsSpace)
    ensures !(|line| > 0 && IsMarker(line[0])) ==> r == line
    ensures |r| <= |line| && r == line[|line| - |r|..]
  {
    if |line| > 0 && IsMarker(line[0]) then Text.TrimStart(line[1..], Text.IsJsSpace) else line
  }

  predicate NonEmpty(s: string) {
    s != ""
  }

  /** The bullet-point pipeline: split into lines, trim, drop empty, strip a
      marker, drop empty. */
  function Bullets(summary: string): (bs: seq<string>)
    ensures forall k :: 0 <= k < |bs| ==> bs[k] != ""
    ensures |bs| <= |Text.Split(summary, '\n')|
  {
    Seqs.Filter(Seqs.Map(StripMarker, Seqs.Filter(Seqs.Map(Text.JsTrim, Text.Split(summary, '\n')), NonEmpty)), NonEmpty)
  }

  /** The whole line treatment at once: trim, then strip a marker. */
  function Clean(line: string): string {
    StripMarker(Text.JsTrim(line))
  }

  /** The first filter changes nothing: a line left empty by trimming stays
      empty after marker stripping, and the second filter drops it anyway. */
  lemma PipelineIsOnePass(lines: seq<string>)
    ensures Seqs.Filter(Seqs.Map(StripMarker, Seqs.Filter(Seqs.Map(Text.JsTrim, lines), NonEmpty)), NonEmpty)
      == Seqs.Filter(Seqs.Map(Clean, lines), NonEmpty)
  {
    assert StripMarker("") == "";
    assert forall k :: 0 <= k < |lines| ==> Clean(lines[k]) == StripMarker(Text.JsTrim(lines[k]));
    Seqs.FilterMapFilter(Text.JsTrim, StripMarker, Clean, NonEmpty, lines);
  }

  /** Each bullet is one line's text without surrounding white space and
      without its marker; lines are kept in order. */
  lemma BulletsOfLines(lines: seq<string>)
    requires |lines| >= 1 && forall k :: 0 <= k < |lines| ==> '\n' !in lines[k]
    ensures Bullets(Text.Join(lines, "\n")) == Seqs.Filter(Seqs.Map(Clean, lines), NonEmpty)
  {
    Text.SplitJoin(lines, '\n');
    PipelineIsOnePass(lines);
  }

  /** A bullet never begins or ends with white space. */
  lemma BulletsAreTrimmed(summary: string)
    ensures forall k :: 0 <= k < |Bullets(summary)| ==>
      !Text.IsJsSpace(Bullets(summary)[k][0]) && !Text.IsJsSpace(Bullets(summary)[k][|Bullets(summary)[k]| - 1])
  {
    var lines := Text.Split(summary, '\n');
    BulletsOnePass(summary);
    CleanedAreTrimmed(lines);
    forall k | 0 <= k < |Bullets(summary)| ensures Trimmed(Bullets(summary)[k]) {
      assert Bullets(summary)[k] in Bullets(summary);
    }
  }

  lemma BulletsOnePass(summary: string)
    ensures Bullets(summary) == Seqs.Filter(Seqs.Map(Clean, Text.Split(summary, '\n')), NonEmpty)
  {
    PipelineIsOnePass(Text.Split(summary, '\n'));
  }

  /** Every kept cleaned line is trimmed. */
  lemma CleanedAreTrimmed(lines: seq<string>)
    ensures forall b :: b in Seqs.Filter(Seqs.Map(Clean, lines), NonEmpty) ==> Trimmed(b)
  {
    forall b | b in Seqs.Filter(Seqs.Map(Clean, lines), NonEmpty) ensures Trimmed(b) {
      CleanedIsTrimmed(lines, b);
    }
  }

  /** Neither end of a non-empty string is white space. */
  predicate Trimmed(b: string) {
    |b| > 0 && !Text.IsJsSpace(b[0]) && !Text.IsJsSpace(b[|b| - 1])
  }

  /** A kept cleaned line is trimmed. */
  lemma CleanedIsTrimmed(lines: seq<string>, b: string)
    requires b in Seqs.Filter(Seqs.Map(Clean, lines), NonEmpty)
    ensures Trimmed(b)
  {
    var cleaned := Seqs.Map(Clean, lines);
    assert b in cleaned && b != "";
    var j :| 0 <= j < |cleaned| && cleaned[j] == b;
    assert b == Clean(lines[j]);
    CleanIsTrimmed(lines[j]);
  }

  lemma CleanIsTrimmed(line: string)
    requires Clean(line) != ""
    ensures Trimmed(Clean(line))
  {
    var t := Text.JsTrim(line);
    var c := Clean(line);
    assert c == t[|t| - |c|..];
    assert c[|c| - 1] == t[|t| - 1];
    if IsMarker(t[0]) {
      assert c == Text.TrimStart(t[1..], Text.IsJsSpace);
    }
  }

  /** The model's reply, as the completion call resolves or rejects. */
  datatype Outcome = Answered(content: Option<string>) | Rejected(message: Option<string>)

  datatype Response =
    | Summarised(bulletPoints: seq<string>, fullText: string)
    | Failed(error: string)

  const Unavailable: string := "Unable to generate summary."
  const FailedMessage: string := "Failed to generate summary. Please check your API key and try again."
  const NotConfigured: string := "OpenAI API key not configured. Please add your API key in the extension popup."

  /** `generateSummary`: asks the model about the truncated page and answers
      with its bullets, or with the whole reply as the one bullet when no
      line survives. */
  function GenerateSummary(pageText: string, pageTitle: string, url: string, complete: string -> Outcome): (r: Response)
    ensures complete(Prompt(pageTitle, url, pageText)).Answered? <==> r.Summarised?
    ensures r.Summarised? ==>
      (|r.bulletPoints| > 0
       && r.fullText == OrElse(complete(Prompt(pageTitle, url, pageText)).content, Unavailable)
       && r.bulletPoints == (if |Bullets(r.fullText)| > 0 then Bullets(r.fullText) else [r.fullText]))
    ensures r.Failed? ==> r.error == OrElse(complete(Prompt(pageTitle, url, pageText)).message, FailedMessage)
  {
    match complete(Prompt(pageTitle, url, pageText))
    case Rejected(message) => Failed(OrElse(message, FailedMessage))
    case Answered(content) =>
      var text := OrElse(content, Unavailable);
      var bullets := Bullets(text);
      Summarised(if |bullets| > 0 then bullets else [text], text)
  }

  /** The message listener for `generateSummary`: without a client, the
      stored key is tried first; with neither, the fixed "not configured"
      error. Returns the response and the client afterwards. */
  function OnGenerate(client: Option<string>, storedKey: Option<string>,
                      pageText: string, pageTitle: string, url: string,
                      complete: string -> Outcome): (r: (Response, Option<string>))
    ensures client.Some? ==> r == (GenerateSummary(pageText, pageTitle, url, complete), client)
    ensures client.None? && (storedKey.None? || Text.IsJsBlank(storedKey.value)) ==>
      r == (Failed(NotConfigured), None)
    ensures client.None? && storedKey.Some? && !Text.IsJsBlank(storedKey.value) ==>
      r == (GenerateSummary(pageText, pageTitle, url, complete), storedKey)
  {
    if client.Some? then (GenerateSummary(pageText, pageTitle, url, complete), client)
    else
      var (c, ok) := Initialize(client, storedKey);
      if Truthy(storedKey) && ok then (GenerateSummary(pageText, pageTitle, url, complete), c)
      else (Failed(NotConfigured), c)
  }

  /** A reply without content is summarised as the fixed sentence. */
  lemma MissingContent(pageText: string, pageTitle: string, url: string, complete: string -> Outcome)
    requires complete(Prompt(pageTitle, url, pageText)) == Answered(None)
    ensures GenerateSummary(pageText, pageTitle, url, complete) == Summarised([Unavailable], Unavailable)
  {
    UnavailableIsOneBullet();
  }

  lemma UnavailableIsOneBullet()
    ensures Bullets(Unavailable) == [Unavailable]
  {
    UnavailableIsOneLine();
    assert Unavailable[0] == 'U' && Unavailable[|Unavailable| - 1] == '.';
    PlainLineIsOneBullet(Unavailable);
  }

  lemma UnavailableIsOneLine()
    ensures '\n' !in Unavailable
  {
    assert forall i :: 0 <= i < |Unavailable| ==> Unavailable[i] != '\n';
  }

  /** A single line with no marker and no surrounding white space is its own bullet. */
  lemma PlainLineIsOneBullet(line: string)
    requires |line| > 0 && '\n' !in line
    requires !IsMarker(line[0]) && !Text.IsJsSpace(line[0]) && !Text.IsJsSpace(line[|line| - 1])
    ensures Bullets(line) == [line]
  {
    OneLineBullets(line);
    CleanPlainLine(line);
    KeptOneLine(line);
  }

  lemma OneLineBullets(line: string)
    requires '\n' !in line
    ensures Bullets(line) == Seqs.Filter(Seqs.Map(Clean, [line]), NonEmpty)
  {
    assert Text.Join([line], "\n") == line;
    BulletsOfLines([line]);
  }

  lemma KeptOneLine(line: string)
    requires line != "" && Clean(line) == line
    ensures Seqs.Filter(Seqs.Map(Clean, [line]), NonEmpty) == [line]
  {
    assert Seqs.Map(Clean, [line]) == [line];
    Seqs.FilterAll([line], NonEmpty);
  }

  lemma CleanPlainLine(line: string)
    requires |line| > 0
    requires !IsMarker(line[0]) && !Text.IsJsSpace(line[0]) && !Text.IsJsSpace(line[|line| - 1])
    ensures Clean(line) == line
  {
    assert Text.TrimStart(line, Text.IsJsSpace) == line;
    assert Text.TrimEnd(line, Text.IsJsSpace) == line;
    assert Text.JsTrim(line) == line;
  }
}

=== FILE: summary_popup.dfy ===
/**
 The summary extension's popup: the stored API key and its three-way
 settings panel, and the list of saved summaries with deletion and card
 text. Extension storage is part of the state; its writes are taken to
 complete before the state updates that follow them.
 */
module SummaryPopup {
  import opened Wrappers
  import Text
  import Seqs

  datatype Summary = Summary(id: int, title: string, text: string, url: string)

  datatype Popup = Popup(
    summaries: seq<Summary>, loading: bool,
    apiKey: string, showApiKeyInput: bool, apiKeySaved: bool,
    storedKey: Option<string>, storedSummaries: seq<Summary>)

  /** The popup as it opens, before storage has answered. */
  function Opening(storedKey: Option<string>, storedSummaries: seq<Summary>): (p: Popup)
    ensures p.loading && p.summaries == [] && !p.apiKeySaved && !p.showApiKeyInput
  {
    Popup([], true, "", false, false, storedKey, storedSummaries)
  }

  /** `loadApiKey`: a stored key fills the input and counts as saved. */
  function LoadApiKey(p: Popup): (r: Popup)
    ensures !r.loading
    ensures r.apiKeySaved <==> (p.apiKeySaved || Truthy(p.storedKey))
    ensures Truthy(p.storedKey) ==> r.apiKey == p.storedKey.value
    ensures !Truthy(p.storedKey) ==> r == p.(loading := false)
  {
    if Truthy(p.storedKey) then p.(apiKey := p.storedKey.value, apiKeySaved := true, loading := false)
    else p.(loading := false)
  }

  /** `loadSummaries`: the stored list, or none. */
  function LoadSummaries(p: Popup): (r: Popup)
    ensures r.summaries == p.storedSummaries
    ensures r.(summaries := p.summaries) == p
  {
    p.(summaries := p.storedSummaries)
  }

  /** Typing into the key field. */
  function EditKey(p: Popup, value: string): (r: Popup)
    ensures r.apiKey == value && r.(apiKey := p.apiKey) == p
  {
    p.(apiKey := value)
  }

  function ShowKeyInput(p: Popup): (r: Popup)
    ensures r.showApiKeyInput && r.(showApiKeyInput := p.showApiKeyInput) == p
  {
    p.(showApiKeyInput := true)
  }

  /** `saveApiKey`: stores the trimmed key when it is not blank, otherwise
      does nothing. The field itself keeps what was typed. */
  function SaveApiKey(p: Popup): (r: Popup)
    ensures Text.IsJsBlank(p.apiKey) ==> r == p
    ensures !Text.IsJsBlank(p.apiKey) ==>
      r == p.(storedKey := Some(Text.JsTrim(p.apiKey)), apiKeySaved := true, showApiKeyInput := false)
  {
    if Text.IsJsBlank(p.apiKey) then p
    else p.(storedKey := Some(Text.JsTrim(p.apiKey)), apiKeySaved := true, showApiKeyInput := false)
  }

  /** `removeApiKey`: the key leaves storage and the field, and the panel closes. */
  function RemoveApiKey(p: Popup): (r: Popup)
    ensures r.storedKey.None? && r.apiKey == "" && !r.apiKeySaved && !r.showApiKeyInput
    ensures r.summaries == p.summaries && r.storedSummaries == p.storedSummaries && r.loading == p.loading
  {
    p.(storedKey := None, apiKey := "", apiKeySaved := false, showApiKeyInput := false)
  }

  /** What the settings area shows. */
  datatype Panel = KeyInput | KeyConfigured | AddKeyButton

  function PanelOf(p: Popup): (panel: Panel)
    ensures panel == KeyInput <==> p.showApiKeyInput
    ensures panel == KeyConfigured <==> !p.showApiKeyInput && p.apiKeySaved
  {
    if p.showApiKeyInput then KeyInput
    else if p.apiKeySaved then KeyConfigured
    else AddKeyButton
  }

  /** A saved key is stored trimmed, so it survives a reload unchanged and
      the panel then reports it configured. */
  lemma SavedKeyIsTrimmed(p: Popup)
    requires !Text.IsJsBlank(p.apiKey)
    ensures var r := SaveApiKey(p);
      r.storedKey.Some? && Text.JsTrim(r.storedKey.value) == r.storedKey.value
      && PanelOf(r) == KeyConfigured
      && Truthy(r.storedKey) && LoadApiKey(r).apiKey == Text.JsTrim(p.apiKey)
  {
    Text.TrimIdempotent(p.apiKey, Text.IsJsSpace);
  }

  /** Removing the key undoes saving it: nothing is stored and the panel
      offers to add a key again. */
  lemma RemoveAfterSave(p: Popup)
    ensures var r := RemoveApiKey(SaveApiKey(p));
      r.storedKey.None? && PanelOf(r) == AddKeyButton && LoadApiKey(r).apiKey == ""
  {
  }

  function OtherId(id: int): Summary -> bool {
    s => HasOtherId(id, s)
  }

  predicate HasOtherId(id: int, s: Summary) {
    s.id != id
  }

  /** `deleteSummary(id)`: every summary with that id goes, from storage and
      from the list, and the others stay in order. */
  function DeleteSummary(p: Popup, id: int): (r: Popup)
    ensures r.summaries == r.storedSummaries
    ensures forall k :: 0 <= k < |r.summaries| ==> r.summaries[k].id != id
    ensures forall k :: 0 <= k < |p.summaries| && p.summaries[k].id != id ==> p.summaries[k] in r.summaries
    ensures |r.summaries| == Seqs.Count(p.summaries, OtherId(id))
    ensures Seqs.IsSubsequence(r.summaries, p.summaries)
    ensures r.apiKey == p.apiKey && r.storedKey == p.storedKey && r.apiKeySaved == p.apiKeySaved
  {
    var kept := Seqs.Filter(p.summaries, OtherId(id));
    Seqs.CountIsFilterLength(p.summaries, OtherId(id));
    p.(summaries := kept, storedSummaries := kept)
  }

  /** Deleting the same id twice is deleting it once. */
  lemma DeleteIdempotent(p: Popup, id: int)
    ensures DeleteSummary(DeleteSummary(p, id), id) == DeleteSummary(p, id)
  {
    var once := DeleteSummary(p, id);
    Seqs.FilterAll(once.summaries, OtherId(id));
  }

  /** Deleting an id no summary has changes nothing but the stored copy. */
  lemma DeleteMissingId(p: Popup, id: int)
    requires forall k :: 0 <= k < |p.summaries| ==> p.summaries[k].id != id
    ensures DeleteSummary(p, id).summaries == p.summaries
  {
    Seqs.FilterAll(p.summaries, OtherId(id));
  }

  /** `truncateText(text, max)`. */
  function TruncateText(text: string, max: nat): (r: string)
    ensures |text| <= max ==> r == text
    ensures |text| > max ==> r == text[..max] + "..."
    ensures |r| <= max + 3
  {
    var r := Text.Ellipsize(text, max);
    assert |text| > max ==> r == r[..max] + r[max..];
    r
  }

  /** A card's heading: the title, or "Untitled" when it is empty. */
  function CardTitle(s: Summary): (t: string)
    ensures t != ""
    ensures s.title != "" ==> t == s.title
  {
    if s.title != "" then s.title else "Untitled"
  }

  /** A card's description: the text cut at 120 characters. */
  function CardDescription(s: Summary): (d: string)
    ensures |d| <= 123
    ensures |s.text| <= 120 ==> d == s.text
    ensures |s.text| > 120 ==> d == s.text[..120] + "..."
  {
    TruncateText(s.text, 120)
  }
}

=== FILE: text.dfy ===
/**
 Character and string helpers shared by the JavaScript and Python sources:
 the two languages' whitespace sets, trimming, single-character split and
 join, prefixes and decimal rendering of natural numbers.
 */
module Text {

  /** The characters JavaScript's `String.prototype.trim` and the regex class
      `\s` treat as white space (WhiteSpace and LineTerminator). */
  predicate IsJsSpace(c: char) {
    c == '\t' || c == '\n' || c == '\U{000B}' || c == '\U{000C}' || c == '\r' || c == ' '
    || c == '\U{00A0}' || c == '\U{1680}' || ('\U{2000}' <= c <= '\U{200A}')
    || c == '\U{2028}' || c == '\U{2029}' || c == '\U{202F}' || c == '\U{205F}'
    || c == '\U{3000}' || c == '\U{FEFF}'
  }

  /** The characters Python's `str.isspace` accepts, which `str.strip()` removes. */
  predicate IsPySpace(c: char) {
    c == '\t' || c == '\n' || c == '\U{000B}' || c == '\U{000C}' || c == '\r'
    || ('\U{001C}' <= c <= '\U{001F}') || c == ' ' || c == '\U{0085}' || c == '\U{00A0}'
    || c == '\U{1680}' || ('\U{2000}' <= c <= '\U{200A}') || c == '\U{2028}' || c == '\U{2029}'
    || c == '\U{202F}' || c == '\U{205F}' || c == '\U{3000}'
  }

  /** Every character of `s` satisfies `sp`. */
  predicate AllSpace(s: string, sp: char -> bool) {
    forall k :: 0 <= k < |s| ==> sp(s[k])
  }

  /** Drops the longest prefix of characters satisfying `sp`. */
  function TrimStart(s: string, sp: char -> bool): (r: string)
    ensures |r| <= |s| && r == s[|s| - |r|..]
    ensures forall k :: 0 <= k < |s| - |r| ==> sp(s[k])
    ensures |r| > 0 ==> !sp(r[0])
    decreases |s|
  {
    if |s| > 0 && sp(s[0]) then TrimStart(s[1..], sp) else s
  }

  /** Drops the longest suffix of characters satisfying `sp`. */
  function TrimEnd(s: string, sp: char -> bool): (r: string)
    ensures |r| <= |s| && r == s[..|r|]
    ensures forall k :: |r| <= k < |s| ==> sp(s[k])
    ensures |r| > 0 ==> !sp(r[|r| - 1])
    decreases |s|
  {
    if |s| > 0 && sp(s[|s| - 1]) then TrimEnd(s[..|s| - 1], sp) else s
  }

  /** Removes leading and trailing characters satisfying `sp`. */
  function Trim(s: string, sp: char -> bool): (r: string)
    ensures |r| <= |s|
    ensures |r| > 0 ==> !sp(r[0]) && !sp(r[|r| - 1])
    ensures r == "" <==> AllSpace(s, sp)
  {
    var t := TrimStart(s, sp);
    var r := TrimEnd(t, sp);
    r
  }

  /** JavaScript `s.trim()`. */
  function JsTrim(s: string): string {
    Trim(s, IsJsSpace)
  }

  /** Python `s.strip()`. */
  function PyStrip(s: string): string {
    Trim(s, IsPySpace)
  }

  /** A string the truthiness test `s.trim()` rejects. */
  predicate IsJsBlank(s: string) {
    JsTrim(s) == ""
  }

  /** Trimming keeps one contiguous run of the input. */
  lemma TrimIsSlice(s: string, sp: char -> bool) returns (i: nat)
    ensures i + |Trim(s, sp)| <= |s| && Trim(s, sp) == s[i..i + |Trim(s, sp)|]
  {
    var t := TrimStart(s, sp);
    var r := TrimEnd(t, sp);
    assert Trim(s, sp) == r;
    i := |s| - |t|;
    assert t == s[i..];
    assert r == t[..|r|];
    PrefixOfSuffix(s, i, |r|);
  }

  lemma PrefixOfSuffix(s: string, i: nat, n: nat)
    requires i + n <= |s|
    ensures s[i..][..n] == s[i..i + n]
  {
  }

  /** Trimming adds no character. */
  lemma TrimChars(s: string, sp: char -> bool)
    ensures forall c :: c in Trim(s, sp) ==> c in s
  {
    var i := TrimIsSlice(s, sp);
    var r := Trim(s, sp);
    forall c | c in r ensures c in s {
      var k :| 0 <= k < |r| && r[k] == c;
      assert s[i + k] == c;
    }
  }

  /** Trimming twice is the same as trimming once. */
  lemma TrimIdempotent(s: string, sp: char -> bool)
    ensures Trim(Trim(s, sp), sp) == Trim(s, sp)
  {
    var r := Trim(s, sp);
    if |r| > 0 {
      assert TrimStart(r, sp) == r;
      assert TrimEnd(r, sp) == r;
    }
  }

  /** `s.startsWith(p)`. */
  predicate StartsWith(s: string, p: string) {
    |p| <= |s| && s[..|p|] == p
  }

  /** JavaScript `s.substring(0, n)` and Python `s[:n]` for `n >= 0`. */
  function Take(s: string, n: nat): (r: string)
    ensures |r| == if |s| <= n then |s| else n
    ensures r == s[..|r|]
  {
    if |s| <= n then s else s[..n]
  }

  /** `s` itself when it has at most `n` characters; otherwise its first `n`
      characters followed by "...". */
  function Ellipsize(s: string, n: nat): (r: string)
    ensures |s| <= n ==> r == s
    ensures |s| > n ==> |r| == n + 3 && r[..n] == s[..n] && r[n..] == "..."
    ensures |r| <= n + 3
  {
    if |s| <= n then s else s[..n] + "..."
  }

  /** Splits `s` at every occurrence of `sep`, like JavaScript `split` and
      Python `split` with a one-character separator: `k` separators give
      `k + 1` parts, and the empty string gives one empty part. */
  function Split(s: string, sep: char): (parts: seq<string>)
    ensures |parts| >= 1
    decreases |s|
  {
    if |s| == 0 then [""]
    else
      var rest := Split(s[1..], sep);
      if s[0] == sep then [""] + rest
      else [[s[0]] + rest[0]] + rest[1..]
  }

  /** Concatenates `parts` with `sep` between neighbours. */
  function Join(parts: seq<string>, sep: string): string {
    if |parts| == 0 then ""
    else if |parts| == 1 then parts[0]
    else parts[0] + sep + Join(parts[1..], sep)
  }

  /** No part produced by `Split` contains the separator. */
  lemma {:induction false} SplitPartsAvoidSeparator(s: string, sep: char)
    ensures forall i :: 0 <= i < |Split(s, sep)| ==> sep !in Split(s, sep)[i]
    decreases |s|
  {
    if |s| > 0 {
      SplitPartsAvoidSeparator(s[1..], sep);
      var rest := Split(s[1..], sep);
      var parts := Split(s, sep);
      if s[0] != sep {
        forall i | 0 <= i < |parts| ensures sep !in parts[i] {
          if i == 0 {
            assert parts[0] == [s[0]] + rest[0];
          } else {
            assert parts[i] == rest[i];
          }
        }
      }
    }
  }

  /** Joining the parts of a split with the separator gives back the input. */
  lemma {:induction false} JoinSplit(s: string, sep: char)
    ensures Join(Split(s, sep), [sep]) == s
    decreases |s|
  {
    if |s| > 0 {
      JoinSplit(s[1..], sep);
      var rest := Split(s[1..], sep);
      if s[0] == sep {
        assert Split(s, sep) == [""] + rest;
        assert Join([""] + rest, [sep]) == "" + [sep] + Join(rest, [sep]) by {
          assert ([""] + rest)[1..] == rest;
        }
        assert s == [s[0]] + s[1..];
      } else {
        var parts := Split(s, sep);
        assert parts == [[s[0]] + rest[0]] + rest[1..];
        if |rest| == 1 {
          assert parts == [[s[0]] + rest[0]];
          assert Join(rest, [sep]) == rest[0];
          assert s == [s[0]] + s[1..];
        } else {
          assert parts[1..] == rest[1..];
          assert Join(rest, [sep]) == rest[0] + [sep] + Join(rest[1..], [sep]);
          assert Join(parts, [sep]) == [s[0]] + rest[0] + [sep] + Join(rest[1..], [sep]);
          assert s == [s[0]] + s[1..];
        }
      }
    }
  }

  /** Splitting a join of separator-free parts gives back the parts. */
  lemma {:induction false} SplitJoin(parts: seq<string>, sep: char)
    requires |parts| >= 1
    requires forall i :: 0 <= i < |parts| ==> sep !in parts[i]
    ensures Split(Join(parts, [sep]), sep) == parts
    decreases |parts|, |parts[0]|
  {
    var p := parts[0];
    if |p| == 0 {
      if |parts| == 1 {
      } else {
        var tail := parts[1..];
        SplitJoin(tail, sep);
        var j := Join(parts, [sep]);
        assert j == [sep] + Join(tail, [sep]);
        assert j[1..] == Join(tail, [sep]);
        assert parts == [""] + tail;
      }
    } else {
      var smaller := [p[1..]] + parts[1..];
      assert sep !in smaller[0] by {
        assert forall x :: x in p[1..] ==> x in p;
      }
      SplitJoin(smaller, sep);
      var j := Join(parts, [sep]);
      var js := Join(smaller, [sep]);
      if |parts| == 1 {
        assert j == p && js == p[1..];
      } else {
        assert smaller[1..] == parts[1..];
        assert j == p + [sep] + Join(parts[1..], [sep]);
        assert js == p[1..] + [sep] + Join(parts[1..], [sep]);
      }
      assert j == [p[0]] + js;
      assert j[1..] == js;
      assert j[0] == p[0] && p[0] != sep;
      var rest := Split(js, sep);
      assert rest == smaller;
      assert Split(j, sep) == [[p[0]] + rest[0]] + rest[1..];
      assert [p[0]] + p[1..] == p;
      assert parts == [p] + parts[1..];
    }
  }

  /** The first part of a split is the prefix of `s` up to the first separator. */
  lemma {:induction false} SplitFirstPart(s: string, sep: char)
    ensures StartsWith(s, Split(s, sep)[0])
    ensures sep !in Split(s, sep)[0]
    ensures |Split(s, sep)[0]| < |s| ==> s[|Split(s, sep)[0]|] == sep
    decreases |s|
  {
    SplitPartsAvoidSeparator(s, sep);
    if |s| > 0 {
      SplitFirstPart(s[1..], sep);
    }
  }

  /** Every part of a split is a run of characters from `s`. */
  lemma {:induction false} SplitPartsFromInput(s: string, sep: char, i: nat, c: char)
    requires i < |Split(s, sep)| && c in Split(s, sep)[i]
    ensures c in s
    decreases |s|
  {
    if |s| > 0 {
      var rest := Split(s[1..], sep);
      if s[0] == sep {
        if i > 0 {
          assert Split(s, sep)[i] == rest[i - 1];
          SplitPartsFromInput(s[1..], sep, i - 1, c);
        }
      } else if i == 0 {
        if c != s[0] {
          assert c in rest[0];
          SplitPartsFromInput(s[1..], sep, 0, c);
        }
      } else {
        assert Split(s, sep)[i] == rest[i];
        SplitPartsFromInput(s[1..], sep, i, c);
      }
    }
  }

  /** The decimal digit for `d < 10`. */
  function Digit(d: nat): char
    requires d < 10
  {
    "0123456789"[d]
  }

  predicate IsDigit(c: char) {
    '0' <= c <= '9'
  }

  /** Decimal rendering of a natural number, as `String(n)` or `str(n)` gives it. */
  function NatToString(n: nat): (r: string)
    ensures |r| >= 1
    ensures forall k :: 0 <= k < |r| ==> IsDigit(r[k])
    ensures |r| > 1 ==> r[0] != '0'
  {
    if n < 10 then [Digit(n)] else NatToString(n / 10) + [Digit(n % 10)]
  }

  function DigitValue(c: char): nat
    requires IsDigit(c)
  {
    (c as int) - ('0' as int)
  }

  /** Reads a string of decimal digits back as a number. */
  function ParseDecimal(s: string): nat
    requires forall k :: 0 <= k < |s| ==> IsDigit(s[k])
  {
    if |s| == 0 then 0
    else 10 * ParseDecimal(s[..|s| - 1]) + DigitValue(s[|s| - 1])
  }

  /** Reading back a rendered number gives the number. */
  lemma {:induction false} ParseNatToString(n: nat)
    ensures ParseDecimal(NatToString(n)) == n
  {
    var r := NatToString(n);
    if n >= 10 {
      ParseNatToString(n / 10);
      assert r[..|r| - 1] == NatToString(n / 10);
    }
  }

  /** Distinct numbers render as distinct strings. */
  lemma NatToStringInjective(a: nat, b: nat)
    requires NatToString(a) == NatToString(b)
    ensures a == b
  {
    ParseNatToString(a);
    ParseNatToString(b);
  }
}

=== FILE: wrappers.dfy ===
/** Optional values, and the JavaScript notion of a "truthy" optional string. */
module Wrappers {

  datatype Option<+T> = None | Some(value: T)

  /** An optional string that JavaScript treats as true: present and non-empty
      (`undefined`, `null` and `""` are all false). */
  predicate Truthy(o: Option<string>) {
    o.Some? && o.value != ""
  }

  /** `a || b` on an optional string with a string fallback. */
  function OrElse(o: Option<string>, fallback: string): (r: string)
    ensures Truthy(o) ==> r == o.value
    ensures !Truthy(o) ==> r == fallback
  {
    if Truthy(o) then o.value else fallback
  }
}
